=== FILE: README.md ===
# procctrl in Dafny

procctrl is a small command-line supervisor. The command
`procctrl [options] start|stop|query <command...>` spawns a child process
under a symbolic identifier. With `-p` it also watches the parent process,
and kills the child's process tree when the parent dies. Later invocations
can `query` the child, or `stop` it by killing its whole tree.

The state lives in a data directory (default `~/.procctrl`) with this layout:

- one scope directory, named `GLOBAL` or after the parent pid;
- inside it, one information file per identifier, holding `pid:`, `sid:`,
  `ppid:` and `cmd:` lines.

Before trusting a recorded pid, procctrl compares `/proc/<pid>/cmdline` with
the saved command line. Housekeeping runs before and/or after each operation
and deletes records of processes that have gone.

This project models that core as pure functions over snapshot values.
Each snapshot is a datatype:

- the data directory: maps of scope directories to their entries;
- the machine: what `kill (pid, 0)`, `stat`, `waitpid` and
  `/proc/<pid>/cmdline` report for each pid;
- the process table: the pids and a parent function;
- the results of `fork`, `kill` and the Win32 calls.

The modules follow the source files:

| module | file | source |
|---|---|---|
| `CLib` | clib.dfy | the C library behaviour the core relies on: `%u`, `strtol`, `atoi`, C strings, 32-bit casts, errno and signal numbers |
| `Naming` | naming.dfy | identifier escaping and `get_process_path` (process.c) |
| `Record` | record.dfy | the information file: `process_save`'s text, and reading it back with `fgets`/`strncmp`/`strtol`/`strtok` (process.c) |
| `ProcVerify` | verify.dfy | `verify_pid` (process.c) |
| `Host` | host.dfy | `_is_running` on POSIX (watchdog.c) |
| `Store` | store.dfy | `process_find`, `process_save`, `process_housekeep` (process.c) |
| `Params` | params.dfy | `params`, `auto_process_identifier`, `expand_home_dir` (params.c) |
| `ProcTree` | proctree.dfy | the process table that `signal_tree` walks |
| `Kill` | kill.dfy | `signal_tree`, `kill_process`, and Windows `terminate_process` (kill.c) |
| `Watchdog` | watchdog.dfy | `_is_running` on Windows, `_watchdog0_v`, `watchdog` (watchdog.c) |
| `CommandLine` | cmdline.dfy | the Windows command line, `.bat` handling, and Windows `copy_args` quote stripping (start.c, params.c) |
| `Operations` | operations.dfy | `operation_start`, `operation_stop`, `operation_query`, `_fork_watchdog0`, `_fork_watchdog` |
| `Dispatch` | dispatch.dfy | `main` |

## Model

| member | source | states |
|---|---|---|
| CLib.StrtolDec | src/process.c:469-470 | a number printed by `%u` and followed by a non-digit reads back through `strtol` unchanged |
| CLib.ToInt32ToUInt32 | src/process.c:470 | a 32-bit pid printed with `%u` and cast back to `pid_t` after `strtol` is the same pid |
| CLib.DecLen | src/watchdog.c:43 | `%u` of a 32-bit value has at most ten digits |
| Host.CwdPathFits | src/watchdog.c:42-43 | `/proc/<pid>/cwd` always fits the 32-byte buffer, so the `snprintf` test in `_is_running` never fails |
| Naming.EscapeSeq | src/process.c:414 | the escape of a character is `^` plus two upper-case hex digits, and those digits decode back to the character |
| Naming.Escape | src/process.c:368-379 | the file name has the length `process_identifier_len` counts; every character is `^` or one that needs no escaping |
| Naming.UnescapeEscape | src/process.c:349-360 | the file name determines the identifier: decoding the escaped name gives the identifier back |
| Naming.EscapeInjective | src/process.c:406-423 | two different identifiers never map to the same file name |
| Naming.EscapeIsPlainName | src/process.c:349-360 | a file name never contains `/`, `\` or NUL |
| Naming.EscapeDotName | src/process.c:349-360 | since `.` is not escaped, exactly the identifiers ``, `.` and `..` get a file name (empty, `.`, `..`) that names the scope directory or the data directory rather than a file in it |
| Naming.EscapeAppend | src/process.c:411-421 | escaping works character by character: the escape of a concatenation is the concatenation of the escapes |
| Naming.EscapeExample | src/test_process.c:236-239 | the identifier `/Te^st\` gets the file name `^2FTe^5Est^5C` |
| Naming.CopyIdentifier | src/process.c:406-423 | `copy_process_identifier` writes the escaped identifier and a NUL when the room exceeds its length; with room equal to its length, the NUL survives only after a trailing escape |
| Naming.PidLenPositive | src/process.c:331-340 | for a positive pid, `pidlen` counts the digits `%u` prints |
| Naming.ScopeName | src/process.c:443 | the scope directory name (`GLOBAL` or the parent pid) is non-empty and has no `/` or NUL |
| Naming.PathBufferExact | src/process.c:437-447 | with the scope budgeted at its own length, the buffer holds exactly the path and its terminator |
| Naming.PathBufferOneShort | src/process.c:437-447 | a one-character scope budgeted at zero fills the buffer with the path and leaves no terminator inside it |
| Naming.ScopeBudgetExact | src/process.c:440 | `6` for `GLOBAL`, and `pidlen` for a positive parent pid, equal the scope name's length |
| Naming.GetProcessPath | src/process.c:434-448 | as written: for a global scope or a positive parent pid, the buffer holds the path and its terminator; for parent pid 0, the path fills the buffer with no NUL in it |
| Naming.GetProcessPathFixed | src/process.c:434-448 | with the scope budgeted at its printed length: the path and its terminator fill the buffer, for every parent pid |
| Naming.ZeroParentPathUnterminated | src/process.c:335-339 | data directory `d`, parent pid 0, identifier `x`: a 5-byte buffer filled by `d/0/x` |
| Naming.NegativeParentPathUnterminated | src/process.c:437-447 | a negative parent pid above -10^9 is budgeted its one to nine digits but printed by `%u` with ten; when a plain identifier still leaves room, the copy's size does not wrap: the identifier is cut to its first (length + `pidlen` - 9) characters, which fill the whole buffer with no NUL |
| Naming.CreatePath | src/process.c:384-399 | `mkdir` is called on exactly the prefixes that end before a `/`, shortest first |
| Record.CmdArgs | src/process.c:513-517 | the `cmd:` line puts a space before every argument |
| Record.LineEnd | src/process.c:468 | one `fgets` call takes at most 255 characters and stops after the first newline |
| Record.Chunks | src/process.c:468 | the successive `fgets` results concatenate to the file, each 1 to 255 characters long |
| Record.ChunksOfLines | src/process.c:468 | a file of newline-terminated lines that fit the buffer comes back from `fgets` line by line |
| Record.Strtok | src/process.c:473 | `strtok (cmd, "\r\n")` keeps the buffer's length, and changes only delimiters, which become NUL |
| Record.StrtokLine | src/process.c:472-473 | a newline-terminated command line becomes the command line followed by two NULs |
| Record.PidLine | src/process.c:469-470 | the `pid:` line sets the reader's pid to the saved 32-bit pid |
| Record.CmdLine | src/process.c:471-474 | the `cmd:` line sets the reader's command buffer to the command line followed by two NULs |
| Record.OtherLine | src/process.c:469-474 | any line without a `pid: ` or `cmd: ` prefix leaves the reader unchanged |
| Record.RecordChunks | src/process.c:510-517 | `fgets` returns the four saved lines one by one |
| Record.ParseRecordText | src/process.c:457-490 | reading back what `process_save` wrote gives the saved pid and the arguments joined by spaces (round trip of save and find) |
| ProcVerify.ProcCmdline | src/process.c:59-60 | `/proc/<pid>/cmdline` of a process with arguments ends in a NUL |
| ProcVerify.VerifyPid | src/process.c:49-94 | a `/proc` entry that cannot be opened never verifies |
| ProcVerify.ScanLoopIsTwoRuns | src/process.c:65-89 | the loop with its `break`s gives the same verdict as two independent cursor runs: one from the start of the stream, one from after its first NUL |
| ProcVerify.RunLive | src/process.c:69-84 | a cursor run succeeds exactly when every character of the stream matches, a NUL matching a space |
| ProcVerify.MatchesStored | src/process.c:70-80 | a stored text is matched by a stream exactly when the stream, with NULs shown as spaces, is a prefix of it |
| ProcVerify.CursorAccepts | src/process.c:78-89 | one cursor run ends on the terminator exactly when the stored text is the arguments joined by spaces, with or without one trailing space |
| ProcVerify.VerifyPidAccepts | src/process.c:49-94 | `verify_pid` accepts exactly the process's own command line, or that of the script it runs as an interpreter |
| ProcVerify.SavedCommandVerifies | src/process.c:61-89 | a saved command line verifies against its process, directly or behind an interpreter |
| Store.FindInRecord | src/process.c:476-482 | a non-zero result is the recorded pid; a record without a command line reports its pid unchecked |
| Store.Find | src/process.c:457-490 | a non-zero pid comes from the information file at the identifier's path; the identifiers ``, `.` and `..` open a directory, which yields no line, and are reported as 0 |
| Store.Save | src/process.c:498-526 | the scope directory exists afterwards; the result is 0 exactly when the file at the identifier's path holds the record text; for the identifiers ``, `.` and `..` opening fails with `EISDIR` (or `ENOTDIR` when the scope name is taken by a non-directory) and nothing is written |
| Store.SaveThenFind | src/process.c:457-526 | a saved record is found again while the process runs with the saved arguments, directly or behind an interpreter |
| Store.SaveKeepsOthers | src/process.c:498-526 | saving one record changes what `process_find` reports for no other identifier or scope |
| Store.SaveLookupOthers | src/process.c:498-526 | saving leaves every other entry of the data directory as it was |
| Store.CleanScope | src/process.c:207-303 | in a dead parent's scope only sub-directories survive; elsewhere exactly the entries housekeeping keeps survive, unchanged |
| Store.Housekeep | src/process.c:171-324 | ENOENT exactly when the data directory is missing; otherwise 0, no new scope appears, hidden names and non-directories are left as they were, and a scope survives exactly when entries remain after its cleaning, holding exactly those entries |
| Store.KeepRecordIsFound | src/process.c:282-296 | housekeeping keeps a record exactly when `process_find` reports it and it has a command line |
| Store.HousekeepThenFind | src/process.c:171-324 | after housekeeping, a record with a command line in a live scope is found as before; everything else is not found |
| Store.HousekeepIdempotent | src/process.c:171-324 | housekeeping twice on the same machine leaves the directory as housekeeping once |
| Store.CleanScopeStable | src/process.c:253-303 | cleaning a scope's entries a second time changes nothing |
| Params.ApplyAll | src/params.c:153-208 | the option loop fails exactly when some option is unknown or lacks its argument |
| Params.LastOfIsLast | src/params.c:155-171 | what an option's setting ends up as is the argument of its last occurrence |
| Params.OptionsLastWins | src/params.c:153-177 | with good options, every setting is the one its last occurrence gives |
| Params.Bounded | src/params.c:117 | `snprintf` keeps fewer than `size` characters, a prefix of the text, and all of it when it fits |
| Params.ExpandHomeDir | src/params.c:109-119 | `~` is replaced by HOME (`.` when unset), and the result plus its NUL exactly fills the buffer |
| Params.AutoIdBudgetFits | src/params.c:77-92 | with at least one argument, the buffer `auto_process_identifier` allocates is exactly what it writes |
| Params.AutoIdNoArgumentsOverflows | src/params.c:77-92 | with no argument, the buffer has 0 bytes and the terminator is written past it |
| Params.AutoIdBudgetFixedFits | src/params.c:77-92 | a budget with one byte for an empty command fits the identifier and its NUL for every command |
| Params.AutoProcessIdentifier | src/params.c:85-92 | the copy loop produces the arguments joined by single spaces, one byte shorter than the corrected budget |
| Params.ParseArgs | src/params.c:134-243 | EINVAL exactly when an option is bad; the first operand is the operation and the rest the command; the identifier comes from `-k` or else from the command |
| Params.KeyFromOption | src/params.c:165-168 | the identifier is the default or the argument of some `-k` option |
| Params.ParseArgsSettings | src/params.c:138-226 | every parameter is its last option's value or its default; `~/` in the data directory is expanded |
| Params.NoArgumentsDefaults | src/params.c:138-144 | with no arguments: the defaults, the data directory under HOME, FULL housekeeping, the parent as scope |
| Params.IdentifierExamples | src/test_params.c:70-78 | `query foo bar` gets the identifier `foo bar`; `-k Test` overrides it |
| ProcTree.Children | src/kill.c:119-131 | the children found are exactly the listed pids whose parent is the process |
| ProcTree.Reverse | src/kill.c:124-128 | prepending to the list reverses the order in which children were found |
| ProcTree.BelowTrans | src/kill.c:134-140 | a process below a child is below the parent |
| ProcTree.SiblingSubtreesDisjoint | src/kill.c:119-131 | the subtrees of two different children of one process share no process, since each pid has one parent |
| Kill.SignalTree | src/kill.c:106-146 | the first signal is SIGSTOP to the root; every signal goes to the root or a descendant and is STOP, the requested signal or CONT; the result is the SIGSTOP errno, or ENOENT when `/proc` cannot be listed, or else the errno of the requested signal and failing that of SIGCONT |
| Kill.SignalAll | src/kill.c:134-140 | the children's trees receive only signals aimed at strict descendants |
| Kill.KillProcess | src/kill.c:159-169 | only SIGSTOP, SIGTERM and SIGCONT are sent; on success the root's SIGTERM comes just before its SIGCONT |
| Kill.SignalOrder | src/kill.c:99-146 | on success: STOP to the root first, then only descendants, then the signal and CONT to the root last |
| Kill.ResultFromRootOnly | src/kill.c:139-145 | the result depends only on the calls about the root: failures below it are ignored |
| Kill.EarlyFailureSendsOnlyStop | src/kill.c:115-118 | if the root cannot be stopped or `/proc` cannot be listed, only SIGSTOP is sent and the result is the SIGSTOP errno or ENOENT |
| Kill.EveryDescendantSignalled | src/kill.c:106-146 | when every call succeeds, the root and every descendant receive the signal |
| Kill.SiblingOrder | src/kill.c:124-140 | children are taken in reverse `/proc` order, each with its whole subtree: every signal to an earlier-taken child's subtree precedes every signal to a later one's, whatever fails |
| Kill.SubtreeBlock | src/kill.c:99-146 | when every call succeeds, the signals of the tree of any process in the tree form one contiguous stretch of the whole trace, and no signal to that subtree lies outside it |
| Kill.TraceOrder | src/kill.c:99-146 | when every call succeeds, every process in the tree gets SIGSTOP, then the signal, then SIGCONT, and no other signal; every signal to a process below it lies between its SIGSTOP and its signal, so each descendant is signalled before its ancestors |
| Kill.SiblingOrderInTrace | src/kill.c:119-140 | when every call succeeds, the children of every process in the tree are taken in reverse `/proc` order in the whole trace: every signal to an earlier-taken child's subtree precedes every signal to a later one's |
| Kill.Terminate | src/kill.c:34-87 | the root is terminated first; every other terminated process is a descendant that is not older than the root |
| Kill.TerminateChildren | src/kill.c:61-84 | only openable children with a readable creation time not earlier than the parent's are terminated, each with its tree (the walk as intended, see Findings) |
| Kill.EligibleChildTerminated | src/kill.c:61-84 | with the snapshot walk working, every child created no earlier than the root and openable is terminated |
| Kill.TerminateAsWritten | src/kill.c:43-61 | as written, only the root is ever terminated, with the same result code as the intended walk |
| Kill.AsWrittenSparesChild | src/kill.c:43-84 | a root with one eligible child: the corrected walk terminates the child, the code as written does not |
| Kill.KillProcessWin | src/kill.c:34-87 | a failed `TerminateProcess` ends at once with its error; a creation time that cannot be read or a snapshot that cannot be taken gives `GetLastError` with only the root terminated; otherwise the result is 0 |
| Watchdog.PosixAlive | src/watchdog.c:35-58 | each entry is `_is_running` of the pid on POSIX |
| Watchdog.WinAlive | src/watchdog.c:38-40 | a null or invalid handle is not running; an open one is running while a zero wait times out |
| Watchdog.Scan | src/watchdog.c:66-78 | -1 exactly when all processes run; otherwise the index of the first process that does not |
| Watchdog.Watch | src/watchdog.c:93-113 | returns the first stopped index in the first round where one has stopped; all ran in earlier rounds |
| CommandLine.IsEscapeString | src/start.c:43-48 | true exactly when a character is white space or one of ``&()[]{}^=;!'"+,`~`` |
| CommandLine.SpacedWordsLen | src/start.c:54-63 | each argument costs at most its length plus three characters |
| CommandLine.CommandLineFits | src/start.c:66-80 | the buffer `create_command_line` allocates holds the command line and its NUL; with every argument quoted it is used to the last byte |
| CommandLine.ComspecCommandLineFits | src/start.c:50-64 | the same for the `cmd.exe /c` form, with or without arguments |
| CommandLine.UnquotedCommandLineSplits | src/start.c:66-80 | without special characters, the command line is the arguments joined by spaces and splits back into them |
| CommandLine.SpawnCommand | src/start.c:82-105 | a `.bat` program runs under ComSpec with a `cmd.exe /c` line; anything else runs as itself |
| CommandLine.BatchFileExamples | src/start.c:90-97 | `run.BAT` and `a.bAt` are batch files; `.bat` and `run.exe` are not |
| CommandLine.CopyArgWinKeepsClosingQuote | src/params.c:58-63 | as written: `"a b"` is copied as `a b"` |
| CommandLine.CopyArgWinFixed | src/params.c:58-63 | corrected: both quotes of a wrapped argument are dropped; others are unchanged |
| CommandLine.CopyArgWinFixedUnquotes | src/params.c:58-63 | the corrected copy undoes `create_command_line`'s quoting of any argument without `"` |
| Operations.OperationStart | src/start.c:200-264 | EALREADY with nothing changed when a live process is recorded; otherwise the fork error, or a child whose record is saved; with `-p` the watchdog watches (child, parent), or the watchdog fork error is returned |
| Operations.StartSavesChild | src/start.c:227-230 | the save result is 0 exactly when the child's record is in place; no other entry changes |
| Operations.OperationQuery | src/query.c:24-35 | 0 exactly when a live process is recorded, else ESRCH |
| Operations.StartThenQuery | src/start.c:204-230 | after a start whose record was saved, `query` gives 0 and a second `start` gives EALREADY |
| Operations.OperationStop | src/stop.c:29-44 | ESRCH and no signal exactly when nothing is found; otherwise the tree-kill result, starting with SIGSTOP to that pid |
| Operations.GoneProcessNotFound | src/stop.c:29-44 | once the recorded process is gone from `/proc`, `stop` and `query` both give ESRCH |
| Operations.CompanionWatchdog | src/start.c:152-161 | result 0; the child's tree is killed exactly when the scan finds the parent gone while the child runs |
| Operations.ForkWatchdogWin | src/start.c:163-191 | nothing happens if the child cannot be opened; it is killed at once if only the parent cannot be opened |
| Dispatch.RunOperation | src/main.c:51-60 | only `start` changes the data directory; an unknown operation gives 1 |
| Dispatch.RunMain | src/main.c:49-63 | a parse error is the exit code; otherwise housekeeping before on bit 0, the operation's code as exit code, housekeeping after only on success and bit 1 |
| Dispatch.HousekeepFlags | src/params.h:41-47 | NONE sets no bit, BEFORE bit 0, AFTER bit 1, FULL both |
| Dispatch.UnknownOperationExitsOne | src/main.c:57-61 | an unknown operation exits with 1 and skips the closing housekeeping |
| Dispatch.QueryHousekeepsOnce | src/main.c:50-61 | a `query` under FULL on an unchanged machine leaves the directory as one housekeeping pass does |
| Dispatch.QueryExitCode | src/main.c:50-53 | `query`'s exit code is 0 exactly when a live process is recorded after the first housekeeping, else ESRCH |

## Left out

- Locking of the data directory (`lock_data_dir`/`unlock_data_dir`, process.c:96-160): each operation runs on one snapshot, so there is no concurrency to model.
- `verify_pid` on Windows, which always answers 0 (process.c:53-54), and the Windows housekeeping branches: the POSIX branches are modelled.
- `waitpid` in `_is_running` reaps a child that has ended. Only the answer is modelled, as `Probe.reaped`, not the side effect on the process table.
- Identifiers are limited to 7-bit characters (`AllAscii`): `isalnum` and `sprintf ("^%02X")` on a negative `char` are not modelled.
- Allocation failure (`malloc`/`strdup` returning NULL, then `abort` or ENOMEM) is not modelled.
- Spawning itself (`execvp`, `_wait_for_execvp`, `CreateProcess`): the child's pid, or the fork error, is a parameter.
- Option parsing is modelled on the sequence of options `getopt` returns. Argument permutation, `optind`/`opterr` restoring and the Windows `getopt` replacement are not modelled, and neither is `params_v`.
- `copy_args` on POSIX is an identity copy; the command is the operands after the operation.
- The Windows `main` branch `procctrl fork watchdog <child> <parent>`, and the Windows watchdog launch through `CreateProcess` (start.c:232-246), are not modelled.
- Verbose output, error messages and `sleep (1)` between watchdog rounds are not modelled.
- Operations.CompanionWatchdog: `watchdog` loops for ever while both processes run. The model needs a round by which one has ended (`deadline`), so it does not state that case.
- ProcVerify.VerifyPid: the C loop can read past the stored buffer when the `/proc` stream is longer than the saved text. The model treats such a read as a mismatch.
- Naming.GetProcessPath: requires that the scope prefix does not run past the buffer. Otherwise the C code passes a wrapped-around size to `copy_process_identifier`, which is undefined behaviour.
- Store.Lookup: records are located at `data_dir/<scope>/<escaped id>` for every parent pid, the path the corrected `get_process_path` builds (Naming.GetProcessPathFixed). The code as written leaves that path unterminated for parent pid 0 (see Findings). For a negative `-P`, `pidlen` undercounts what `%u` prints: the size handed to `copy_process_identifier` wraps when the escaped identifier plus `pidlen` is under 9 characters. At exactly 9, `snprintf` truncates the scope prefix and no identifier is written. Above 9, the identifier is cut to its first (escaped length + `pidlen` - 9) characters; for a plain identifier and a parent pid above -10^9 the path then fills the buffer with no NUL (Naming.NegativeParentPathUnterminated). So the store and the operations model the intended path, not the C buffer.
- Kill.KillProcessWin: `WaitForSingleObject`'s five-second timeout is not modelled; it only prints a message.
- Dispatch.RunMain: the housekeeping result is ignored, as in `main`; an exit code from `process_housekeep` never reaches the caller.
- `parent.c` (`get_parent`) is not part of this model: the parent of each pid is a function of the process table.

## Findings

| source | as written | input that shows it | evidently intended | confidence | as-written member | corrected member |
|---|---|---|---|---|---|---|
| src/process.c:331-340, 440 | `pidlen (0)` returns 0, but `%u` prints `0` as one character, so the path buffer is one byte short and the path is left unterminated | `-P 0` with data directory `d` and identifier `x`: buffer of 5 bytes, path `d/0/x` fills it with no NUL | budget the scope by the length of what `%u` prints | medium, not executed | Naming.ZeroParentPathUnterminated | Naming.GetProcessPathFixed |
| src/params.c:77-92 | the buffer is `spawn_argc + Σ strlen` bytes, which is 0 with no command, yet a NUL is always written | `procctrl query` with no command and no `-k` | one byte for the terminator when there is no argument | medium, not executed | Params.AutoIdNoArgumentsOverflows | Params.AutoIdBudgetFixedFits |
| src/kill.c:43-61 | `PROCESSENTRY32 pe` is declared without setting `pe.dwSize` before `Process32First`, which rejects a structure whose size field is not `sizeof (PROCESSENTRY32)`, so the walk over children never starts | a root 1 with a child 2 created with it, every call succeeding: only 1 is terminated and the result is 0 | set `pe.dwSize = sizeof (pe)` first, as src/parent.c:32 does | medium, not executed | Kill.AsWrittenSparesChild | Kill.EligibleChildTerminated |
| src/params.c:58-63 | a quote-wrapped argument is copied from its second character with `len + 1` bytes, so the closing quote stays | the argument `"a b"` becomes `a b"` | drop both quotes | medium, not executed | CommandLine.CopyArgWinKeepsClosingQuote | CommandLine.CopyArgWinFixedUnquotes |

=== FILE: clib.dfy ===
/** The parts of the C runtime the procctrl core leans on: character classes in
    the "C" locale, decimal printing with `%u`, `strtol`/`atoi`, the NUL-terminated
    string view of a buffer, 32-bit integer conversions and the errno values the
    core returns (Linux numbering). */
module CLib {

  datatype Option<T> = None | Some(value: T)

  const NUL: char := 0 as char

  const TWO31: int := 0x8000_0000
  const TWO32: int := 0x1_0000_0000
  const LONG_MAX: int := 0x7FFF_FFFF_FFFF_FFFF
  const LONG_MIN: int := -0x8000_0000_0000_0000

  // errno values (Linux)
  const ENOENT: int := 2
  const ESRCH: int := 3
  const EACCES: int := 13
  const ENOTDIR: int := 20
  const EISDIR: int := 21
  const EINVAL: int := 22
  const EALREADY: int := 114

  // signal numbers (Linux)
  const SIGTERM: int := 15
  const SIGCONT: int := 18
  const SIGSTOP: int := 19

  /** A character below 128: the model restricts identifiers to 7-bit text. */
  predicate IsAscii(c: char) { c < 128 as char }

  predicate AllAscii(s: seq<char>) { forall i :: 0 <= i < |s| ==> IsAscii(s[i]) }

  /** `isdigit` */
  predicate IsDigit(c: char) { '0' <= c <= '9' }

  /** `isalnum` in the "C" locale */
  predicate IsAlnum(c: char) { IsDigit(c) || 'a' <= c <= 'z' || 'A' <= c <= 'Z' }

  /** `isspace` in the "C" locale */
  predicate IsSpace(c: char) {
    c == ' ' || c == '\t' || c == '\n' || c == 11 as char || c == 12 as char || c == '\r'
  }

  function DigitChar(d: nat): (c: char)
    requires d < 10
    ensures IsDigit(c)
  {
    ('0' as int + d) as char
  }

  function DigitValue(c: char): (d: nat)
    requires IsDigit(c)
    ensures d < 10 && DigitChar(d) == c
  {
    c as int - '0' as int
  }

  predicate AllDigits(s: seq<char>) { forall i :: 0 <= i < |s| ==> IsDigit(s[i]) }

  /** The text `printf("%u")` produces for a non-negative value. */
  function Dec(n: nat): (s: seq<char>)
    ensures 1 <= |s| && AllDigits(s)
    ensures n >= 10 <==> |s| >= 2
  {
    if n < 10 then [DigitChar(n)] else Dec(n / 10) + [DigitChar(n % 10)]
  }

  /** The value of a run of decimal digits, read left to right. */
  function DigitsValue(s: seq<char>): nat
    requires AllDigits(s)
  {
    if s == [] then 0 else DigitsValue(s[..|s| - 1]) * 10 + DigitValue(s[|s| - 1])
  }

  lemma {:induction false} DigitsValueDec(n: nat)
    ensures DigitsValue(Dec(n)) == n
  {
    if n >= 10 {
      var s := Dec(n);
      assert s[..|s| - 1] == Dec(n / 10);
      DigitsValueDec(n / 10);
    }
  }

  /** `printf("%u")` prints the value modulo 2^32. */
  function ToUInt32(v: int): (r: nat)
    ensures r < TWO32 && (r - v) % TWO32 == 0
  {
    v % TWO32
  }

  /** The conversion of a wider integer to a 32-bit `int`/`pid_t` (two's complement). */
  function ToInt32(v: int): (r: int)
    ensures -TWO31 <= r < TWO31 && (r - v) % TWO32 == 0
    ensures -TWO31 <= v < TWO31 ==> r == v
  {
    (v + TWO31) % TWO32 - TWO31
  }

  function Pow10(k: nat): nat
  {
    if k == 0 then 1 else 10 * Pow10(k - 1)
  }

  lemma {:induction false} DecBound(n: nat, k: nat)
    requires 1 <= k && n < Pow10(k)
    ensures |Dec(n)| <= k
  {
    if n >= 10 {
      assert k >= 2;
      DecBound(n / 10, k - 1);
    }
  }

  lemma {:induction false} DecAtLeast(n: nat, k: nat)
    requires Pow10(k) <= n
    ensures |Dec(n)| >= k + 1
  {
    if k > 0 {
      assert n / 10 >= Pow10(k - 1);
      DecAtLeast(n / 10, k - 1);
    }
  }

  /** `%u` prints at most ten digits. */
  lemma DecLen(n: nat)
    requires n < TWO32
    ensures |Dec(n)| <= 10
  {
    assert Pow10(10) == 10000000000;
    DecBound(n, 10);
  }

  /** A 32-bit value printed with `%u` and cast back to `int` is unchanged. */
  lemma ToInt32ToUInt32(v: int)
    requires -TWO31 <= v < TWO31
    ensures ToUInt32(v) <= LONG_MAX && ToInt32(ToUInt32(v)) == v
  {
    if v < 0 {
      assert ToUInt32(v) == v + TWO32;
    }
  }

  /** Bit `k` of a two's complement integer, as `m & (1 << k)` tests it. */
  predicate BitSet(m: int, k: nat) { (m / Pow2(k)) % 2 == 1 }

  function Pow2(k: nat): (p: nat)
    ensures p >= 1
  {
    if k == 0 then 1 else 2 * Pow2(k - 1)
  }

  /** The C-string view of a buffer: everything before the first NUL. */
  function CStr(s: seq<char>): (r: seq<char>)
    ensures |r| <= |s| && r == s[..|r|]
    ensures NUL !in r
    ensures |r| < |s| ==> s[|r|] == NUL
  {
    if s == [] || s[0] == NUL then [] else [s[0]] + CStr(s[1..])
  }

  lemma CStrNoNul(s: seq<char>)
    requires NUL !in s
    ensures CStr(s) == s
  {
  }

  function SkipSpace(s: seq<char>): (r: seq<char>)
    ensures |r| <= |s| && r == s[|s| - |r|..]
    ensures r == [] || !IsSpace(r[0])
  {
    if s != [] && IsSpace(s[0]) then SkipSpace(s[1..]) else s
  }

  /** The longest run of digits at the start of `s`. */
  function DigitPrefix(s: seq<char>): (r: seq<char>)
    ensures |r| <= |s| && r == s[..|r|] && AllDigits(r)
    ensures |r| == |s| || !IsDigit(s[|r|])
  {
    if s != [] && IsDigit(s[0]) then [s[0]] + DigitPrefix(s[1..]) else []
  }

  lemma {:induction false} DigitPrefixOf(d: seq<char>, tail: seq<char>)
    requires AllDigits(d)
    requires tail == [] || !IsDigit(tail[0])
    ensures DigitPrefix(d + tail) == d
  {
    if d != [] {
      assert (d + tail)[1..] == d[1..] + tail;
      DigitPrefixOf(d[1..], tail);
    }
  }

  /** `strtol(s, NULL, 10)` with a 64-bit `long`: leading white space, an optional
      sign, the longest run of digits; out-of-range values saturate. */
  function Strtol(s: seq<char>): (r: int)
    ensures LONG_MIN <= r <= LONG_MAX
  {
    var t := SkipSpace(s);
    var neg := t != [] && t[0] == '-';
    var body := if t != [] && (t[0] == '-' || t[0] == '+') then t[1..] else t;
    var m: int := DigitsValue(DigitPrefix(body));
    if neg then (if m > -LONG_MIN then LONG_MIN else -m)
    else (if m > LONG_MAX then LONG_MAX else m)
  }

  /** A number printed by `%u` and followed by a non-digit reads back unchanged. */
  lemma StrtolDec(n: nat, tail: seq<char>)
    requires n <= LONG_MAX
    requires tail == [] || !IsDigit(tail[0])
    ensures Strtol(Dec(n) + tail) == n
  {
    var s := Dec(n) + tail;
    assert !IsSpace(s[0]) && s[0] != '-' && s[0] != '+';
    assert SkipSpace(s) == s;
    DigitPrefixOf(Dec(n), tail);
    DigitsValueDec(n);
  }

  /** `atoi`, which glibc implements as `(int) strtol (s, NULL, 10)`. */
  function Atoi(s: seq<char>): (r: int)
    ensures -TWO31 <= r < TWO31
  {
    ToInt32(Strtol(s))
  }

  function Concat(xs: seq<seq<char>>): seq<char>
  {
    if xs == [] then [] else xs[0] + Concat(xs[1..])
  }

  /** Sum of the lengths of the strings in `xs` (the `strlen` loop). */
  function SumLen(xs: seq<seq<char>>): nat
  {
    if xs == [] then 0 else |xs[0]| + SumLen(xs[1..])
  }

  /** Strings joined with single spaces and no leading or trailing space. */
  function JoinSpaces(xs: seq<seq<char>>): seq<char>
  {
    if xs == [] then [] else if |xs| == 1 then xs[0] else xs[0] + [' '] + JoinSpaces(xs[1..])
  }

  lemma {:induction false} JoinSpacesLen(xs: seq<seq<char>>)
    requires xs != []
    ensures |JoinSpaces(xs)| == SumLen(xs) + |xs| - 1
  {
    if |xs| > 1 {
      JoinSpacesLen(xs[1..]);
    }
  }

  /** A character other than a space that no string contains is absent from their join. */
  lemma {:induction false} JoinSpacesAvoids(xs: seq<seq<char>>, c: char)
    requires NoneContains(xs, c) && c != ' '
    ensures c !in JoinSpaces(xs)
  {
    if |xs| > 1 {
      JoinSpacesAvoids(xs[1..], c);
    }
  }

  predicate NoneContains(xs: seq<seq<char>>, c: char)
  {
    forall i :: 0 <= i < |xs| ==> c !in xs[i]
  }
}

=== FILE: cmdline.dfy ===
/** The Windows command line `operation_start` builds for `CreateProcess`:
    each argument double-quoted when it holds a character the command
    interpreter treats specially, arguments separated by single spaces, and
    batch files run through `cmd.exe /c`. */
module CommandLine {
  import opened CLib

  /** `is_escape_char`: white space and ``& ( ) [ ] { } ^ = ; ! ' " + , ` ~``. */
  predicate IsEscapeChar(c: char)
  {
    IsSpace(c) || c in "&()[]{}^=;!'\"+,`~"
  }

  /** An argument is quoted when any of its characters is special. */
  predicate NeedsQuotes(a: seq<char>)
  {
    exists i :: 0 <= i < |a| && IsEscapeChar(a[i])
  }

  /** `is_escape_string`: scan the argument up to its end. */
  method IsEscapeString(a: seq<char>) returns (b: bool)
    ensures b <==> NeedsQuotes(a)
  {
    var i := 0;
    while i < |a|
      invariant 0 <= i <= |a|
      invariant forall j :: 0 <= j < i ==> !IsEscapeChar(a[j])
    {
      if IsEscapeChar(a[i]) {
        return true;
      }
      i := i + 1;
    }
    return false;
  }

  /** One argument as `"%s"` or `%s`. */
  function Quoted(a: seq<char>): seq<char>
  {
    if NeedsQuotes(a) then ['"'] + a + ['"'] else a
  }

  /** The arguments each as `" %s"` or ` "%s"`. */
  function SpacedWords(args: seq<seq<char>>): seq<char>
  {
    if args == [] then [] else [' '] + Quoted(args[0]) + SpacedWords(args[1..])
  }

  /** `create_command_line`: the first argument, then the others, each after a space. */
  function CreateCommandLine(argv: seq<seq<char>>): seq<char>
    requires argv != []
  {
    Quoted(argv[0]) + SpacedWords(argv[1..])
  }

  const COMSPEC_PREFIX: seq<char> := "cmd.exe /c"

  /** `create_comspec_command_line`: `cmd.exe /c` and every argument after a space. */
  function CreateComspecCommandLine(argv: seq<seq<char>>): seq<char>
  {
    COMSPEC_PREFIX + SpacedWords(argv)
  }

  lemma {:induction false} SpacedWordsLen(args: seq<seq<char>>)
    ensures |SpacedWords(args)| <= SumLen(args) + 3 * |args|
    ensures (forall i :: 0 <= i < |args| ==> NeedsQuotes(args[i])) ==>
      |SpacedWords(args)| == SumLen(args) + 3 * |args|
  {
    if args != [] {
      SpacedWordsLen(args[1..]);
      assert forall i :: 0 <= i < |args| - 1 ==> args[1..][i] == args[i + 1];
    }
  }

  /** The `3 * spawn_argc + Σ strlen` bytes `create_command_line` allocates
      hold the command line and its terminator; with every argument quoted
      they are all used. */
  lemma CommandLineFits(argv: seq<seq<char>>)
    requires argv != []
    ensures |CreateCommandLine(argv)| + 1 <= 3 * |argv| + SumLen(argv)
    ensures (forall i :: 0 <= i < |argv| ==> NeedsQuotes(argv[i])) ==>
      |CreateCommandLine(argv)| + 1 == 3 * |argv| + SumLen(argv)
  {
    SpacedWordsLen(argv[1..]);
    assert forall i :: 0 <= i < |argv| - 1 ==> argv[1..][i] == argv[i + 1];
  }

  /** The `3 * spawn_argc + Σ strlen + 11` bytes for the `cmd.exe /c` form
      are enough too, with or without arguments. */
  lemma ComspecCommandLineFits(argv: seq<seq<char>>)
    ensures |CreateComspecCommandLine(argv)| + 1 <= 3 * |argv| + SumLen(argv) + 11
    ensures (forall i :: 0 <= i < |argv| ==> NeedsQuotes(argv[i])) ==>
      |CreateComspecCommandLine(argv)| + 1 == 3 * |argv| + SumLen(argv) + 11
  {
    SpacedWordsLen(argv);
  }

  /** The text split at every space. */
  function SplitSpaces(s: seq<char>): (parts: seq<seq<char>>)
    ensures |parts| >= 1
  {
    if s == [] then [[]]
    else if s[0] == ' ' then [[]] + SplitSpaces(s[1..])
    else
      var rest := SplitSpaces(s[1..]);
      [[s[0]] + rest[0]] + rest[1..]
  }

  lemma {:induction false} SplitSpacesWord(a: seq<char>, tail: seq<char>)
    requires ' ' !in a
    ensures SplitSpaces(a + tail) == [a + SplitSpaces(tail)[0]] + SplitSpaces(tail)[1..]
  {
    var t := SplitSpaces(tail);
    if a == [] {
      assert a + tail == tail && a + t[0] == t[0];
      assert [t[0]] + t[1..] == t;
    } else {
      assert (a + tail)[1..] == a[1..] + tail;
      SplitSpacesWord(a[1..], tail);
      assert [a[0]] + (a[1..] + t[0]) == a + t[0];
    }
  }

  /** Without any argument that needs quotes, the command line is the
      arguments joined by spaces, and splitting it at its spaces gives the
      arguments back. */
  lemma {:induction false} UnquotedCommandLineSplits(argv: seq<seq<char>>)
    requires argv != []
    requires forall i :: 0 <= i < |argv| ==> !NeedsQuotes(argv[i])
    ensures CreateCommandLine(argv) == JoinSpaces(argv)
    ensures SplitSpaces(CreateCommandLine(argv)) == argv
  {
    UnquotedJoin(argv);
    forall i | 0 <= i < |argv| ensures ' ' !in argv[i] {
      assert !NeedsQuotes(argv[i]);
    }
    JoinSplits(argv);
  }

  lemma {:induction false} UnquotedJoin(argv: seq<seq<char>>)
    requires argv != []
    requires forall i :: 0 <= i < |argv| ==> !NeedsQuotes(argv[i])
    ensures Quoted(argv[0]) + SpacedWords(argv[1..]) == JoinSpaces(argv)
  {
    if |argv| > 1 {
      UnquotedJoin(argv[1..]);
      assert argv[1..][1..] == argv[2..];
    }
  }

  lemma {:induction false} JoinSplits(argv: seq<seq<char>>)
    requires argv != [] && NoneContains(argv, ' ')
    ensures SplitSpaces(JoinSpaces(argv)) == argv
  {
    var a := argv[0];
    if |argv| == 1 {
      SplitSpacesWord(a, []);
      assert a + [] == a;
    } else {
      var tl := argv[1..];
      var rest := JoinSpaces(tl);
      assert NoneContains(tl, ' ');
      JoinSplits(tl);
      assert JoinSpaces(argv) == a + ([' '] + rest);
      SplitSpacesWord(a, [' '] + rest);
      SplitAfterSpace(rest, tl);
      assert a + [] == a;
      assert argv == [a] + tl;
    }
  }

  /** Text that splits into `parts`, after one space, splits into an empty
      first part and then `parts`. */
  lemma SplitAfterSpace(rest: seq<char>, parts: seq<seq<char>>)
    requires SplitSpaces(rest) == parts
    ensures SplitSpaces([' '] + rest)[0] == []
    ensures SplitSpaces([' '] + rest)[1..] == parts
  {
    assert ([' '] + rest)[1..] == rest;
  }

  /** An argument the shell handed over still wrapped in double quotes. */
  predicate QuoteWrapped(a: seq<char>)
  {
    |a| >= 1 && a[0] == '"' && a[|a| - 1] == '"'
  }

  /** `copy_args` on Windows, for one argument, as written: a quote-wrapped
      argument is copied from its second character on, `len + 1` bytes, so
      the closing quote is kept. */
  function CopyArgWin(a: seq<char>): seq<char>
  {
    if QuoteWrapped(a) then a[1..] else a
  }

  /** The quoting `create_command_line` adds is not undone by the copy as
      written: the closing quote survives. */
  lemma CopyArgWinKeepsClosingQuote()
    ensures Quoted("a b") == "\"a b\""
    ensures CopyArgWin(Quoted("a b")) == "a b\""
    ensures CopyArgWin(Quoted("a b")) != "a b"
  {
    assert IsEscapeChar("a b"[1]);
    assert "\"a b\""[1..] == "a b\"";
  }

  /** `copy_args` on Windows as intended: both quotes of a wrapped argument
      of at least two characters are dropped. */
  function CopyArgWinFixed(a: seq<char>): (r: seq<char>)
    ensures QuoteWrapped(a) && |a| >= 2 ==> ['"'] + r + ['"'] == a
    ensures !QuoteWrapped(a) ==> r == a
  {
    if QuoteWrapped(a) && |a| >= 2 then a[1..|a| - 1] else a
  }

  /** The intended copy undoes the quoting of `create_command_line`: an
      argument without double quotes comes back unchanged. */
  lemma {:induction false} CopyArgWinFixedUnquotes(a: seq<char>)
    requires '"' !in a
    ensures CopyArgWinFixed(Quoted(a)) == a
  {
    if NeedsQuotes(a) {
      var q := ['"'] + a + ['"'];
      assert q[1..|q| - 1] == a;
    } else if a != [] {
      assert a[0] != '"';
    }
  }

  /** `tolower` in the "C" locale. */
  function Lower(c: char): char
  {
    if 'A' <= c <= 'Z' then (c as int - 'A' as int + 'a' as int) as char else c
  }

  /** `stricmp (a, b) == 0`. */
  predicate EqualIgnoringCase(a: seq<char>, b: seq<char>)
  {
    |a| == |b| && forall i :: 0 <= i < |a| ==> Lower(a[i]) == Lower(b[i])
  }

  /** A program name longer than four characters ending in `.bat`, in any case. */
  predicate IsBatchFile(arg0: seq<char>)
  {
    |arg0| > 4 && EqualIgnoringCase(arg0[|arg0| - 4..], ".bat")
  }

  /** The application and command line `spawn_process` passes to `CreateProcess`. */
  datatype Spawn = Spawn(application: Option<seq<char>>, commandLine: seq<char>)

  /** `spawn_process`: a batch file runs under ComSpec (`comspec` is that
      environment variable), anything else as itself. */
  function SpawnCommand(argv: seq<seq<char>>, comspec: Option<seq<char>>): (s: Spawn)
    requires argv != []
    ensures IsBatchFile(argv[0]) ==> s.application == comspec && COMSPEC_PREFIX <= s.commandLine
    ensures !IsBatchFile(argv[0]) ==> s.application == Some(argv[0]) && Quoted(argv[0]) <= s.commandLine
  {
    if IsBatchFile(argv[0]) then Spawn(comspec, CreateComspecCommandLine(argv))
    else Spawn(Some(argv[0]), CreateCommandLine(argv))
  }

  lemma BatchFileExamples()
    ensures IsBatchFile("run.BAT") && IsBatchFile("a.bAt")
    ensures !IsBatchFile(".bat") && !IsBatchFile("run.exe")
  {
    assert "run.BAT"[3..] == ".BAT";
    assert "a.bAt"[1..] == ".bAt";
    assert "run.exe"[3..] == ".exe";
    assert !EqualIgnoringCase(".exe", ".bat") by {
      assert Lower(".exe"[1]) != Lower(".bat"[1]);
    }
  }
}

=== FILE: dispatch.dfy ===
/** `main`: read the parameters, housekeep the data directory before the
    operation when bit 0 of the housekeeping mode is set, run the operation,
    and housekeep again when it succeeded and bit 1 is set. The exit code is
    the operation's result. */
module Dispatch {
  import opened CLib
  import opened Host
  import opened Store
  import opened Params
  import opened ProcTree
  import opened Kill
  import opened Operations

  datatype Operation = QueryOp | StartOp | StopOp | UnknownOp

  /** No operation, or `query`, queries; `start` and `stop` are themselves;
      any other word is unknown. */
  function SelectOperation(op: Option<seq<char>>): Operation
  {
    if op.None? || op.value == "query" then QueryOp
    else if op.value == "start" then StartOp
    else if op.value == "stop" then StopOp
    else UnknownOp
  }

  /** What the operations meet: the data directory, the machine while the
      operation runs and when the closing housekeeping runs, the process
      table and signal results for `stop`, and the two `fork` results for
      `start`. */
  datatype World = World(
    store: DataStore,
    during: System,
    after: System,
    table: Table,
    env: Posix,
    fork: ForkResult,
    watchdogFork: ForkResult)

  /** The exit code and the data directory `main` leaves behind. */
  datatype Exit = Exit(code: int, store: DataStore)

  /** The chosen operation's result and the data directory after it. */
  function RunOperation(op: Operation, store: DataStore, w: World, p: Params): (r: (int, DataStore))
    requires AllAscii(p.id) && Acyclic(w.table)
    ensures op != StartOp ==> r.1 == store
    ensures op == UnknownOp ==> r.0 == 1
  {
    match op
    case QueryOp => (OperationQuery(store, w.during, p), store)
    case StartOp =>
      var s := OperationStart(store, w.during, p, w.fork, w.watchdogFork);
      (s.rc, s.store)
    case StopOp => (OperationStop(store, w.during, p, w.table, w.env).rc, store)
    case UnknownOp => (1, store)
  }

  /** `main` on POSIX, from the parsed parameters. */
  function RunMain(parsed: Parsed, w: World): (r: Exit)
    requires parsed.Valid? ==> AllAscii(parsed.params.id)
    requires Acyclic(w.table)
    ensures parsed.Invalid? ==> r == Exit(parsed.code, w.store)
    ensures parsed.Valid? ==>
      var p := parsed.params;
      var before := if BitSet(p.housekeep, 0) then Housekeep(w.store, w.during).1 else w.store;
      var done := RunOperation(SelectOperation(p.operation), before, w, p);
      r.code == done.0
      && (done.0 != 0 || !BitSet(p.housekeep, 1) ==> r.store == done.1)
      && (done.0 == 0 && BitSet(p.housekeep, 1) ==> r.store == Housekeep(done.1, w.after).1)
  {
    match parsed
    case Invalid(code) => Exit(code, w.store)
    case Valid(p) =>
      var before := if BitSet(p.housekeep, HOUSEKEEP_BEFORE - 1) then Housekeep(w.store, w.during).1 else w.store;
      var done := RunOperation(SelectOperation(p.operation), before, w, p);
      var after := if done.0 == 0 && BitSet(p.housekeep, HOUSEKEEP_AFTER - 1) then Housekeep(done.1, w.after).1 else done.1;
      Exit(done.0, after)
  }

  /** The `-H` flags as `main` tests them: NONE sets no bit, BEFORE bit 0,
      AFTER bit 1 and FULL both. */
  lemma HousekeepFlags()
    ensures !BitSet(HOUSEKEEP_NONE, 0) && !BitSet(HOUSEKEEP_NONE, 1)
    ensures BitSet(HOUSEKEEP_BEFORE, 0) && !BitSet(HOUSEKEEP_BEFORE, 1)
    ensures !BitSet(HOUSEKEEP_AFTER, 0) && BitSet(HOUSEKEEP_AFTER, 1)
    ensures BitSet(HOUSEKEEP_FULL, 0) && BitSet(HOUSEKEEP_FULL, 1)
  {
    assert Pow2(1) == 2;
  }

  /** A failed operation leaves housekeeping undone afterwards: an unknown
      operation exits with 1 and the directory as the first housekeeping
      left it. */
  lemma UnknownOperationExitsOne(p: Params, w: World)
    requires AllAscii(p.id) && Acyclic(w.table)
    requires SelectOperation(p.operation) == UnknownOp
    ensures RunMain(Valid(p), w).code == 1
    ensures RunMain(Valid(p), w).store == if BitSet(p.housekeep, 0) then Housekeep(w.store, w.during).1 else w.store
  {
  }

  /** A `query` under the default FULL mode on an unchanged machine leaves
      the directory exactly as one housekeeping pass does: the second pass
      finds nothing more to remove. */
  lemma QueryHousekeepsOnce(p: Params, w: World)
    requires AllAscii(p.id) && Acyclic(w.table)
    requires SelectOperation(p.operation) == QueryOp && p.housekeep == HOUSEKEEP_FULL
    requires w.after == w.during
    ensures RunMain(Valid(p), w).store == Housekeep(w.store, w.during).1
  {
    HousekeepFlags();
    HousekeepIdempotent(w.store, w.during);
  }

  /** Whatever housekeeping does, the exit code is the operation's result on
      the directory it sees: `query` exits 0 exactly when a live process is
      recorded there. */
  lemma QueryExitCode(p: Params, w: World)
    requires AllAscii(p.id) && Acyclic(w.table)
    requires SelectOperation(p.operation) == QueryOp
    ensures var before := if BitSet(p.housekeep, 0) then Housekeep(w.store, w.during).1 else w.store;
      (RunMain(Valid(p), w).code == 0 <==> FindFor(before, w.during, p) != 0)
      && (RunMain(Valid(p), w).code != 0 ==> RunMain(Valid(p), w).code == ESRCH)
  {
  }
}

=== FILE: host.dfy ===
/** What the core asks the operating system about other processes, as a
    snapshot: for each pid, what `kill (pid, 0)`, `stat ("/proc/<pid>/cwd")`
    and `waitpid (pid, &status, WNOHANG)` report, and what
    `/proc/<pid>/cmdline` holds. */
module Host {
  import opened CLib

  /** The answers `_is_running` collects about one pid. */
  datatype Probe = Probe(
    killOk: bool,     // kill (pid, 0) == 0
    cwdIsDir: bool,   // stat of /proc/<pid>/cwd succeeds and is a directory
    reaped: bool)     // waitpid (pid, &status, WNOHANG) == pid: a child that has just ended

  /** `_is_running` on POSIX. The path `/proc/<pid>/cwd` always fits the
      32-byte buffer (at most 20 characters with a 10-digit pid), so the
      `snprintf` length test never fails. */
  predicate IsRunning(p: Probe)
  {
    p.killOk && p.cwdIsDir && !p.reaped
  }

  lemma CwdPathFits(pid: int)
    ensures |"/proc/" + Dec(ToUInt32(pid)) + "/cwd"| < 32
  {
    DecLen(ToUInt32(pid));
  }

  /** The processes of the machine, as seen at one moment. */
  datatype System = System(
    probe: int -> Probe,
    cmdline: nat -> Option<seq<char>>)   // /proc/<pid as %u>/cmdline; None if it cannot be opened

  predicate Running(sys: System, pid: int)
  {
    IsRunning(sys.probe(pid))
  }
}

=== FILE: kill.dfy ===
/** Process termination: `kill_process` signals a whole process tree.
    On POSIX each process is stopped, its children (found through `/proc`
    and `get_parent`) are signalled recursively, and then the process gets
    the signal and SIGCONT; on Windows the process is terminated first and
    then every child created no earlier than it. The operating system is a
    snapshot: the process table, and the error each call would report. */
module Kill {
  import opened CLib
  import opened ProcTree

  /** One `kill (pid, sig)` call, in the order the calls are made. */
  datatype Send = Send(pid: int, sig: int)

  /** What the POSIX calls of `signal_tree` report: whether `opendir ("/proc")`
      succeeds, and the errno of `kill (pid, sig)` (0 when it succeeds). */
  datatype Posix = Posix(procOpens: bool, killErr: (int, int) -> int)

  /** The result code of `signal_tree` and every signal it sent. */
  datatype Outcome = Outcome(rc: int, sent: seq<Send>)

  predicate IsTreeSignal(s: Send, sig: int)
  {
    s.sig == SIGSTOP || s.sig == sig || s.sig == SIGCONT
  }

  /** `signal_tree (p, sig)`: SIGSTOP to `p`, then the whole tree below each
      child of `p` (the children list is built by prepending, so they are
      visited in reverse `/proc` order, and their results are ignored), then
      `sig` and SIGCONT to `p`. The first failing call on `p` itself ends it
      with that errno; a `/proc` that cannot be listed gives ENOENT. */
  function SignalTree(t: Table, env: Posix, p: int, sig: int): (r: Outcome)
    requires Acyclic(t)
    ensures |r.sent| >= 1 && r.sent[0] == Send(p, SIGSTOP)
    ensures forall i :: 0 <= i < |r.sent| ==> r.sent[i].pid == p || Below(t, r.sent[i].pid, p)
    ensures forall i :: 0 <= i < |r.sent| ==> IsTreeSignal(r.sent[i], sig)
    ensures env.killErr(p, SIGSTOP) != 0 ==> r == Outcome(env.killErr(p, SIGSTOP), [Send(p, SIGSTOP)])
    ensures env.killErr(p, SIGSTOP) == 0 && !env.procOpens ==> r == Outcome(ENOENT, [Send(p, SIGSTOP)])
    ensures env.killErr(p, SIGSTOP) == 0 && env.procOpens ==>
      r.rc == (if env.killErr(p, sig) != 0 then env.killErr(p, sig) else env.killErr(p, SIGCONT))
    decreases |t.pids| - Height(t, p), 1
  {
    var stop := env.killErr(p, SIGSTOP);
    if stop != 0 then Outcome(stop, [Send(p, SIGSTOP)])
    else if !env.procOpens then Outcome(ENOENT, [Send(p, SIGSTOP)])
    else
      var below := SignalAll(t, env, p, Reverse(Children(t, p)), sig);
      var post := env.killErr(p, sig);
      if post != 0 then Outcome(post, [Send(p, SIGSTOP)] + below + [Send(p, sig)])
      else Outcome(env.killErr(p, SIGCONT), [Send(p, SIGSTOP)] + below + [Send(p, sig), Send(p, SIGCONT)])
  }

  /** The trees below `kids`, all children of `p`, one after the other. */
  function SignalAll(t: Table, env: Posix, p: int, kids: seq<int>, sig: int): (sent: seq<Send>)
    requires Acyclic(t)
    requires forall k :: k in kids ==> k in t.pids && t.parentOf(k) == p
    ensures forall i :: 0 <= i < |sent| ==> Below(t, sent[i].pid, p)
    ensures forall i :: 0 <= i < |sent| ==> IsTreeSignal(sent[i], sig)
    decreases |t.pids| - Height(t, p), 0, |kids|
  {
    if kids == [] then []
    else
      var k := kids[0];
      HeightStep(t, k);
      var first := SignalTree(t, env, k, sig).sent;
      assert forall i :: 0 <= i < |first| ==> Below(t, first[i].pid, p) by {
        forall i | 0 <= i < |first| ensures Below(t, first[i].pid, p) {
          if first[i].pid != k {
            BelowTrans(t, first[i].pid, k, p);
          }
        }
      }
      first + SignalAll(t, env, p, kids[1..], sig)
  }

  /** `kill_process` on POSIX: the tree is sent SIGTERM. */
  function KillProcess(t: Table, env: Posix, p: int): (r: Outcome)
    requires Acyclic(t)
    ensures forall i :: 0 <= i < |r.sent| ==> r.sent[i].sig in {SIGSTOP, SIGTERM, SIGCONT}
    ensures r.rc == 0 ==> |r.sent| >= 2 && r.sent[|r.sent| - 2] == Send(p, SIGTERM)
  {
    var r := SignalTree(t, env, p, SIGTERM);
    assert r.rc == 0 ==> r.sent[|r.sent| - 2] == Send(p, SIGTERM) by {
      if r.rc == 0 {
        SignalOrder(t, env, p, SIGTERM);
      }
    }
    assert forall i :: 0 <= i < |r.sent| ==> IsTreeSignal(r.sent[i], SIGTERM);
    r
  }

  /** The root gets no signal while its descendants are signalled: apart from
      its own three signals (STOP first, then `sig`, then CONT, at the very
      end) every signal goes to a strict descendant, so every descendant's
      signal comes before the root's. */
  lemma SignalOrder(t: Table, env: Posix, p: int, sig: int)
    requires Acyclic(t)
    requires SignalTree(t, env, p, sig).rc == 0
    ensures var s := SignalTree(t, env, p, sig).sent;
      |s| >= 3 && s[0] == Send(p, SIGSTOP) && s[|s| - 2] == Send(p, sig) && s[|s| - 1] == Send(p, SIGCONT)
      && forall i :: 0 < i < |s| - 2 ==> Below(t, s[i].pid, p) && s[i].pid != p
  {
    var s := SignalTree(t, env, p, sig).sent;
    var below := SignalAll(t, env, p, Reverse(Children(t, p)), sig);
    assert s == [Send(p, SIGSTOP)] + below + [Send(p, sig), Send(p, SIGCONT)];
    forall i | 0 < i < |s| - 2 ensures Below(t, s[i].pid, p) && s[i].pid != p {
      assert s[i] == below[i - 1];
      if s[i].pid == p {
        BelowHeight(t, p, p);
      }
    }
  }

  /** Only the root's own calls decide the result: the trees below it are
      signalled, but their failures are ignored. */
  lemma ResultFromRootOnly(t: Table, e1: Posix, e2: Posix, p: int, sig: int)
    requires Acyclic(t)
    requires e1.procOpens == e2.procOpens
    requires forall s :: e1.killErr(p, s) == e2.killErr(p, s)
    ensures SignalTree(t, e1, p, sig).rc == SignalTree(t, e2, p, sig).rc
  {
  }

  /** A root that cannot be stopped, or a `/proc` that cannot be listed,
      means nothing beyond that SIGSTOP is sent: the result is the SIGSTOP
      errno, or ENOENT with the root left stopped. */
  lemma EarlyFailureSendsOnlyStop(t: Table, env: Posix, p: int, sig: int)
    requires Acyclic(t)
    requires env.killErr(p, SIGSTOP) != 0 || !env.procOpens
    ensures SignalTree(t, env, p, sig).sent == [Send(p, SIGSTOP)]
    ensures SignalTree(t, env, p, sig).rc == if env.killErr(p, SIGSTOP) != 0 then env.killErr(p, SIGSTOP) else ENOENT
    ensures SignalTree(t, env, p, sig).rc != 0
  {
  }

  /** Every call succeeds. */
  ghost predicate Succeeds(env: Posix)
  {
    env.procOpens && forall pid, s :: env.killErr(pid, s) == 0
  }

  /** A strict descendant is the child of `p` or below one. */
  lemma {:induction false} BelowSomeChild(t: Table, d: int, p: int) returns (c: int)
    requires Acyclic(t) && Below(t, d, p)
    ensures c in t.pids && t.parentOf(c) == p && (d == c || Below(t, d, c))
    decreases Height(t, d)
  {
    HeightStep(t, d);
    if t.parentOf(d) == p {
      c := d;
    } else {
      var q := t.parentOf(d);
      c := BelowSomeChild(t, q, p);
      assert Below(t, d, c);
    }
  }

  lemma SignalAllIncludes(t: Table, env: Posix, p: int, kids: seq<int>, sig: int, j: int)
    requires Acyclic(t)
    requires forall k :: k in kids ==> k in t.pids && t.parentOf(k) == p
    requires 0 <= j < |kids|
    ensures forall x :: x in SignalTree(t, env, kids[j], sig).sent ==> x in SignalAll(t, env, p, kids, sig)
  {
    if j > 0 {
      SignalAllIncludes(t, env, p, kids[1..], sig, j - 1);
    }
  }

  /** When every call succeeds, the root and every process below it receive
      the signal. */
  lemma {:induction false} EveryDescendantSignalled(t: Table, env: Posix, p: int, d: int, sig: int)
    requires Acyclic(t) && Succeeds(env)
    requires d == p || Below(t, d, p)
    ensures Send(d, sig) in SignalTree(t, env, p, sig).sent
    decreases |t.pids| - Height(t, p)
  {
    var s := SignalTree(t, env, p, sig).sent;
    var kids := Reverse(Children(t, p));
    var below := SignalAll(t, env, p, kids, sig);
    assert env.killErr(p, SIGSTOP) == 0 && env.killErr(p, sig) == 0;
    assert s == [Send(p, SIGSTOP)] + below + [Send(p, sig), Send(p, SIGCONT)];
    if d == p {
      assert s[|s| - 2] == Send(p, sig);
    } else {
      var c := BelowSomeChild(t, d, p);
      HeightStep(t, c);
      EveryDescendantSignalled(t, env, c, d, sig);
      assert c in Children(t, p);
      var j :| 0 <= j < |Children(t, p)| && Children(t, p)[j] == c;
      assert kids[|kids| - 1 - j] == c;
      SignalAllIncludes(t, env, p, kids, sig, |kids| - 1 - j);
      assert Send(d, sig) in below;
    }
  }

  /** Every signal the trees below `kids` receive goes into the subtree of
      one of them. */
  lemma {:induction false} SignalAllMember(t: Table, env: Posix, p: int, kids: seq<int>, sig: int, u: int) returns (m: int)
    requires Acyclic(t)
    requires forall k :: k in kids ==> k in t.pids && t.parentOf(k) == p
    requires 0 <= u < |SignalAll(t, env, p, kids, sig)|
    ensures 0 <= m < |kids| && InSubtree(t, SignalAll(t, env, p, kids, sig)[u].pid, kids[m])
    decreases |kids|
  {
    if u < |SignalTree(t, env, kids[0], sig).sent| {
      m := 0;
      FirstMember(t, env, p, kids, sig, u);
    } else {
      var m' := SignalAllMember(t, env, p, kids[1..], sig, u - |SignalTree(t, env, kids[0], sig).sent|);
      m := m' + 1;
      LaterMember(t, env, p, kids, sig, u, m');
    }
  }

  /** A signal among the first child's tree goes into the first child's subtree. */
  lemma FirstMember(t: Table, env: Posix, p: int, kids: seq<int>, sig: int, u: int)
    requires Acyclic(t)
    requires forall k :: k in kids ==> k in t.pids && t.parentOf(k) == p
    requires kids != [] && 0 <= u < |SignalTree(t, env, kids[0], sig).sent|
    ensures u < |SignalAll(t, env, p, kids, sig)| && InSubtree(t, SignalAll(t, env, p, kids, sig)[u].pid, kids[0])
  {
    var first := SignalTree(t, env, kids[0], sig).sent;
    assert SignalAll(t, env, p, kids, sig) == first + SignalAll(t, env, p, kids[1..], sig);
  }

  /** A signal past the first child's tree is a signal of the later children's trees. */
  lemma LaterMember(t: Table, env: Posix, p: int, kids: seq<int>, sig: int, u: int, m': int)
    requires Acyclic(t)
    requires forall k :: k in kids ==> k in t.pids && t.parentOf(k) == p
    requires kids != [] && |SignalTree(t, env, kids[0], sig).sent| <= u < |SignalAll(t, env, p, kids, sig)|
    requires 0 <= m' < |kids| - 1
    requires InSubtree(t, SignalAll(t, env, p, kids[1..], sig)[u - |SignalTree(t, env, kids[0], sig).sent|].pid, kids[1..][m'])
    ensures InSubtree(t, SignalAll(t, env, p, kids, sig)[u].pid, kids[m' + 1])
  {
    var first := SignalTree(t, env, kids[0], sig).sent;
    var rest := SignalAll(t, env, p, kids[1..], sig);
    assert SignalAll(t, env, p, kids, sig) == first + rest;
    assert kids[1..][m'] == kids[m' + 1];
  }

  /** The signals below two different children of `p` never share a
      position: a signal in the subtree of `kids[m]` is not in the subtree
      of any other listed child. */
  lemma OnlyOneChildSubtree(t: Table, p: int, kids: seq<int>, q: int, m: int, j: int)
    requires Acyclic(t) && NoDuplicates(kids)
    requires forall k :: k in kids ==> k in t.pids && t.parentOf(k) == p
    requires 0 <= m < |kids| && 0 <= j < |kids| && m != j
    requires InSubtree(t, q, kids[m])
    ensures !InSubtree(t, q, kids[j])
  {
    if InSubtree(t, q, kids[j]) {
      assert kids[m] in kids && kids[j] in kids;
      SiblingSubtreesDisjoint(t, q, kids[m], kids[j]);
    }
  }

  /** The pids of the subtree of `c`. */
  function Subtree(t: Table, c: int): (r: set<int>)
    requires Acyclic(t)
    ensures forall q :: q in r <==> InSubtree(t, q, c)
  {
    set q | q in t.pids + [c] && InSubtree(t, q, c)
  }

  /** `block` sits at `all[o..]`, and every signal of `all` that `inside`
      selects lies in it. */
  ghost predicate BlockAt(all: seq<Send>, block: seq<Send>, o: int, inside: set<int>)
  {
    0 <= o && o + |block| <= |all| && all[o..o + |block|] == block
    && forall j :: 0 <= j < |all| && all[j].pid in inside ==> o <= j < o + |block|
  }

  lemma BlockFirst(first: seq<Send>, rest: seq<Send>, inside: set<int>)
    requires forall j :: 0 <= j < |rest| ==> rest[j].pid !in inside
    ensures BlockAt(first + rest, first, 0, inside)
  {
    var all := first + rest;
    assert all[0..|first|] == first;
    assert forall j :: 0 <= j < |all| && all[j].pid in inside ==> j < |first|;
  }

  lemma BlockAfter(all: seq<Send>, first: seq<Send>, rest: seq<Send>, block: seq<Send>, o: int, inside: set<int>) returns (o2: int)
    requires all == first + rest
    requires BlockAt(rest, block, o, inside)
    requires forall j :: 0 <= j < |first| ==> first[j].pid !in inside
    ensures o2 == |first| + o
    ensures BlockAt(all, block, o2, inside)
  {
    o2 := |first| + o;
    assert all[|first| + o..|first| + o + |block|] == rest[o..o + |block|];
    forall j | 0 <= j < |all| && all[j].pid in inside ensures |first| + o <= j < |first| + o + |block| {
      if j >= |first| {
        assert all[j] == rest[j - |first|];
      }
    }
  }

  /** A block inside a block is a block of the whole. */
  lemma BlockNested(all: seq<Send>, mid: seq<Send>, o: int, outer: set<int>,
                    block: seq<Send>, i: int, inner: set<int>)
    requires BlockAt(all, mid, o, outer) && BlockAt(mid, block, i, inner)
    requires inner <= outer
    ensures BlockAt(all, block, o + i, inner)
  {
    assert forall k :: 0 <= k < |block| ==> all[o + i + k] == mid[i + k] == block[k];
    assert all[o + i..o + i + |block|] == block;
    forall j | 0 <= j < |all| && all[j].pid in inner ensures o + i <= j < o + i + |block| {
      assert all[j] == mid[j - o];
    }
  }

  /** The signals of the tree of the first child are all in its subtree. */
  lemma FirstChildSignals(t: Table, env: Posix, p: int, kids: seq<int>, sig: int, m: int)
    requires Acyclic(t) && NoDuplicates(kids)
    requires forall k :: k in kids ==> k in t.pids && t.parentOf(k) == p
    requires 0 < m < |kids|
    ensures forall j :: 0 <= j < |SignalTree(t, env, kids[0], sig).sent| ==>
      SignalTree(t, env, kids[0], sig).sent[j].pid !in Subtree(t, kids[m])
  {
    var first := SignalTree(t, env, kids[0], sig).sent;
    forall j | 0 <= j < |first| ensures first[j].pid !in Subtree(t, kids[m]) {
      OnlyOneChildSubtree(t, p, kids, first[j].pid, 0, m);
    }
  }

  /** No signal to the trees of the later children is in the subtree of the first. */
  lemma LaterChildrenSignals(t: Table, env: Posix, p: int, kids: seq<int>, sig: int)
    requires Acyclic(t) && NoDuplicates(kids)
    requires forall k :: k in kids ==> k in t.pids && t.parentOf(k) == p
    requires kids != []
    ensures forall j :: 0 <= j < |SignalAll(t, env, p, kids[1..], sig)| ==>
      SignalAll(t, env, p, kids[1..], sig)[j].pid !in Subtree(t, kids[0])
  {
    var rest := SignalAll(t, env, p, kids[1..], sig);
    forall j | 0 <= j < |rest| ensures rest[j].pid !in Subtree(t, kids[0]) {
      var k := SignalAllMember(t, env, p, kids[1..], sig, j);
      OnlyOneChildSubtree(t, p, kids, rest[j].pid, k + 1, 0);
    }
  }

  /** In the trace of the trees below `kids`, the tree of `kids[m]` is one
      contiguous block, and no signal to that subtree lies outside it. */
  lemma {:induction false} ChildBlock(t: Table, env: Posix, p: int, kids: seq<int>, sig: int, m: int) returns (o: int)
    requires Acyclic(t) && NoDuplicates(kids)
    requires forall k :: k in kids ==> k in t.pids && t.parentOf(k) == p
    requires 0 <= m < |kids|
    ensures BlockAt(SignalAll(t, env, p, kids, sig), SignalTree(t, env, kids[m], sig).sent, o, Subtree(t, kids[m]))
    decreases |kids|
  {
    if m == 0 {
      o := 0;
      FirstBlock(t, env, p, kids, sig);
    } else {
      TailFacts(t, p, kids);
      var o' := ChildBlock(t, env, p, kids[1..], sig, m - 1);
      assert kids[1..][m - 1] == kids[m];
      FirstChildSignals(t, env, p, kids, sig, m);
      o := LaterBlock(t, env, p, kids, sig, m, o');
    }
  }

  /** The tree of the first child opens the trace of the trees below `kids`. */
  lemma FirstBlock(t: Table, env: Posix, p: int, kids: seq<int>, sig: int)
    requires Acyclic(t) && NoDuplicates(kids)
    requires forall k :: k in kids ==> k in t.pids && t.parentOf(k) == p
    requires kids != []
    ensures BlockAt(SignalAll(t, env, p, kids, sig), SignalTree(t, env, kids[0], sig).sent, 0, Subtree(t, kids[0]))
  {
    var first := SignalTree(t, env, kids[0], sig).sent;
    var rest := SignalAll(t, env, p, kids[1..], sig);
    assert SignalAll(t, env, p, kids, sig) == first + rest;
    LaterChildrenSignals(t, env, p, kids, sig);
    BlockFirst(first, rest, Subtree(t, kids[0]));
  }

  /** The trees below a non-empty list of children: the first child's tree, then the rest. */
  lemma SignalAllSplit(t: Table, env: Posix, p: int, kids: seq<int>, sig: int)
    requires Acyclic(t)
    requires forall k :: k in kids ==> k in t.pids && t.parentOf(k) == p
    requires kids != []
    ensures SignalAll(t, env, p, kids, sig) == SignalTree(t, env, kids[0], sig).sent + SignalAll(t, env, p, kids[1..], sig)
  {
  }

  /** A block of the trees of the later children, moved past the tree of the first. */
  lemma LaterBlock(t: Table, env: Posix, p: int, kids: seq<int>, sig: int, m: int, o': int) returns (o: int)
    requires Acyclic(t)
    requires forall k :: k in kids ==> k in t.pids && t.parentOf(k) == p
    requires 0 < m < |kids|
    requires BlockAt(SignalAll(t, env, p, kids[1..], sig), SignalTree(t, env, kids[m], sig).sent, o', Subtree(t, kids[m]))
    requires forall j :: 0 <= j < |SignalTree(t, env, kids[0], sig).sent| ==>
      SignalTree(t, env, kids[0], sig).sent[j].pid !in Subtree(t, kids[m])
    ensures BlockAt(SignalAll(t, env, p, kids, sig), SignalTree(t, env, kids[m], sig).sent, o, Subtree(t, kids[m]))
  {
    SignalAllSplit(t, env, p, kids, sig);
    o := BlockAfter(SignalAll(t, env, p, kids, sig), SignalTree(t, env, kids[0], sig).sent, SignalAll(t, env, p, kids[1..], sig),
                    SignalTree(t, env, kids[m], sig).sent, o', Subtree(t, kids[m]));
  }

  /** The trees below `kids` are signalled one after another in list order:
      every signal to the subtree of an earlier child precedes every signal
      to the subtree of a later one. */
  lemma {:induction false} SiblingOrderAll(t: Table, env: Posix, p: int, kids: seq<int>, sig: int,
                                            u: int, v: int, j1: int, j2: int)
    requires Acyclic(t) && NoDuplicates(kids)
    requires forall k :: k in kids ==> k in t.pids && t.parentOf(k) == p
    requires 0 <= j1 < j2 < |kids|
    requires 0 <= u < |SignalAll(t, env, p, kids, sig)| && 0 <= v < |SignalAll(t, env, p, kids, sig)|
    requires InSubtree(t, SignalAll(t, env, p, kids, sig)[u].pid, kids[j1])
    requires InSubtree(t, SignalAll(t, env, p, kids, sig)[v].pid, kids[j2])
    ensures u < v
    decreases |kids|
  {
    if j1 == 0 {
      FirstBeforeLater(t, env, p, kids, sig, u, v, j2);
    } else {
      RestIndex(t, env, p, kids, sig, u, j1);
      RestIndex(t, env, p, kids, sig, v, j2);
      TailFacts(t, p, kids);
      SiblingOrderAll(t, env, p, kids[1..], sig, u - |SignalTree(t, env, kids[0], sig).sent|,
                      v - |SignalTree(t, env, kids[0], sig).sent|, j1 - 1, j2 - 1);
    }
  }

  /** Signals to the subtree of the first child precede those to the subtree of any later one. */
  lemma FirstBeforeLater(t: Table, env: Posix, p: int, kids: seq<int>, sig: int, u: int, v: int, j2: int)
    requires Acyclic(t) && NoDuplicates(kids)
    requires forall k :: k in kids ==> k in t.pids && t.parentOf(k) == p
    requires 0 < j2 < |kids|
    requires 0 <= u < |SignalAll(t, env, p, kids, sig)| && 0 <= v < |SignalAll(t, env, p, kids, sig)|
    requires InSubtree(t, SignalAll(t, env, p, kids, sig)[u].pid, kids[0])
    requires InSubtree(t, SignalAll(t, env, p, kids, sig)[v].pid, kids[j2])
    ensures u < v
  {
    var all := SignalAll(t, env, p, kids, sig);
    var first := SignalTree(t, env, kids[0], sig).sent;
    var rest := SignalAll(t, env, p, kids[1..], sig);
    assert all == first + rest;
    FirstChildSignals(t, env, p, kids, sig, j2);
    assert all[v].pid in Subtree(t, kids[j2]);
    SplitIndex(first, rest, v, Subtree(t, kids[j2]));
    LaterChildrenSignals(t, env, p, kids, sig);
    assert all[u].pid in Subtree(t, kids[0]);
    SplitIndexLast(first, rest, u, Subtree(t, kids[0]));
  }

  /** A signal to the subtree of a later child is a signal of the trees of the later children. */
  lemma RestIndex(t: Table, env: Posix, p: int, kids: seq<int>, sig: int, u: int, j: int)
    requires Acyclic(t) && NoDuplicates(kids)
    requires forall k :: k in kids ==> k in t.pids && t.parentOf(k) == p
    requires 0 < j < |kids|
    requires 0 <= u < |SignalAll(t, env, p, kids, sig)|
    requires InSubtree(t, SignalAll(t, env, p, kids, sig)[u].pid, kids[j])
    ensures 0 <= u - |SignalTree(t, env, kids[0], sig).sent| < |SignalAll(t, env, p, kids[1..], sig)|
    ensures InSubtree(t, SignalAll(t, env, p, kids[1..], sig)[u - |SignalTree(t, env, kids[0], sig).sent|].pid, kids[1..][j - 1])
  {
    var all := SignalAll(t, env, p, kids, sig);
    var first := SignalTree(t, env, kids[0], sig).sent;
    var rest := SignalAll(t, env, p, kids[1..], sig);
    assert all == first + rest;
    FirstChildSignals(t, env, p, kids, sig, j);
    assert all[u].pid in Subtree(t, kids[j]);
    SplitIndex(first, rest, u, Subtree(t, kids[j]));
    assert all[u] == rest[u - |first|];
    assert kids[1..][j - 1] == kids[j];
  }

  /** The later children of `p` are children of `p` listed once. */
  lemma TailFacts(t: Table, p: int, kids: seq<int>)
    requires NoDuplicates(kids) && kids != []
    requires forall k :: k in kids ==> k in t.pids && t.parentOf(k) == p
    ensures NoDuplicates(kids[1..])
    ensures forall k :: k in kids[1..] ==> k in t.pids && t.parentOf(k) == p
  {
    assert forall i :: 0 <= i < |kids[1..]| ==> kids[1..][i] == kids[i + 1];
  }

  /** A selected signal of `first + rest` lies past `first` when `first` has none. */
  lemma SplitIndex(first: seq<Send>, rest: seq<Send>, j: int, inside: set<int>)
    requires 0 <= j < |first + rest| && (first + rest)[j].pid in inside
    requires forall k :: 0 <= k < |first| ==> first[k].pid !in inside
    ensures |first| <= j
  {
  }

  /** A selected signal of `first + rest` lies in `first` when `rest` has none. */
  lemma SplitIndexLast(first: seq<Send>, rest: seq<Send>, j: int, inside: set<int>)
    requires 0 <= j < |first + rest| && (first + rest)[j].pid in inside
    requires forall k :: 0 <= k < |rest| ==> rest[k].pid !in inside
    ensures j < |first|
  {
  }

  /** The signals of a block, read off the whole trace. */
  lemma BlockElements(all: seq<Send>, block: seq<Send>, o: int, inside: set<int>)
    requires BlockAt(all, block, o, inside)
    ensures forall k :: 0 <= k < |block| ==> all[o + k] == block[k]
  {
    forall k | 0 <= k < |block| ensures all[o + k] == block[k] {
      assert all[o..o + |block|][k] == block[k];
    }
  }

  /** A selected signal of the whole trace is a signal of the block. */
  lemma BlockIndex(all: seq<Send>, block: seq<Send>, o: int, inside: set<int>, j: int)
    requires BlockAt(all, block, o, inside)
    requires 0 <= j < |all| && all[j].pid in inside
    ensures o <= j < o + |block| && all[j] == block[j - o]
  {
    assert all[o..o + |block|][j - o] == block[j - o];
  }

  /** A middle part that holds every selected signal is a block. */
  lemma BlockMiddle(head: seq<Send>, mid: seq<Send>, tail: seq<Send>, inside: set<int>)
    requires forall k :: 0 <= k < |head| ==> head[k].pid !in inside
    requires forall k :: 0 <= k < |tail| ==> tail[k].pid !in inside
    ensures BlockAt(head + mid + tail, mid, |head|, inside)
  {
    var all := head + mid + tail;
    assert all[|head|..|head| + |mid|] == mid;
    forall j | 0 <= j < |all| && all[j].pid in inside ensures |head| <= j < |head| + |mid| {
    }
  }

  /** Once the root is stopped and `/proc` listed, the trees below its
      children form one block of its trace, holding every signal to the
      subtree of the child `c`. */
  lemma RootFrame(t: Table, env: Posix, p: int, sig: int, c: int)
    requires Acyclic(t) && env.killErr(p, SIGSTOP) == 0 && env.procOpens
    requires c in t.pids && t.parentOf(c) == p
    ensures BlockAt(SignalTree(t, env, p, sig).sent, SignalAll(t, env, p, Reverse(Children(t, p)), sig), 1, Subtree(t, c))
  {
    var all := SignalAll(t, env, p, Reverse(Children(t, p)), sig);
    var post := if env.killErr(p, sig) != 0 then [Send(p, sig)] else [Send(p, sig), Send(p, SIGCONT)];
    assert SignalTree(t, env, p, sig).sent == [Send(p, SIGSTOP)] + all + post;
    NotInChildSubtree(t, p, c);
    BlockMiddle([Send(p, SIGSTOP)], all, post, Subtree(t, c));
  }

  /** In the trace of `signal_tree (p, sig)`, the children of `p` are taken
      in reverse `/proc` order, each with its whole subtree: every signal to
      the subtree of an earlier-taken child precedes every signal to the
      subtree of a later one. Failures do not change this. */
  lemma SiblingOrder(t: Table, env: Posix, p: int, sig: int, u: int, v: int, j1: int, j2: int)
    requires Acyclic(t) && NoDuplicates(t.pids)
    requires 0 <= j1 < j2 < |Reverse(Children(t, p))|
    requires 0 <= u < |SignalTree(t, env, p, sig).sent| && 0 <= v < |SignalTree(t, env, p, sig).sent|
    requires InSubtree(t, SignalTree(t, env, p, sig).sent[u].pid, Reverse(Children(t, p))[j1])
    requires InSubtree(t, SignalTree(t, env, p, sig).sent[v].pid, Reverse(Children(t, p))[j2])
    ensures u < v
  {
    SiblingOrderOnce(t, env, p, sig, u, v, j1, j2);
  }

  /** SiblingOrder, for a table that may list a pid twice. */
  lemma SiblingOrderOnce(t: Table, env: Posix, p: int, sig: int, u: int, v: int, j1: int, j2: int)
    requires Acyclic(t)
    requires 0 <= j1 < j2 < |Reverse(Children(t, p))|
    requires 0 <= u < |SignalTree(t, env, p, sig).sent| && 0 <= v < |SignalTree(t, env, p, sig).sent|
    requires InSubtree(t, SignalTree(t, env, p, sig).sent[u].pid, Reverse(Children(t, p))[j1])
    requires InSubtree(t, SignalTree(t, env, p, sig).sent[v].pid, Reverse(Children(t, p))[j2])
    ensures NoDuplicates(t.pids) ==> u < v
  {
    if env.killErr(p, SIGSTOP) != 0 || !env.procOpens {
      EarlyTraceMissesChild(t, env, p, sig, u, j1);
      assert false;
    } else {
      StartedIndices(t, env, p, sig, u, v, j1, j2);
      ChildrenInOrder(t, env, p, sig, u - 1, v - 1, j1, j2);
    }
  }

  /** The `u`-th signal of `s` goes to a process in the subtree of `c`. */
  ghost predicate SentInto(t: Table, s: seq<Send>, u: int, c: int)
    requires Acyclic(t)
  {
    0 <= u < |s| && InSubtree(t, s[u].pid, c)
  }

  /** Two signals to the subtrees of children of a stopped root, located among
      the trees below the root. */
  lemma StartedIndices(t: Table, env: Posix, p: int, sig: int, u: int, v: int, j1: int, j2: int)
    requires Acyclic(t) && env.killErr(p, SIGSTOP) == 0 && env.procOpens
    requires 0 <= j1 < j2 < |Reverse(Children(t, p))|
    requires SentInto(t, SignalTree(t, env, p, sig).sent, u, Reverse(Children(t, p))[j1])
    requires SentInto(t, SignalTree(t, env, p, sig).sent, v, Reverse(Children(t, p))[j2])
    ensures SentInto(t, SignalAll(t, env, p, Reverse(Children(t, p)), sig), u - 1, Reverse(Children(t, p))[j1])
    ensures SentInto(t, SignalAll(t, env, p, Reverse(Children(t, p)), sig), v - 1, Reverse(Children(t, p))[j2])
  {
    StartedIndex(t, env, p, sig, u, j1);
    StartedIndex(t, env, p, sig, v, j2);
  }

  /** A signal to the subtree of the `j`-th child taken is a signal of the
      trees below the root, one place earlier. */
  lemma StartedIndex(t: Table, env: Posix, p: int, sig: int, u: int, j: int)
    requires Acyclic(t) && env.killErr(p, SIGSTOP) == 0 && env.procOpens
    requires 0 <= j < |Reverse(Children(t, p))|
    requires SentInto(t, SignalTree(t, env, p, sig).sent, u, Reverse(Children(t, p))[j])
    ensures SentInto(t, SignalAll(t, env, p, Reverse(Children(t, p)), sig), u - 1, Reverse(Children(t, p))[j])
  {
    var c := Reverse(Children(t, p))[j];
    assert c in Reverse(Children(t, p));
    assert SignalTree(t, env, p, sig).sent[u].pid in Subtree(t, c);
    RootFrame(t, env, p, sig, c);
    BlockIndex(SignalTree(t, env, p, sig).sent, SignalAll(t, env, p, Reverse(Children(t, p)), sig), 1, Subtree(t, c), u);
  }

  /** SiblingOrderAll for the children of `p` as `signal_tree` takes them,
      when they are listed once. */
  lemma ChildrenInOrder(t: Table, env: Posix, p: int, sig: int, u: int, v: int, j1: int, j2: int)
    requires Acyclic(t)
    requires 0 <= j1 < j2 < |Reverse(Children(t, p))|
    requires SentInto(t, SignalAll(t, env, p, Reverse(Children(t, p)), sig), u, Reverse(Children(t, p))[j1])
    requires SentInto(t, SignalAll(t, env, p, Reverse(Children(t, p)), sig), v, Reverse(Children(t, p))[j2])
    ensures NoDuplicates(t.pids) ==> u < v
  {
    if NoDuplicates(t.pids) {
      ReversedChildrenNoDuplicates(t, p);
      SiblingOrderAll(t, env, p, Reverse(Children(t, p)), sig, u, v, j1, j2);
    }
  }

  /** A tree whose root could not be stopped, or whose `/proc` could not be
      listed, sends nothing to the subtree of any child. */
  lemma EarlyTraceSparesChildren(t: Table, env: Posix, p: int, sig: int, c: int)
    requires Acyclic(t) && (env.killErr(p, SIGSTOP) != 0 || !env.procOpens)
    requires c in t.pids && t.parentOf(c) == p
    ensures forall j :: 0 <= j < |SignalTree(t, env, p, sig).sent| ==> SignalTree(t, env, p, sig).sent[j].pid !in Subtree(t, c)
  {
    NotInChildSubtree(t, p, c);
  }

  /** EarlyTraceSparesChildren, for the `j`-th child taken and the `u`-th signal. */
  lemma EarlyTraceMissesChild(t: Table, env: Posix, p: int, sig: int, u: int, j: int)
    requires Acyclic(t) && (env.killErr(p, SIGSTOP) != 0 || !env.procOpens)
    requires 0 <= j < |Reverse(Children(t, p))|
    ensures !SentInto(t, SignalTree(t, env, p, sig).sent, u, Reverse(Children(t, p))[j])
  {
    var c := Reverse(Children(t, p))[j];
    assert c in Reverse(Children(t, p));
    EarlyTraceSparesChildren(t, env, p, sig, c);
  }

  /** The subtree of a process holds the subtree of each process in it. */
  lemma SubtreeWithin(t: Table, a: int, c: int)
    requires Acyclic(t) && InSubtree(t, a, c)
    ensures Subtree(t, a) <= Subtree(t, c)
  {
    forall q | q in Subtree(t, a) ensures q in Subtree(t, c) {
      InSubtreeTrans(t, q, a, c);
    }
  }

  /** Once the root is stopped and `/proc` listed, the tree of each child
      is one block of the root's trace, holding every signal to its subtree. */
  lemma ChildInTrace(t: Table, env: Posix, p: int, sig: int, c: int) returns (o: int)
    requires Acyclic(t) && env.killErr(p, SIGSTOP) == 0 && env.procOpens
    requires c in t.pids && t.parentOf(c) == p
    ensures NoDuplicates(t.pids) ==> BlockAt(SignalTree(t, env, p, sig).sent, SignalTree(t, env, c, sig).sent, o, Subtree(t, c))
  {
    o := 0;
    if NoDuplicates(t.pids) {
      var kids := Reverse(Children(t, p));
      ReversedChildrenNoDuplicates(t, p);
      assert c in kids;
      var m :| 0 <= m < |kids| && kids[m] == c;
      RootFrame(t, env, p, sig, c);
      var o' := ChildBlock(t, env, p, kids, sig, m);
      BlockNested(SignalTree(t, env, p, sig).sent, SignalAll(t, env, p, kids, sig), 1, Subtree(t, c),
                  SignalTree(t, env, c, sig).sent, o', Subtree(t, c));
      o := 1 + o';
    }
  }

  /** When every call succeeds, the trace of the tree of `a`, anywhere
      below `p`, is one contiguous block of the trace of `p`, and no signal to
      the subtree of `a` lies outside it. */
  lemma SubtreeBlock(t: Table, env: Posix, p: int, sig: int, a: int) returns (i: int)
    requires Acyclic(t) && NoDuplicates(t.pids) && Succeeds(env)
    requires InSubtree(t, a, p)
    ensures BlockAt(SignalTree(t, env, p, sig).sent, SignalTree(t, env, a, sig).sent, i, Subtree(t, a))
  {
    i := SubtreeBlockIf(t, env, p, sig, a);
  }

  /** SubtreeBlock, for a table that may list a pid twice. */
  lemma {:induction false} SubtreeBlockIf(t: Table, env: Posix, p: int, sig: int, a: int) returns (i: int)
    requires Acyclic(t) && Succeeds(env)
    requires InSubtree(t, a, p)
    ensures NoDuplicates(t.pids) ==> BlockAt(SignalTree(t, env, p, sig).sent, SignalTree(t, env, a, sig).sent, i, Subtree(t, a))
    decreases Height(t, a) - Height(t, p)
  {
    if a == p {
      i := 0;
      WholeBlock(SignalTree(t, env, p, sig).sent, Subtree(t, a));
    } else {
      var c := ChildTowards(t, a, p);
      var i' := SubtreeBlockIf(t, env, c, sig, a);
      i := ThroughChild(t, env, p, sig, c, a, i');
    }
  }

  /** A block of `a`'s tree in the trace of `p`'s child `c` is a block in the trace of `p`. */
  lemma ThroughChild(t: Table, env: Posix, p: int, sig: int, c: int, a: int, i': int) returns (i: int)
    requires Acyclic(t) && env.killErr(p, SIGSTOP) == 0 && env.procOpens
    requires c in t.pids && t.parentOf(c) == p && InSubtree(t, a, c)
    ensures NoDuplicates(t.pids) && BlockAt(SignalTree(t, env, c, sig).sent, SignalTree(t, env, a, sig).sent, i', Subtree(t, a))
            ==> BlockAt(SignalTree(t, env, p, sig).sent, SignalTree(t, env, a, sig).sent, i, Subtree(t, a))
  {
    var o := ChildInTrace(t, env, p, sig, c);
    i := BlockInParent(t, SignalTree(t, env, p, sig).sent, SignalTree(t, env, c, sig).sent, SignalTree(t, env, a, sig).sent, c, a, o, i');
  }

  /** A trace is a block of itself. */
  lemma WholeBlock(s: seq<Send>, inside: set<int>)
    ensures BlockAt(s, s, 0, inside)
  {
    assert s[0..|s|] == s;
  }

  /** The child of `p` on the way down to `a`, one level closer to `a`. */
  lemma ChildTowards(t: Table, a: int, p: int) returns (c: int)
    requires Acyclic(t) && Below(t, a, p)
    ensures c in t.pids && t.parentOf(c) == p && InSubtree(t, a, c)
    ensures 0 <= Height(t, a) - Height(t, c) < Height(t, a) - Height(t, p)
  {
    c := BelowSomeChild(t, a, p);
    HeightStep(t, c);
    if a != c {
      BelowHeight(t, a, c);
    }
  }

  /** The block of `a` inside the block of `c`, a process above it, is a
      block of the whole trace. */
  lemma BlockInParent(t: Table, sp: seq<Send>, sc: seq<Send>, sa: seq<Send>, c: int, a: int, o: int, i': int) returns (i: int)
    requires Acyclic(t) && InSubtree(t, a, c)
    ensures i == o + i'
    ensures BlockAt(sp, sc, o, Subtree(t, c)) && BlockAt(sc, sa, i', Subtree(t, a)) ==> BlockAt(sp, sa, i, Subtree(t, a))
  {
    i := o + i';
    if BlockAt(sp, sc, o, Subtree(t, c)) && BlockAt(sc, sa, i', Subtree(t, a)) {
      SubtreeWithin(t, a, c);
      BlockNested(sp, sc, o, Subtree(t, c), sa, i', Subtree(t, a));
    }
  }

  /** Where the tree of `a` sits in the trace `s`: the block `s[i..i + n]`
      opens with SIGSTOP to `a` and closes with `sig` and then SIGCONT to
      `a`; `a` gets no other signal; every signal to a process below `a`
      lies strictly between its SIGSTOP and its `sig`; and every process
      below `a` receives `sig` there. */
  ghost predicate SignalledInOrder(t: Table, s: seq<Send>, a: int, sig: int, i: int, n: int)
    requires Acyclic(t)
  {
    0 <= i && 3 <= n && i + n <= |s|
    && s[i] == Send(a, SIGSTOP) && s[i + n - 2] == Send(a, sig) && s[i + n - 1] == Send(a, SIGCONT)
    && (forall j :: 0 <= j < |s| && s[j].pid == a ==> j == i || j == i + n - 2 || j == i + n - 1)
    && (forall j :: 0 <= j < |s| && Below(t, s[j].pid, a) ==> i < j < i + n - 2)
    && (forall d :: Below(t, d, a) ==> Send(d, sig) in s[i + 1..i + n - 2])
  }

  /** A block whose only signals to `a` are at `ends` leaves none elsewhere. */
  lemma OnlyAtEnds(t: Table, s: seq<Send>, block: seq<Send>, a: int, i: int)
    requires Acyclic(t) && BlockAt(s, block, i, Subtree(t, a)) && |block| >= 3
    requires forall k :: 0 < k < |block| - 2 ==> block[k].pid != a
    ensures forall j :: 0 <= j < |s| && s[j].pid == a ==> j == i || j == i + |block| - 2 || j == i + |block| - 1
  {
    BlockElements(s, block, i, Subtree(t, a));
    forall j | 0 <= j < |s| && s[j].pid == a ensures j == i || j == i + |block| - 2 || j == i + |block| - 1 {
      assert s[j].pid in Subtree(t, a);
      assert s[j] == block[j - i];
    }
  }

  /** Signals below `a` lie inside its block, away from its own three. */
  lemma BelowInside(t: Table, s: seq<Send>, block: seq<Send>, a: int, i: int)
    requires Acyclic(t) && BlockAt(s, block, i, Subtree(t, a)) && |block| >= 3
    requires block[0].pid == a && block[|block| - 2].pid == a && block[|block| - 1].pid == a
    ensures forall j :: 0 <= j < |s| && Below(t, s[j].pid, a) ==> i < j < i + |block| - 2
  {
    BlockElements(s, block, i, Subtree(t, a));
    forall j | 0 <= j < |s| && Below(t, s[j].pid, a) ensures i < j < i + |block| - 2 {
      assert s[j].pid in Subtree(t, a);
      BelowHeight(t, s[j].pid, a);
      assert s[j] == block[j - i];
    }
  }

  /** The `sig` each descendant receives in the block lies between the ends. */
  lemma DescendantsInside(t: Table, s: seq<Send>, block: seq<Send>, a: int, sig: int, i: int)
    requires Acyclic(t) && BlockAt(s, block, i, Subtree(t, a)) && |block| >= 3
    requires block[0].pid == a && block[|block| - 2].pid == a && block[|block| - 1].pid == a
    requires forall d :: Below(t, d, a) ==> Send(d, sig) in block
    ensures forall d :: Below(t, d, a) ==> Send(d, sig) in s[i + 1..i + |block| - 2]
  {
    var n := |block|;
    BlockElements(s, block, i, Subtree(t, a));
    forall d | Below(t, d, a) ensures Send(d, sig) in s[i + 1..i + n - 2] {
      BelowHeight(t, d, a);
      var k :| 0 <= k < n && block[k] == Send(d, sig);
      assert s[i + 1..i + n - 2][k - 1] == Send(d, sig);
    }
  }

  /** A block of the shape `signal_tree (a, sig)` leaves on success gives
      the order of the whole trace around `a`. */
  lemma InOrderFromBlock(t: Table, s: seq<Send>, block: seq<Send>, a: int, sig: int, i: int)
    requires Acyclic(t) && BlockAt(s, block, i, Subtree(t, a))
    requires |block| >= 3 && block[0] == Send(a, SIGSTOP)
    requires block[|block| - 2] == Send(a, sig) && block[|block| - 1] == Send(a, SIGCONT)
    requires forall k :: 0 < k < |block| - 2 ==> block[k].pid != a
    requires forall d :: Below(t, d, a) ==> Send(d, sig) in block
    ensures SignalledInOrder(t, s, a, sig, i, |block|)
  {
    BlockElements(s, block, i, Subtree(t, a));
    OnlyAtEnds(t, s, block, a, i);
    BelowInside(t, s, block, a, i);
    DescendantsInside(t, s, block, a, sig, i);
  }

  /** When every call succeeds, every process of the tree is handled in
      order: its SIGSTOP, then the trees below it, then its `sig`, then its
      SIGCONT; so every descendant gets its signal before its ancestor. */
  lemma TraceOrder(t: Table, env: Posix, p: int, sig: int, a: int)
    requires Acyclic(t) && NoDuplicates(t.pids) && Succeeds(env)
    requires InSubtree(t, a, p)
    ensures exists i, n :: SignalledInOrder(t, SignalTree(t, env, p, sig).sent, a, sig, i, n)
  {
    var block := SignalTree(t, env, a, sig).sent;
    var i := SubtreeBlock(t, env, p, sig, a);
    assert env.killErr(a, SIGCONT) == 0;
    SignalOrder(t, env, a, sig);
    forall d | Below(t, d, a) ensures Send(d, sig) in block {
      EveryDescendantSignalled(t, env, a, d, sig);
    }
    InOrderFromBlock(t, SignalTree(t, env, p, sig).sent, block, a, sig, i);
  }

  /** When every call succeeds, the children of any process `a` in the tree
      are taken in reverse `/proc` order in the whole trace: every signal to
      the subtree of an earlier-taken child of `a` precedes every signal to
      the subtree of a later one. */
  lemma SiblingOrderInTrace(t: Table, env: Posix, p: int, sig: int, a: int, u: int, v: int, j1: int, j2: int)
    requires Acyclic(t) && NoDuplicates(t.pids) && Succeeds(env)
    requires InSubtree(t, a, p)
    requires 0 <= j1 < j2 < |Reverse(Children(t, a))|
    requires 0 <= u < |SignalTree(t, env, p, sig).sent| && 0 <= v < |SignalTree(t, env, p, sig).sent|
    requires InSubtree(t, SignalTree(t, env, p, sig).sent[u].pid, Reverse(Children(t, a))[j1])
    requires InSubtree(t, SignalTree(t, env, p, sig).sent[v].pid, Reverse(Children(t, a))[j2])
    ensures u < v
  {
    var i := SubtreeBlock(t, env, p, sig, a);
    SiblingOrderShifted(t, env, a, sig, SignalTree(t, env, p, sig).sent, i, u, v, j1, j2);
  }

  /** SiblingOrder for a trace `s` that holds the tree of `a` as a block at `i`. */
  lemma SiblingOrderShifted(t: Table, env: Posix, a: int, sig: int, s: seq<Send>, i: int, u: int, v: int, j1: int, j2: int)
    requires Acyclic(t)
    requires BlockAt(s, SignalTree(t, env, a, sig).sent, i, Subtree(t, a))
    requires 0 <= j1 < j2 < |Reverse(Children(t, a))|
    requires 0 <= u < |s| && 0 <= v < |s|
    requires InSubtree(t, s[u].pid, Reverse(Children(t, a))[j1])
    requires InSubtree(t, s[v].pid, Reverse(Children(t, a))[j2])
    ensures NoDuplicates(t.pids) ==> u < v
  {
    var kids := Reverse(Children(t, a));
    assert kids[j1] in kids && kids[j2] in kids;
    var u' := ShiftIntoBlock(t, env, a, sig, s, i, kids[j1], u);
    var v' := ShiftIntoBlock(t, env, a, sig, s, i, kids[j2], v);
    SiblingOrderOnce(t, env, a, sig, u', v', j1, j2);
  }

  /** A signal to the subtree of a child of `a` is a signal of the block of `a`. */
  lemma ShiftIntoBlock(t: Table, env: Posix, a: int, sig: int, s: seq<Send>, i: int, c: int, u: int) returns (u': int)
    requires Acyclic(t) && BlockAt(s, SignalTree(t, env, a, sig).sent, i, Subtree(t, a))
    requires c in t.pids && t.parentOf(c) == a
    requires 0 <= u < |s| && InSubtree(t, s[u].pid, c)
    ensures u' == u - i
    ensures 0 <= u' < |SignalTree(t, env, a, sig).sent|
    ensures InSubtree(t, SignalTree(t, env, a, sig).sent[u'].pid, c)
  {
    u' := u - i;
    assert InSubtree(t, c, a);
    InSubtreeTrans(t, s[u].pid, c, a);
    BlockIndex(s, SignalTree(t, env, a, sig).sent, i, Subtree(t, a), u);
  }

  // ---------------------------------------------------------------------
  // Windows

  /** What the Win32 calls of `terminate_process` report: the error of
      `TerminateProcess` (0 on success), the creation time `GetProcessTimes`
      gives (None when it fails), whether `OpenProcess` succeeds, whether the
      Toolhelp snapshot can be taken, and what `GetLastError` then says. */
  datatype Win = Win(
    terminateErr: int -> int,
    created: int -> Option<int>,
    opens: int -> bool,
    snapshotOk: bool,
    lastError: int)

  /** The result code of `terminate_process` and every process it tried to
      terminate, in order. */
  datatype WinOutcome = WinOutcome(rc: int, terminated: seq<int>)

  /** `c` is eligible for termination as a child of a process created at
      `since`: it can be opened, its creation time can be read, and it is not
      older than its parent (so a reused pid is left alone). */
  predicate Eligible(w: Win, since: int, c: int)
  {
    w.opens(c) && w.created(c).Some? && since <= w.created(c).value
  }

  /** `terminate_process (p)`: terminate `p`, then read its creation time and
      recurse into every eligible child, in snapshot order. */
  function Terminate(t: Table, w: Win, p: int): (r: WinOutcome)
    requires Acyclic(t)
    ensures |r.terminated| >= 1 && r.terminated[0] == p
    ensures forall i :: 1 <= i < |r.terminated| ==>
      Below(t, r.terminated[i], p) && w.created(p).Some? && Eligible(w, w.created(p).value, r.terminated[i])
    decreases |t.pids| - Height(t, p), 1
  {
    if w.terminateErr(p) != 0 then WinOutcome(w.terminateErr(p), [p])
    else if w.created(p).None? || !w.snapshotOk then WinOutcome(w.lastError, [p])
    else WinOutcome(0, [p] + TerminateChildren(t, w, p, w.created(p).value, t.pids))
  }

  /** The eligible children of `p` among `entries`, each with its own tree. */
  function TerminateChildren(t: Table, w: Win, p: int, since: int, entries: seq<int>): (ts: seq<int>)
    requires Acyclic(t)
    requires forall e :: e in entries ==> e in t.pids
    ensures forall i :: 0 <= i < |ts| ==> Below(t, ts[i], p) && Eligible(w, since, ts[i])
    decreases |t.pids| - Height(t, p), 0, |entries|
  {
    if entries == [] then []
    else
      var c := entries[0];
      var rest := TerminateChildren(t, w, p, since, entries[1..]);
      if t.parentOf(c) == p && Eligible(w, since, c) then
        HeightStep(t, c);
        var first := Terminate(t, w, c).terminated;
        assert forall i :: 0 <= i < |first| ==> Below(t, first[i], p) && Eligible(w, since, first[i]) by {
          forall i | 0 <= i < |first| ensures Below(t, first[i], p) && Eligible(w, since, first[i]) {
            if i > 0 {
              BelowTrans(t, first[i], c, p);
            }
          }
        }
        first + rest
      else rest
  }

  /** Every eligible child of a root whose creation time and snapshot are
      available is terminated, with its tree. */
  lemma EligibleChildTerminated(t: Table, w: Win, p: int, c: int)
    requires Acyclic(t)
    requires w.terminateErr(p) == 0 && w.created(p).Some? && w.snapshotOk
    requires c in t.pids && t.parentOf(c) == p && Eligible(w, w.created(p).value, c)
    ensures c in Terminate(t, w, p).terminated
  {
    ChildAmongEntries(t, w, p, w.created(p).value, t.pids, c);
  }

  lemma {:induction false} ChildAmongEntries(t: Table, w: Win, p: int, since: int, entries: seq<int>, c: int)
    requires Acyclic(t)
    requires forall e :: e in entries ==> e in t.pids
    requires c in entries && t.parentOf(c) == p && Eligible(w, since, c)
    ensures c in TerminateChildren(t, w, p, since, entries)
    decreases |entries|
  {
    if entries[0] == c {
      HeightStep(t, c);
      assert Terminate(t, w, c).terminated[0] == c;
    } else {
      ChildAmongEntries(t, w, p, since, entries[1..], c);
    }
  }

  /** `terminate_process` as written: `pe.dwSize` is never set before
      `Process32First`, which then fails, so the snapshot walk never runs.
      The result code is the corrected one; only the root is terminated. */
  function TerminateAsWritten(t: Table, w: Win, p: int): (r: WinOutcome)
    requires Acyclic(t)
    ensures r.terminated == [p]
    ensures r.rc == Terminate(t, w, p).rc
  {
    if w.terminateErr(p) != 0 then WinOutcome(w.terminateErr(p), [p])
    else if w.created(p).None? || !w.snapshotOk then WinOutcome(w.lastError, [p])
    else WinOutcome(0, [p])
  }

  /** A root 1 with a child 2 created with it, every call succeeding: the
      corrected walk terminates the child, the code as written leaves it running. */
  lemma AsWrittenSparesChild()
    ensures var t := Table([1, 2], x => if x == 2 then 1 else 0);
      var w := Win(x => 0, x => Some(0), x => true, true, 0);
      Acyclic(t) && 2 in Terminate(t, w, 1).terminated && 2 !in TerminateAsWritten(t, w, 1).terminated
  {
    var t := Table([1, 2], x => if x == 2 then 1 else 0);
    var w := Win(x => 0, x => Some(0), x => true, true, 0);
    assert Chain(t, 0, 2) == Some(0);
    assert Chain(t, 1, 2) == Some(1);
    assert Chain(t, 2, 2) == Some(2) by {
      assert Chain(t, 0, 0) == Some(0);
      assert Chain(t, 1, 1) == Some(1);
    }
    assert Acyclic(t);
    EligibleChildTerminated(t, w, 1, 2);
  }

  /** On Windows, `kill_process` terminates the tree. */
  function KillProcessWin(t: Table, w: Win, p: int): (r: WinOutcome)
    requires Acyclic(t)
    ensures w.terminateErr(p) != 0 ==> r == WinOutcome(w.terminateErr(p), [p])
    ensures w.terminateErr(p) == 0 ==> r.rc == if w.created(p).None? || !w.snapshotOk then w.lastError else 0
    ensures w.terminateErr(p) == 0 && (w.created(p).None? || !w.snapshotOk) ==> r.terminated == [p]
    ensures |r.terminated| > 1 ==> r.rc == 0
    ensures forall i :: 0 <= i < |r.terminated| ==>
      r.terminated[i] == p || (w.created(p).Some? && w.created(r.terminated[i]).Some? &&
                               w.created(p).value <= w.created(r.terminated[i]).value)
  {
    Terminate(t, w, p)
  }
}

=== FILE: naming.dfy ===
/** Record naming: how a symbolic process identifier becomes the path of its
    information file, `<data_dir>/GLOBAL/<escaped id>` or
    `<data_dir>/<parent pid>/<escaped id>`, and the exact buffer that
    `get_process_path` fills in. */
module Naming {
  import opened CLib

  /** `escape_char`: everything except alphanumerics and ` -+._()` is escaped. */
  predicate NeedsEscape(c: char)
  {
    !IsAlnum(c) && c != ' ' && c != '-' && c != '+' && c != '.' && c != '_' && c != '(' && c != ')'
  }

  predicate IsUpperHex(c: char) { IsDigit(c) || 'A' <= c <= 'F' }

  function HexDigit(d: nat): (c: char)
    requires d < 16
    ensures IsUpperHex(c)
  {
    if d < 10 then DigitChar(d) else ('A' as int + d - 10) as char
  }

  function HexValue(c: char): (d: nat)
    requires IsUpperHex(c)
    ensures d < 16 && HexDigit(d) == c
  {
    if IsDigit(c) then DigitValue(c) else c as int - 'A' as int + 10
  }

  /** `sprintf ("^%02X", c)` for a 7-bit character. */
  function EscapeSeq(c: char): (r: seq<char>)
    requires IsAscii(c)
    ensures |r| == 3 && r[0] == '^' && IsUpperHex(r[1]) && IsUpperHex(r[2])
    ensures (HexValue(r[1]) * 16 + HexValue(r[2])) as char == c
  {
    ['^', HexDigit(c as int / 16), HexDigit(c as int % 16)]
  }

  /** `process_identifier_len`: three characters per escaped character, one per other. */
  function EscapedLen(id: seq<char>): nat
  {
    if id == [] then 0 else (if NeedsEscape(id[0]) then 3 else 1) + EscapedLen(id[1..])
  }

  /** The file name of an identifier: each escaped character becomes `^XX`. */
  function Escape(id: seq<char>): (r: seq<char>)
    requires AllAscii(id)
    ensures |r| == EscapedLen(id)
    ensures forall i :: 0 <= i < |r| ==> r[i] == '^' || !NeedsEscape(r[i])
  {
    if id == [] then []
    else (if NeedsEscape(id[0]) then EscapeSeq(id[0]) else [id[0]]) + Escape(id[1..])
  }

  /** Decoding a file name back to its identifier; `None` for a name `Escape` cannot produce. */
  function Unescape(s: seq<char>): Option<seq<char>>
  {
    if s == [] then Some([])
    else if s[0] == '^' then
      if |s| >= 3 && IsUpperHex(s[1]) && IsUpperHex(s[2]) then
        match Unescape(s[3..])
        case Some(rest) => Some([(HexValue(s[1]) * 16 + HexValue(s[2])) as char] + rest)
        case None => None
      else None
    else if NeedsEscape(s[0]) then None
    else
      match Unescape(s[1..])
      case Some(rest) => Some([s[0]] + rest)
      case None => None
  }

  /** Escaping is decodable: the file name determines the identifier. */
  lemma {:induction false} UnescapeEscape(id: seq<char>)
    requires AllAscii(id)
    ensures Unescape(Escape(id)) == Some(id)
  {
    if id != [] {
      var e := Escape(id);
      UnescapeEscape(id[1..]);
      if NeedsEscape(id[0]) {
        assert e[3..] == Escape(id[1..]);
      } else {
        assert e[1..] == Escape(id[1..]);
      }
      assert [id[0]] + id[1..] == id;
    }
  }

  /** Two identifiers never share a file name. */
  lemma EscapeInjective(a: seq<char>, b: seq<char>)
    requires AllAscii(a) && AllAscii(b)
    requires Escape(a) == Escape(b)
    ensures a == b
  {
    UnescapeEscape(a);
    UnescapeEscape(b);
  }

  /** A file name never holds a path separator, a NUL or a backslash. */
  lemma EscapeIsPlainName(id: seq<char>)
    requires AllAscii(id)
    ensures '/' !in Escape(id) && NUL !in Escape(id) && '\\' !in Escape(id)
  {
    var e := Escape(id);
    forall i | 0 <= i < |e|
      ensures e[i] != '/' && e[i] != NUL && e[i] != '\\'
    {
      assert e[i] == '^' || !NeedsEscape(e[i]);
    }
  }

  /** A name that, as the last component of a path, names a directory rather
      than a file in it: the empty name (a trailing `/`), `.` and `..`. */
  predicate DotName(name: seq<char>)
  {
    name == [] || name == "." || name == ".."
  }

  /** `.` is never escaped, so exactly the identifiers ``, `.` and `..` get a
      file name that names the scope directory or the data directory. */
  lemma EscapeDotName(id: seq<char>)
    requires AllAscii(id)
    ensures DotName(Escape(id)) <==> DotName(id)
  {
    assert Escape("") == "";
    assert Escape(".") == "." by {
      assert !NeedsEscape('.');
      assert Escape("."[1..]) == [];
    }
    assert Escape("..") == ".." by {
      assert !NeedsEscape('.');
      assert ".."[1..] == ".";
      assert Escape(".") == "." by {
        assert Escape("."[1..]) == [];
      }
    }
    if DotName(Escape(id)) {
      if Escape(id) == "" {
        EscapeInjective(id, "");
      } else if Escape(id) == "." {
        EscapeInjective(id, ".");
      } else {
        EscapeInjective(id, "..");
      }
    }
  }

  /** Escaping works character by character. */
  lemma {:induction false} EscapeAppend(a: seq<char>, b: seq<char>)
    requires AllAscii(a) && AllAscii(b)
    ensures AllAscii(a + b)
    ensures Escape(a + b) == Escape(a) + Escape(b)
  {
    if a == [] {
      assert a + b == b;
    } else {
      assert (a + b)[1..] == a[1..] + b;
      EscapeAppend(a[1..], b);
    }
  }

  /** One step of `Escape`, for unfolding it on concrete identifiers. */
  lemma EscapeCons(c: char, t: seq<char>)
    requires IsAscii(c) && AllAscii(t)
    ensures AllAscii([c] + t)
    ensures Escape([c] + t) == (if NeedsEscape(c) then EscapeSeq(c) else [c]) + Escape(t)
  {
    assert ([c] + t)[1..] == t;
  }

  // The unit test's identifier `/Te^st\`, escaped one character at a time.
  lemma EscapeStep1() ensures Escape("\\") == "^5C" {
    EscapeCons('\\', []);
    assert ['\\'] + [] == "\\";
    assert EscapeSeq('\\') == "^5C";
  }
  lemma EscapeStep2() ensures Escape("t\\") == "t^5C" {
    EscapeStep1();
    EscapeCons('t', "\\");
    assert ['t'] + "\\" == "t\\";
    assert ['t'] + "^5C" == "t^5C";
  }
  lemma EscapeStep3() ensures Escape("st\\") == "st^5C" {
    EscapeStep2();
    EscapeCons('s', "t\\");
    assert ['s'] + "t\\" == "st\\";
    assert ['s'] + "t^5C" == "st^5C";
  }
  lemma EscapeStep4() ensures Escape("^st\\") == "^5Est^5C" {
    EscapeStep3();
    EscapeCons('^', "st\\");
    assert ['^'] + "st\\" == "^st\\";
    assert EscapeSeq('^') == "^5E";
    assert "^5E" + "st^5C" == "^5Est^5C";
  }
  lemma EscapeStep5() ensures Escape("e^st\\") == "e^5Est^5C" {
    EscapeStep4();
    EscapeCons('e', "^st\\");
    assert ['e'] + "^st\\" == "e^st\\";
    assert ['e'] + "^5Est^5C" == "e^5Est^5C";
  }
  lemma EscapeStep6() ensures Escape("Te^st\\") == "Te^5Est^5C" {
    EscapeStep5();
    EscapeCons('T', "e^st\\");
    assert ['T'] + "e^st\\" == "Te^st\\";
    assert ['T'] + "e^5Est^5C" == "Te^5Est^5C";
  }

  lemma EscapeSlash() ensures EscapeSeq('/') == "^2F" {
  }

  /** The name the unit test expects for the identifier `/Te^st\`. */
  lemma EscapeExample()
    ensures Escape("/Te^st\\") == "^2FTe^5Est^5C"
  {
    EscapeStep6();
    EscapeSlash();
    EscapeCons('/', "Te^st\\");
    ExampleJoins();
  }

  lemma ExampleJoins()
    ensures ['/'] + "Te^st\\" == "/Te^st\\"
    ensures "^2F" + "Te^5Est^5C" == "^2FTe^5Est^5C"
  {
    assert ['/'] + "Te^st\\" == "/Te^st\\";
  }

  /** `copy_process_identifier (ptr, chars)`: the bytes it leaves in memory from
      `ptr` on. The NUL that `sprintf` writes after an escape survives when nothing
      is written after it, so the result can be one byte longer than `chars`. */
  function CopyIdentifier(id: seq<char>, chars: nat): (out: seq<char>)
    requires AllAscii(id)
    ensures |out| <= chars + 1
    ensures chars > EscapedLen(id) ==> out == Escape(id) + [NUL]
    ensures id != [] && chars == EscapedLen(id) ==>
              out == Escape(id) + (if NeedsEscape(id[|id| - 1]) then [NUL] else [])
  {
    if id != [] && chars > 0 then
      CopyStep(id);
      if NeedsEscape(id[0]) then
        if chars < 3 then []
        else
          var rest := CopyIdentifier(id[1..], chars - 3);
          EscapeSeq(id[0]) + (if rest == [] then [NUL] else rest)
      else [id[0]] + CopyIdentifier(id[1..], chars - 1)
    else if chars > 0 then [NUL] else []
  }

  /** One character of `copy_process_identifier`: the escape, its length and
      the last character of a non-empty identifier, against its tail. */
  lemma CopyStep(id: seq<char>)
    requires AllAscii(id) && id != []
    ensures AllAscii(id[1..])
    ensures Escape(id) == (if NeedsEscape(id[0]) then EscapeSeq(id[0]) else [id[0]]) + Escape(id[1..])
    ensures EscapedLen(id) == (if NeedsEscape(id[0]) then 3 else 1) + EscapedLen(id[1..])
    ensures |id| >= 2 ==> id[|id| - 1] == id[1..][|id[1..]| - 1]
  {
  }

  /** `pidlen`: the loop `while (pid) { digits++; pid /= 10; }` with C's
      truncating division; it counts no digit at all for 0. */
  function PidLen(p: int): nat
    decreases if p < 0 then -p else p
  {
    if p == 0 then 0 else 1 + PidLen(if p >= 0 then p / 10 else -((-p) / 10))
  }

  lemma {:induction false} PidLenPositive(p: int)
    ensures p >= 1 ==> PidLen(p) == |Dec(p)|
  {
    if p >= 10 {
      PidLenPositive(p / 10);
    }
  }

  /** The scope directory name: `GLOBAL`, or the parent pid as `%u` prints it. */
  function ScopeName(global: bool, ppid: int): (r: seq<char>)
    ensures '/' !in r && NUL !in r && r != []
  {
    if global then "GLOBAL" else Dec(ToUInt32(ppid))
  }

  function ScopePath(dataDir: seq<char>, scope: seq<char>): seq<char>
  {
    dataDir + ['/'] + scope + ['/']
  }

  /** The intended information-file path. */
  function ProcessPath(dataDir: seq<char>, global: bool, ppid: int, id: seq<char>): seq<char>
    requires AllAscii(id)
  {
    ScopePath(dataDir, ScopeName(global, ppid)) + Escape(id)
  }

  /** `buffer_len` in `get_process_path`, given the characters it budgets for the scope. */
  function PathBufferLen(dataDir: seq<char>, id: seq<char>, scopeBudget: nat): nat
  {
    |dataDir| + EscapedLen(id) + 3 + scopeBudget
  }

  /** The bytes `get_process_path` leaves in its buffer: `snprintf` of the scope
      prefix (truncated to the buffer), then `copy_process_identifier` into the
      rest. Requires that the prefix does not run past the buffer, since the C
      code then hands a wrapped-around size to the copy. */
  function PathBuffer(dataDir: seq<char>, scope: seq<char>, id: seq<char>, scopeBudget: nat): (mem: seq<char>)
    requires AllAscii(id)
    requires |scope| <= EscapedLen(id) + 1 + scopeBudget
  {
    var bl := PathBufferLen(dataDir, id, scopeBudget);
    var pre := ScopePath(dataDir, scope);
    var snp := if |pre| < bl then pre + [NUL] else pre[..bl - 1] + [NUL];
    var cp := CopyIdentifier(id, bl - |pre|);
    if cp == [] then snp else pre + cp
  }

  /** A scope budget equal to the scope's length leaves exactly the room the
      escaped identifier and its terminator need. */
  lemma PathBufferExact(dataDir: seq<char>, scope: seq<char>, id: seq<char>)
    requires AllAscii(id)
    ensures PathBuffer(dataDir, scope, id, |scope|) == ScopePath(dataDir, scope) + Escape(id) + [NUL]
    ensures |PathBuffer(dataDir, scope, id, |scope|)| == PathBufferLen(dataDir, id, |scope|)
  {
    var pre := ScopePath(dataDir, scope);
    assert PathBufferLen(dataDir, id, |scope|) - |pre| == EscapedLen(id) + 1;
  }

  /** A one-character scope budgeted no characters: the buffer ends before the
      terminator, which is either never written or written one byte past the end. */
  lemma PathBufferOneShort(dataDir: seq<char>, id: seq<char>)
    requires AllAscii(id) && id != [] && NUL !in dataDir
    ensures |PathBuffer(dataDir, "0", id, 0)| >= PathBufferLen(dataDir, id, 0)
    ensures PathBuffer(dataDir, "0", id, 0)[..PathBufferLen(dataDir, id, 0)] == ScopePath(dataDir, "0") + Escape(id)
    ensures NUL !in PathBuffer(dataDir, "0", id, 0)[..PathBufferLen(dataDir, id, 0)]
  {
    var pre := ScopePath(dataDir, "0");
    var bl := PathBufferLen(dataDir, id, 0);
    assert bl - |pre| == EscapedLen(id);
    var cp := CopyIdentifier(id, EscapedLen(id));
    var mem := PathBuffer(dataDir, "0", id, 0);
    assert mem == pre + cp;
    assert mem[..bl] == pre + Escape(id);
    EscapeIsPlainName(id);
  }

  /** The scope budget `get_process_path` computes: 6 for `GLOBAL`, otherwise
      `pidlen` of the parent pid. */
  function ScopeBudget(global: bool, ppid: int): nat
  {
    if global then 6 else PidLen(ppid)
  }

  /** For a global scope or a positive 32-bit parent pid the budget is the scope's length. */
  lemma ScopeBudgetExact(global: bool, ppid: int)
    requires global || 1 <= ppid < TWO31
    ensures ScopeBudget(global, ppid) == |ScopeName(global, ppid)|
  {
    if !global {
      assert ToUInt32(ppid) == ppid;
      PidLenPositive(ppid);
    }
  }

  /** `get_process_path` as written. */
  function GetProcessPath(dataDir: seq<char>, global: bool, ppid: int, id: seq<char>): (mem: seq<char>)
    requires AllAscii(id)
    requires |ScopeName(global, ppid)| <= EscapedLen(id) + 1 + ScopeBudget(global, ppid)
    ensures global || 1 <= ppid < TWO31 ==>
              mem == ProcessPath(dataDir, global, ppid, id) + [NUL]
              && |mem| == PathBufferLen(dataDir, id, ScopeBudget(global, ppid))
    ensures NUL !in dataDir && !global && ppid == 0 && id != [] ==>
              |ProcessPath(dataDir, global, ppid, id)| == PathBufferLen(dataDir, id, ScopeBudget(global, ppid))
              && |mem| >= PathBufferLen(dataDir, id, ScopeBudget(global, ppid))
              && NUL !in mem[..PathBufferLen(dataDir, id, ScopeBudget(global, ppid))]
  {
    var scope := ScopeName(global, ppid);
    var budget := ScopeBudget(global, ppid);
    if global || 1 <= ppid < TWO31 then
      ScopeBudgetExact(global, ppid);
      PathBufferExact(dataDir, scope, id);
      PathBuffer(dataDir, scope, id, budget)
    else if ppid == 0 && id != [] && NUL !in dataDir then
      assert scope == "0" && budget == 0;
      PathBufferOneShort(dataDir, id);
      PathBuffer(dataDir, scope, id, budget)
    else
      PathBuffer(dataDir, scope, id, budget)
  }

  /** `get_process_path` with the scope budgeted by the length of what `%u`
      prints: the path and its terminator fill the buffer exactly, for every
      parent pid. */
  function GetProcessPathFixed(dataDir: seq<char>, global: bool, ppid: int, id: seq<char>): (mem: seq<char>)
    requires AllAscii(id)
    ensures mem == ProcessPath(dataDir, global, ppid, id) + [NUL]
    ensures |mem| == PathBufferLen(dataDir, id, |ScopeName(global, ppid)|)
  {
    PathBufferExact(dataDir, ScopeName(global, ppid), id);
    PathBuffer(dataDir, ScopeName(global, ppid), id, |ScopeName(global, ppid)|)
  }

  /** A concrete instance of the short buffer: data directory `d`, parent pid 0,
      identifier `x`. The buffer holds 5 bytes and the path `d/0/x` fills all
      of them, so no terminator fits. */
  lemma ZeroParentPathUnterminated()
    ensures PathBufferLen("d", "x", PidLen(0)) == 5
    ensures GetProcessPath("d", false, 0, "x") == "d/0/x"
  {
    assert Escape("x") == "x";
    assert ScopeName(false, 0) == "0";
  }

  /** An identifier without characters that need escaping is its own file name. */
  lemma {:induction false} EscapePlain(id: seq<char>)
    requires AllAscii(id)
    requires forall i :: 0 <= i < |id| ==> !NeedsEscape(id[i])
    ensures Escape(id) == id
  {
    if id != [] {
      EscapePlain(id[1..]);
      assert [id[0]] + id[1..] == id;
    }
  }

  /** `%u` of a negative 32-bit parent pid: the value wraps to at least
      2^31, which has ten digits. */
  lemma NegativeScopeLen(ppid: int)
    requires -TWO31 <= ppid < 0
    ensures |ScopeName(false, ppid)| == 10
  {
    assert ToUInt32(ppid) == ppid + TWO32;
    assert Pow10(9) == 1000000000 && Pow10(10) == 10000000000;
    DecAtLeast(ToUInt32(ppid), 9);
    DecLen(ToUInt32(ppid));
  }

  /** `pidlen` of a negative pid counts the digits of its magnitude. */
  lemma {:induction false} PidLenNegative(p: int)
    requires p < 0
    ensures PidLen(p) == PidLen(-p)
    decreases -p
  {
    if p <= -10 {
      PidLenNegative(-((-p) / 10));
    }
  }

  /** `copy_process_identifier` with room for no more than a plain identifier
      copies the first `chars` characters and no terminator. */
  lemma {:induction false} CopyPlainPrefix(id: seq<char>, chars: nat)
    requires AllAscii(id)
    requires forall i :: 0 <= i < |id| ==> !NeedsEscape(id[i])
    requires chars <= |id|
    ensures CopyIdentifier(id, chars) == id[..chars]
  {
    if chars > 0 {
      CopyPlainPrefix(id[1..], chars - 1);
      assert [id[0]] + id[1..][..chars - 1] == id[..chars];
    }
  }

  /** A negative `-P` above -10^9: `pidlen` counts one to nine digits but
      `%u` prints ten, so the buffer is one to nine bytes short. When a plain
      identifier still leaves room, the size left for the copy does not wrap:
      the identifier is cut to its first `|id| + pidlen - 9` characters, which
      fill the buffer with no NUL. */
  lemma NegativeParentPathUnterminated(dataDir: seq<char>, ppid: int, id: seq<char>)
    requires -1000000000 < ppid < 0
    requires AllAscii(id)
    requires forall i :: 0 <= i < |id| ==> !NeedsEscape(id[i])
    requires |id| + PidLen(ppid) >= 10
    ensures |ScopeName(false, ppid)| == 10 && 1 <= PidLen(ppid) <= 9 && EscapedLen(id) == |id|
    ensures GetProcessPath(dataDir, false, ppid, id)
              == ScopePath(dataDir, ScopeName(false, ppid)) + id[..|id| + PidLen(ppid) - 9]
    ensures |GetProcessPath(dataDir, false, ppid, id)| == PathBufferLen(dataDir, id, PidLen(ppid))
    ensures NUL !in dataDir ==> NUL !in GetProcessPath(dataDir, false, ppid, id)
  {
    NegativeScopeLen(ppid);
    PidLenNegative(ppid);
    PidLenPositive(-ppid);
    assert Pow10(9) == 1000000000;
    DecBound(-ppid, 9);
    EscapePlain(id);
    CopyPlainPrefix(id, |id| + PidLen(ppid) - 9);
    assert NeedsEscape(NUL);
  }

  /** `create_path`: walking the path, every prefix that ends just before a `/`
      is passed to `mkdir`, shortest first. */
  method CreatePath(path: seq<char>) returns (dirs: seq<seq<char>>)
    ensures forall k :: 0 <= k < |dirs| ==>
              |dirs[k]| < |path| && dirs[k] == path[..|dirs[k]|] && path[|dirs[k]|] == '/'
    ensures forall i :: 0 <= i < |path| && path[i] == '/' ==> path[..i] in dirs
    ensures forall k, l :: 0 <= k < l < |dirs| ==> |dirs[k]| < |dirs[l]|
  {
    dirs := [];
    var i := 0;
    while i < |path|
      invariant 0 <= i <= |path|
      invariant forall k :: 0 <= k < |dirs| ==>
                  |dirs[k]| < i && dirs[k] == path[..|dirs[k]|] && path[|dirs[k]|] == '/'
      invariant forall j :: 0 <= j < i && path[j] == '/' ==> path[..j] in dirs
      invariant forall k, l :: 0 <= k < l < |dirs| ==> |dirs[k]| < |dirs[l]|
    {
      if path[i] == '/' {
        dirs := dirs + [path[..i]];
      }
      i := i + 1;
    }
  }
}

=== FILE: operations.dfy ===
/** The three operations — `start`, `stop` and `query` — and the companion
    watchdog `start` leaves behind when the parent is to be watched. Each
    runs against a snapshot of the data directory and of the machine; what
    `fork` returns is a parameter. */
module Operations {
  import opened CLib
  import opened Host
  import opened Naming
  import opened Record
  import opened ProcVerify
  import opened Store
  import opened Params
  import opened ProcTree
  import opened Kill
  import opened Watchdog

  /** What `fork ()` returns in the parent: -1 with `errno`, or the child's pid. */
  datatype ForkResult = ForkFailed(errno: int) | Forked(pid: int)

  /** The process the information file is about, as `process_find` reports it. */
  function FindFor(store: DataStore, sys: System, p: Params): int
    requires AllAscii(p.id)
  {
    Find(store, sys, p.global, p.parent, p.id)
  }

  /** The result of `operation_start`: its code, the data directory after it,
      the spawned child, what saving its record returned, and the
      (child, parent) pair a companion watchdog was forked to watch. */
  datatype Started = Started(rc: int, store: DataStore, child: Option<int>, saveRc: int, watching: Option<(int, int)>)

  /** `operation_start` on POSIX: nothing is spawned when a live process is
      already recorded; otherwise the child is forked, its record saved (a
      failure is only reported) and, with `-p`, a watchdog forked. */
  function OperationStart(store: DataStore, sys: System, p: Params, fork: ForkResult, watchdogFork: ForkResult): (r: Started)
    requires AllAscii(p.id)
    ensures FindFor(store, sys, p) != 0 ==> r.rc == EALREADY && r.store == store
    ensures r.child.Some? <==> FindFor(store, sys, p) == 0 && fork.Forked?
    ensures r.child.None? ==> r.store == store && r.watching.None?
    ensures fork.ForkFailed? && FindFor(store, sys, p) == 0 ==> r.rc == fork.errno
    ensures r.watching.Some? <==> r.child.Some? && p.watch && watchdogFork.Forked?
    ensures r.watching.Some? ==> r.watching.value == (r.child.value, p.parent)
    ensures r.child.Some? && (!p.watch || watchdogFork.Forked?) ==> r.rc == 0
    ensures r.child.Some? && p.watch && watchdogFork.ForkFailed? ==> r.rc == watchdogFork.errno
  {
    if FindFor(store, sys, p) != 0 then Started(EALREADY, store, None, 0, None)
    else match fork
      case ForkFailed(e) => Started(e, store, None, 0, None)
      case Forked(child) =>
        var saved := Save(store, p.global, p.parent, p.id, child, p.spawn);
        if !p.watch then Started(0, saved.1, Some(child), saved.0, None)
        else match watchdogFork
          case ForkFailed(e) => Started(e, saved.1, Some(child), saved.0, None)
          case Forked(_) => Started(0, saved.1, Some(child), saved.0, Some((child, p.parent)))
  }

  /** Saving is attempted for every spawned child, and only its record changes. */
  lemma StartSavesChild(store: DataStore, sys: System, p: Params, fork: ForkResult, watchdogFork: ForkResult)
    requires AllAscii(p.id)
    requires OperationStart(store, sys, p, fork, watchdogFork).child.Some?
    ensures var r := OperationStart(store, sys, p, fork, watchdogFork);
      var c := r.child.value;
      (r.saveRc == 0 <==> Lookup(r.store, p.global, p.parent, p.id) == Some(File(RecordText(c, p.id, p.parent, p.spawn))))
      && forall g, pp, id | AllAscii(id) && (ScopeName(g, pp) != ScopeName(p.global, p.parent) || id != p.id) ::
           Lookup(r.store, g, pp, id) == Lookup(store, g, pp, id)
  {
    var r := OperationStart(store, sys, p, fork, watchdogFork);
    forall g, pp, id | AllAscii(id) && (ScopeName(g, pp) != ScopeName(p.global, p.parent) || id != p.id)
      ensures Lookup(r.store, g, pp, id) == Lookup(store, g, pp, id)
    {
      SaveLookupOthers(store, p.global, p.parent, p.id, r.child.value, p.spawn, g, pp, id);
    }
  }

  /** `operation_query`: 0 when a live process is recorded, else ESRCH. */
  function OperationQuery(store: DataStore, sys: System, p: Params): (rc: int)
    requires AllAscii(p.id)
    ensures rc == 0 <==> FindFor(store, sys, p) != 0
    ensures rc != 0 ==> rc == ESRCH
  {
    if FindFor(store, sys, p) != 0 then 0 else ESRCH
  }

  /** A child started with a saved record is reported by `query` while it
      runs with the saved arguments (directly or behind an interpreter), and
      a second `start` then refuses with EALREADY. */
  lemma StartThenQuery(store: DataStore, sys: System, p: Params, fork: ForkResult, watchdogFork: ForkResult,
                       running: System, interpreter: Option<seq<char>>)
    requires AllAscii(p.id)
    requires var r := OperationStart(store, sys, p, fork, watchdogFork);
      r.child.Some? && r.saveRc == 0 && r.child.value != 0 && RoundTrips(r.child.value, p.id, p.spawn)
    requires interpreter.Some? ==> NUL !in interpreter.value
    requires var c := OperationStart(store, sys, p, fork, watchdogFork).child.value;
      running.cmdline(ToUInt32(c)) == Some(ProcCmdline(if interpreter.Some? then [interpreter.value] + p.spawn else p.spawn))
    ensures var r := OperationStart(store, sys, p, fork, watchdogFork);
      OperationQuery(r.store, running, p) == 0 &&
      OperationStart(r.store, running, p, fork, watchdogFork).rc == EALREADY
  {
    var c := OperationStart(store, sys, p, fork, watchdogFork).child.value;
    SaveThenFind(store, running, p.global, p.parent, p.id, c, p.spawn, interpreter);
  }

  /** The result of `operation_stop` and the signals it sent. */
  datatype Stopped = Stopped(rc: int, sent: seq<Send>)

  /** `operation_stop`: ESRCH without signalling anything when no live
      process is recorded; otherwise the result of killing its tree. The
      record itself is left for housekeeping. */
  function OperationStop(store: DataStore, sys: System, p: Params, t: Table, env: Posix): (r: Stopped)
    requires AllAscii(p.id) && Acyclic(t)
    ensures FindFor(store, sys, p) == 0 <==> r == Stopped(ESRCH, [])
    ensures FindFor(store, sys, p) != 0 ==>
      var k := KillProcess(t, env, FindFor(store, sys, p));
      r.rc == k.rc && r.sent == k.sent && r.sent[0] == Send(FindFor(store, sys, p), SIGSTOP)
  {
    var pid := FindFor(store, sys, p);
    if pid == 0 then Stopped(ESRCH, [])
    else
      var k := KillProcess(t, env, pid);
      Stopped(k.rc, k.sent)
  }

  /** Once the recorded process has gone from `/proc`, `stop` and `query`
      both report ESRCH. */
  lemma GoneProcessNotFound(store: DataStore, sys: System, p: Params, pid: int, argv: seq<seq<char>>, t: Table, env: Posix)
    requires AllAscii(p.id) && Acyclic(t)
    requires RoundTrips(pid, p.id, argv)
    requires Lookup(store, p.global, p.parent, p.id) == Some(File(RecordText(pid, p.id, p.parent, argv)))
    requires sys.cmdline(ToUInt32(pid)) == None
    ensures OperationStop(store, sys, p, t, env) == Stopped(ESRCH, [])
    ensures OperationQuery(store, sys, p) == ESRCH
  {
    ParseRecordText(pid, p.id, p.parent, argv);
  }

  /** `_fork_watchdog0` on POSIX: watch (child, parent) and kill the child's
      tree when it is the parent that ended; the result is always 0.
      `rounds` is the machine as each one-second scan sees it, and by
      `deadline` one of the two has ended. */
  method CompanionWatchdog(child: int, parent: int, rounds: nat -> System, deadline: nat, t: Table, env: Posix)
    returns (rc: int, round: nat, killed: Option<Outcome>)
    requires Acyclic(t)
    requires !Running(rounds(deadline), child) || !Running(rounds(deadline), parent)
    ensures rc == 0 && round <= deadline
    ensures forall r: nat :: r < round ==> Running(rounds(r), child) && Running(rounds(r), parent)
    ensures killed.Some? <==> Running(rounds(round), child) && !Running(rounds(round), parent)
    ensures killed.Some? ==> killed.value == KillProcess(t, env, child)
    ensures killed.None? ==> !Running(rounds(round), child)
  {
    var pids := [child, parent];
    assert !Running(rounds(deadline), pids[0]) || !Running(rounds(deadline), pids[1]);
    var i;
    round, i := Watch(pids, rounds, deadline);
    forall r: nat | r < round ensures Running(rounds(r), child) && Running(rounds(r), parent) {
      assert Running(rounds(r), pids[0]) && Running(rounds(r), pids[1]);
    }
    if i == 1 {
      killed := Some(KillProcess(t, env, child));
    } else {
      killed := None;
    }
    rc := 0;
  }

  /** What `_fork_watchdog` does on Windows, by which handles it can open. */
  datatype WinWatch = ChildGone | KillChildNow | WatchBoth

  /** A child that cannot be opened has already gone, so there is nothing to
      do; a parent that cannot be opened has already gone, so the child is
      killed at once; otherwise both are watched. */
  function ForkWatchdogWin(childOpens: bool, parentOpens: bool): (w: WinWatch)
    ensures w == ChildGone <==> !childOpens
    ensures w == KillChildNow <==> childOpens && !parentOpens
  {
    if !childOpens then ChildGone
    else if parentOpens then WatchBoth
    else KillChildNow
  }
}

=== FILE: params.dfy ===
/** The program parameters: defaults, the effect of each option, the split
    of the remaining arguments into the operation and the command to spawn,
    the automatic process identifier and the expansion of `~/` in the data
    directory. Option scanning itself is `getopt`'s; here the options arrive
    already tokenised, in command-line order, followed by the operands. */
module Params {
  import opened CLib

  /** The `-H` flags. */
  const HOUSEKEEP_NONE: int := 0
  const HOUSEKEEP_BEFORE: int := 1
  const HOUSEKEEP_AFTER: int := 2
  const HOUSEKEEP_FULL: int := 3   // HOUSEKEEP_BEFORE | HOUSEKEEP_AFTER

  const DEFAULT_DATA_DIR: seq<char> := "~/.procctrl"

  /** One option as `getopt` returns it for the option string "d:H:Kk:P:pv".
      `UnknownOpt` is an option letter not in that string and
      `MissingArgument` an option whose argument is missing; both reach the
      source as `?`. */
  datatype Opt =
    | DataDirOpt(dir: seq<char>)        // -d dir
    | HousekeepOpt(mode: seq<char>)     // -H mode
    | GlobalOpt                         // -K
    | KeyOpt(key: seq<char>)            // -k key
    | ParentOpt(pid: seq<char>)         // -P pid
    | WatchOpt                          // -p
    | VerboseOpt                        // -v
    | UnknownOpt(letter: char)
    | MissingArgument(letter: char)

  predicate IsError(o: Opt)
  {
    o.UnknownOpt? || o.MissingArgument?
  }

  /** The option settings before the operands are looked at. */
  datatype Settings = Settings(
    dataDir: seq<char>,
    global: bool,
    key: Option<seq<char>>,
    parent: int,
    watch: bool,
    verbose: bool,
    housekeep: int)

  /** The values `params` starts from; `ppid` is what `getppid ()` returns. */
  function Defaults(ppid: int): Settings
  {
    Settings(DEFAULT_DATA_DIR, false, None, ppid, false, false, HOUSEKEEP_FULL)
  }

  function Apply(s: Settings, o: Opt): Settings
    requires !IsError(o)
  {
    match o
    case DataDirOpt(d) => s.(dataDir := d)
    case HousekeepOpt(m) => s.(housekeep := Atoi(m))
    case GlobalOpt => s.(global := true)
    case KeyOpt(k) => s.(key := Some(k))
    case ParentOpt(p) => s.(parent := Atoi(p))
    case WatchOpt => s.(watch := true)
    case VerboseOpt => s.(verbose := true)
  }

  /** The option loop: each option in turn, stopping at the first bad one. */
  function ApplyAll(s: Settings, opts: seq<Opt>): (r: Option<Settings>)
    ensures r.None? <==> exists i :: 0 <= i < |opts| && IsError(opts[i])
    decreases |opts|
  {
    if opts == [] then Some(s)
    else if IsError(opts[0]) then None
    else
      var r := ApplyAll(Apply(s, opts[0]), opts[1..]);
      assert forall i :: 0 <= i < |opts| - 1 ==> opts[1..][i] == opts[i + 1];
      r
  }

  /** The argument of the last option `pick` selects, if any. */
  function LastOf(opts: seq<Opt>, pick: Opt -> Option<seq<char>>): (r: Option<seq<char>>)
    ensures r.None? <==> forall i :: 0 <= i < |opts| ==> pick(opts[i]).None?
  {
    if opts == [] then None
    else
      var later := LastOf(opts[1..], pick);
      assert forall i :: 0 <= i < |opts| - 1 ==> opts[1..][i] == opts[i + 1];
      if later.Some? then later else pick(opts[0])
  }

  /** What `LastOf` finds is the argument of an option that no later option
      of the same kind overrides. */
  lemma {:induction false} LastOfIsLast(opts: seq<Opt>, pick: Opt -> Option<seq<char>>)
    requires LastOf(opts, pick).Some?
    ensures exists i :: 0 <= i < |opts| && pick(opts[i]) == LastOf(opts, pick) &&
                        forall j :: i < j < |opts| ==> pick(opts[j]).None?
  {
    var later := LastOf(opts[1..], pick);
    if later.Some? {
      LastOfIsLast(opts[1..], pick);
      var i :| 0 <= i < |opts| - 1 && pick(opts[1..][i]) == later &&
               forall j :: i < j < |opts| - 1 ==> pick(opts[1..][j]).None?;
      assert pick(opts[i + 1]) == later;
      forall j | i + 1 < j < |opts| ensures pick(opts[j]).None? {
        assert opts[j] == opts[1..][j - 1];
      }
    } else {
      forall j | 0 < j < |opts| ensures pick(opts[j]).None? {
        assert opts[j] == opts[1..][j - 1];
      }
    }
  }

  function DirOf(o: Opt): Option<seq<char>> { if o.DataDirOpt? then Some(o.dir) else None }
  function ModeOf(o: Opt): Option<seq<char>> { if o.HousekeepOpt? then Some(o.mode) else None }
  function KeyOf(o: Opt): Option<seq<char>> { if o.KeyOpt? then Some(o.key) else None }
  function ParentOf(o: Opt): Option<seq<char>> { if o.ParentOpt? then Some(o.pid) else None }

  /** The settings as the last occurrence of each option leaves them. */
  function Overlay(s: Settings, opts: seq<Opt>): Settings
  {
    var dir := LastOf(opts, DirOf);
    var mode := LastOf(opts, ModeOf);
    var key := LastOf(opts, KeyOf);
    var parent := LastOf(opts, ParentOf);
    Settings(
      if dir.Some? then dir.value else s.dataDir,
      s.global || GlobalOpt in opts,
      if key.Some? then key else s.key,
      if parent.Some? then Atoi(parent.value) else s.parent,
      s.watch || WatchOpt in opts,
      s.verbose || VerboseOpt in opts,
      if mode.Some? then Atoi(mode.value) else s.housekeep)
  }

  /** When every option is good, each setting is the one its last occurrence
      gives, or its default when it does not occur; flags are set by any
      occurrence. */
  lemma {:induction false} OptionsLastWins(s: Settings, opts: seq<Opt>)
    requires forall i :: 0 <= i < |opts| ==> !IsError(opts[i])
    ensures ApplyAll(s, opts) == Some(Overlay(s, opts))
    decreases |opts|
  {
    if opts != [] {
      OptionsLastWins(Apply(s, opts[0]), opts[1..]);
      OverlayStep(s, opts);
    }
  }

  /** Applying the first option and then the overlay of the rest is the
      overlay of all of them. */
  lemma OverlayStep(s: Settings, opts: seq<Opt>)
    requires opts != [] && !IsError(opts[0])
    ensures Overlay(Apply(s, opts[0]), opts[1..]) == Overlay(s, opts)
  {
    var a, b := Overlay(Apply(s, opts[0]), opts[1..]), Overlay(s, opts);
    OverlayStepDataDir(s, opts);
    OverlayStepHousekeep(s, opts);
    OverlayStepKey(s, opts);
    OverlayStepParent(s, opts);
    OverlayStepFlags(s, opts);
    assert a.dataDir == b.dataDir && a.housekeep == b.housekeep && a.key == b.key && a.parent == b.parent;
    assert a.global == b.global && a.watch == b.watch && a.verbose == b.verbose;
  }

  lemma OverlayStepDataDir(s: Settings, opts: seq<Opt>)
    requires opts != [] && !IsError(opts[0])
    ensures Overlay(Apply(s, opts[0]), opts[1..]).dataDir == Overlay(s, opts).dataDir
  {
    LastOfCons(opts, DirOf);
    var o := opts[0];
    assert Apply(s, o).dataDir == if DirOf(o).Some? then DirOf(o).value else s.dataDir;
  }

  lemma OverlayStepHousekeep(s: Settings, opts: seq<Opt>)
    requires opts != [] && !IsError(opts[0])
    ensures Overlay(Apply(s, opts[0]), opts[1..]).housekeep == Overlay(s, opts).housekeep
  {
    LastOfCons(opts, ModeOf);
    var o := opts[0];
    assert Apply(s, o).housekeep == if ModeOf(o).Some? then Atoi(ModeOf(o).value) else s.housekeep;
  }

  lemma OverlayStepKey(s: Settings, opts: seq<Opt>)
    requires opts != [] && !IsError(opts[0])
    ensures Overlay(Apply(s, opts[0]), opts[1..]).key == Overlay(s, opts).key
  {
    LastOfCons(opts, KeyOf);
    var o := opts[0];
    assert Apply(s, o).key == if KeyOf(o).Some? then KeyOf(o) else s.key;
  }

  lemma OverlayStepParent(s: Settings, opts: seq<Opt>)
    requires opts != [] && !IsError(opts[0])
    ensures Overlay(Apply(s, opts[0]), opts[1..]).parent == Overlay(s, opts).parent
  {
    LastOfCons(opts, ParentOf);
    var o := opts[0];
    assert Apply(s, o).parent == if ParentOf(o).Some? then Atoi(ParentOf(o).value) else s.parent;
  }

  lemma OverlayStepFlags(s: Settings, opts: seq<Opt>)
    requires opts != [] && !IsError(opts[0])
    ensures var a, b := Overlay(Apply(s, opts[0]), opts[1..]), Overlay(s, opts);
      a.global == b.global && a.watch == b.watch && a.verbose == b.verbose
  {
    var o, rest := opts[0], opts[1..];
    assert opts == [o] + rest;
    assert GlobalOpt in opts <==> o == GlobalOpt || GlobalOpt in rest;
    assert WatchOpt in opts <==> o == WatchOpt || WatchOpt in rest;
    assert VerboseOpt in opts <==> o == VerboseOpt || VerboseOpt in rest;
  }

  lemma LastOfCons(opts: seq<Opt>, pick: Opt -> Option<seq<char>>)
    requires opts != []
    ensures LastOf(opts, pick) == if LastOf(opts[1..], pick).Some? then LastOf(opts[1..], pick) else pick(opts[0])
  {
  }

  /** The parameters the operations run with. */
  datatype Params = Params(
    dataDir: seq<char>,
    global: bool,
    id: seq<char>,
    parent: int,
    watch: bool,
    verbose: bool,
    housekeep: int,
    operation: Option<seq<char>>,
    spawn: seq<seq<char>>)

  datatype Parsed = Invalid(code: int) | Valid(params: Params)

  /** The data directory is expanded when it starts with `~/`. */
  predicate HasHomePrefix(dir: seq<char>)
  {
    |dir| >= 2 && dir[0] == '~' && dir[1] == '/'
  }

  /** `snprintf (buf, size, "%s", s)`: at most `size - 1` characters. */
  function Bounded(size: nat, s: seq<char>): (r: seq<char>)
    requires size >= 1
    ensures |r| < size && r <= s
    ensures |s| < size ==> r == s
  {
    if |s| < size then s else s[..size - 1]
  }

  /** `expand_home_dir`: HOME (or `.` when it is unset) followed by the
      directory after its `~`, printed into a buffer of `strlen (home) +
      strlen (data_dir)` bytes. */
  function ExpandHomeDir(home: Option<seq<char>>, dir: seq<char>): (path: seq<char>)
    requires HasHomePrefix(dir)
    ensures var h := if home.Some? then home.value else ".";
      path == h + dir[1..] && |path| + 1 == |h| + |dir|
  {
    var h := if home.Some? then home.value else ".";
    Bounded(|h| + |dir|, h + dir[1..])
  }

  /** The buffer size `auto_process_identifier` allocates:
      `spawn_argc` plus the lengths of the arguments. */
  function AutoIdBudget(spawn: seq<seq<char>>): nat
  {
    |spawn| + SumLen(spawn)
  }

  /** What `auto_process_identifier` writes: the arguments joined by single
      spaces, then the terminator. */
  function AutoIdBytes(spawn: seq<seq<char>>): seq<char>
  {
    JoinSpaces(spawn) + [NUL]
  }

  /** With at least one argument the buffer fits the identifier exactly. */
  lemma AutoIdBudgetFits(spawn: seq<seq<char>>)
    requires spawn != []
    ensures |AutoIdBytes(spawn)| == AutoIdBudget(spawn)
  {
    JoinSpacesLen(spawn);
  }

  /** With no argument the buffer has no room for the terminator. */
  lemma AutoIdNoArgumentsOverflows()
    ensures AutoIdBudget([]) == 0 && |AutoIdBytes([])| == 1
  {
  }

  /** The buffer size the identifier needs: one byte for an empty command. */
  function AutoIdBudgetFixed(spawn: seq<seq<char>>): nat
  {
    if spawn == [] then 1 else |spawn| + SumLen(spawn)
  }

  lemma AutoIdBudgetFixedFits(spawn: seq<seq<char>>)
    ensures |AutoIdBytes(spawn)| == AutoIdBudgetFixed(spawn)
  {
    if spawn != [] {
      JoinSpacesLen(spawn);
    }
  }

  lemma JoinSpacesSnoc(xs: seq<seq<char>>, x: seq<char>)
    requires xs != []
    ensures JoinSpaces(xs + [x]) == JoinSpaces(xs) + [' '] + x
  {
    if |xs| > 1 {
      assert (xs + [x])[1..] == xs[1..] + [x];
      JoinSpacesSnoc(xs[1..], x);
    }
  }

  /** The copy loop of `auto_process_identifier`: a space before every
      argument but the first. */
  method AutoProcessIdentifier(spawn: seq<seq<char>>) returns (id: seq<char>)
    ensures id == JoinSpaces(spawn)
    ensures |id| + 1 == AutoIdBudgetFixed(spawn)
  {
    id := [];
    var arg := 0;
    while arg < |spawn|
      invariant 0 <= arg <= |spawn|
      invariant id == JoinSpaces(spawn[..arg])
    {
      if arg > 0 {
        id := id + [' '];
      }
      id := id + spawn[arg];
      if arg > 0 {
        JoinSpacesSnoc(spawn[..arg], spawn[arg]);
      }
      assert spawn[..arg + 1] == spawn[..arg] + [spawn[arg]];
      arg := arg + 1;
    }
    assert spawn[..arg] == spawn;
    AutoIdBudgetFixedFits(spawn);
  }

  /** `params`: the options, then the first operand is the operation and the
      rest is the command to spawn; the identifier defaults to that command
      joined by spaces. A bad option gives EINVAL at once. `ppid` is
      `getppid ()` and `home` the HOME variable. */
  function ParseArgs(opts: seq<Opt>, operands: seq<seq<char>>, ppid: int, home: Option<seq<char>>): (r: Parsed)
    ensures r.Invalid? <==> exists i :: 0 <= i < |opts| && IsError(opts[i])
    ensures r.Invalid? ==> r.code == EINVAL
    ensures r.Valid? && operands == [] ==> r.params.operation.None? && r.params.spawn == []
    ensures r.Valid? && operands != [] ==> r.params.operation == Some(operands[0]) && r.params.spawn == operands[1..]
    ensures r.Valid? ==> (KeyOpt(r.params.id) in opts || r.params.id == JoinSpaces(r.params.spawn))
  {
    match ApplyAll(Defaults(ppid), opts)
    case None => Invalid(EINVAL)
    case Some(s) =>
      var operation := if operands == [] then None else Some(operands[0]);
      var spawn := if operands == [] then [] else operands[1..];
      var id := if s.key.Some? then s.key.value else JoinSpaces(spawn);
      var dir := if HasHomePrefix(s.dataDir) then ExpandHomeDir(home, s.dataDir) else s.dataDir;
      assert s.key.Some? ==> KeyOpt(s.key.value) in opts by {
        if s.key.Some? {
          KeyFromOption(Defaults(ppid), opts);
        }
      }
      Valid(Params(dir, s.global, id, s.parent, s.watch, s.verbose, s.housekeep, operation, spawn))
  }

  lemma {:induction false} KeyFromOption(s: Settings, opts: seq<Opt>)
    requires ApplyAll(s, opts).Some? && ApplyAll(s, opts).value.key.Some?
    ensures s.key == ApplyAll(s, opts).value.key || KeyOpt(ApplyAll(s, opts).value.key.value) in opts
    decreases |opts|
  {
    if opts != [] {
      KeyFromOption(Apply(s, opts[0]), opts[1..]);
    }
  }

  /** With no arguments at all: the defaults, with the data directory under
      HOME, and neither operation nor command. */
  lemma NoArgumentsDefaults(ppid: int, home: seq<char>)
    ensures ParseArgs([], [], ppid, Some(home))
      == Valid(Params(home + "/.procctrl", false, [], ppid, false, false, HOUSEKEEP_FULL, None, []))
  {
  }

  /** With good options, every parameter is what the last occurrence of its
      option gives (or its default), the identifier defaults to the command
      joined by spaces, and a data directory under `~/` is expanded. */
  lemma ParseArgsSettings(opts: seq<Opt>, operands: seq<seq<char>>, ppid: int, home: Option<seq<char>>)
    requires forall i :: 0 <= i < |opts| ==> !IsError(opts[i])
    ensures var r := ParseArgs(opts, operands, ppid, home);
      var o := Overlay(Defaults(ppid), opts);
      r.Valid? &&
      r.params.global == o.global && r.params.parent == o.parent && r.params.watch == o.watch &&
      r.params.verbose == o.verbose && r.params.housekeep == o.housekeep &&
      r.params.id == (if o.key.Some? then o.key.value else JoinSpaces(r.params.spawn)) &&
      r.params.dataDir == (if HasHomePrefix(o.dataDir) then ExpandHomeDir(home, o.dataDir) else o.dataDir)
  {
    OptionsLastWins(Defaults(ppid), opts);
  }

  /** Without `-k` the identifier is the command: `query foo bar` gives
      `foo bar`; with `-k Test` it is `Test`. */
  lemma IdentifierExamples(ppid: int, home: Option<seq<char>>)
    ensures ParseArgs([], ["query", "foo", "bar"], ppid, home).params.id == "foo bar"
    ensures ParseArgs([KeyOpt("Test")], ["query", "foo", "bar"], ppid, home).params.id == "Test"
  {
    assert JoinSpaces(["foo", "bar"]) == "foo" + " " + JoinSpaces(["bar"]);
  }
}

=== FILE: proctree.dfy ===
/** The process table as `signal_tree` and `terminate_process` see it: the
    pids listed by `/proc` (or a Toolhelp snapshot), in enumeration order,
    and the parent of each pid as `get_parent` reports it. */
module ProcTree {
  import opened CLib

  datatype Table = Table(pids: seq<int>, parentOf: int -> int)

  /** The number of steps the parent chain of `q` takes to leave the listed
      pids, if it does so within `fuel` steps. */
  function Chain(t: Table, q: int, fuel: nat): (h: Option<nat>)
    ensures h.Some? ==> h.value <= fuel
    ensures q !in t.pids <==> h == Some(0)
    decreases fuel
  {
    if q !in t.pids then Some(0)
    else if fuel == 0 then None
    else match Chain(t, t.parentOf(q), fuel - 1)
      case Some(n) => Some(n + 1)
      case None => None
  }

  /** The parent relation has no cycle among the listed pids: every parent
      chain leaves them within as many steps as there are pids. */
  predicate Acyclic(t: Table)
  {
    forall q :: q in t.pids ==> Chain(t, q, |t.pids|).Some?
  }

  /** How far `q` is from the top of its tree: 0 for an unlisted pid. */
  function Height(t: Table, q: int): (h: nat)
    requires Acyclic(t)
    ensures h <= |t.pids|
    ensures q !in t.pids <==> h == 0
  {
    if q in t.pids then Chain(t, q, |t.pids|).value else 0
  }

  lemma {:induction false} ChainMonotone(t: Table, q: int, f: nat, g: nat)
    requires f <= g && Chain(t, q, f).Some?
    ensures Chain(t, q, g) == Chain(t, q, f)
    decreases f
  {
    if q in t.pids {
      ChainMonotone(t, t.parentOf(q), f - 1, g - 1);
    }
  }

  /** A listed pid sits one level below its parent. */
  lemma HeightStep(t: Table, q: int)
    requires Acyclic(t) && q in t.pids
    ensures Height(t, q) == Height(t, t.parentOf(q)) + 1
  {
    var n := |t.pids|;
    var p := t.parentOf(q);
    if p in t.pids {
      ChainMonotone(t, p, n - 1, n);
    }
  }

  /** The listed pids whose parent is `p`, in enumeration order. */
  function Children(t: Table, p: int): (kids: seq<int>)
    ensures forall k :: k in kids <==> k in t.pids && t.parentOf(k) == p
  {
    ChildrenOf(t.pids, t.parentOf, p)
  }

  function ChildrenOf(pids: seq<int>, parentOf: int -> int, p: int): (kids: seq<int>)
    ensures forall k :: k in kids <==> k in pids && parentOf(k) == p
    ensures |kids| <= |pids|
  {
    if pids == [] then []
    else (if parentOf(pids[0]) == p then [pids[0]] else []) + ChildrenOf(pids[1..], parentOf, p)
  }

  function Reverse(s: seq<int>): (r: seq<int>)
    ensures |r| == |s|
    ensures forall i :: 0 <= i < |s| ==> r[i] == s[|s| - 1 - i]
    ensures forall x :: x in r <==> x in s
  {
    if s == [] then [] else Reverse(s[1..]) + [s[0]]
  }

  /** `q` is a strict descendant of `p`: a listed pid whose parent chain
      reaches `p`. */
  predicate Below(t: Table, q: int, p: int)
    requires Acyclic(t)
    decreases Height(t, q)
  {
    q in t.pids && (t.parentOf(q) == p || (HeightStep(t, q); Below(t, t.parentOf(q), p)))
  }

  /** A descendant is strictly lower than its ancestor, so no pid is its own descendant. */
  lemma {:induction false} BelowHeight(t: Table, q: int, p: int)
    requires Acyclic(t) && Below(t, q, p)
    ensures Height(t, q) > Height(t, p)
    decreases Height(t, q)
  {
    HeightStep(t, q);
    if t.parentOf(q) != p {
      BelowHeight(t, t.parentOf(q), p);
    }
  }

  lemma BelowTrans(t: Table, q: int, c: int, p: int)
    requires Acyclic(t) && Below(t, q, c) && c in t.pids && t.parentOf(c) == p
    ensures Below(t, q, p)
    decreases Height(t, q)
  {
    HeightStep(t, q);
    if t.parentOf(q) != c {
      BelowTrans(t, t.parentOf(q), c, p);
    }
  }

  /** `q` is `p` itself or below it. */
  predicate InSubtree(t: Table, q: int, p: int)
    requires Acyclic(t)
  {
    q == p || Below(t, q, p)
  }

  /** Each pid is listed once, as `/proc` and a Toolhelp snapshot list them. */
  predicate NoDuplicates(s: seq<int>)
  {
    forall i, j :: 0 <= i < j < |s| ==> s[i] != s[j]
  }

  lemma {:induction false} ChildrenOfNoDuplicates(pids: seq<int>, parentOf: int -> int, p: int)
    requires NoDuplicates(pids)
    ensures NoDuplicates(ChildrenOf(pids, parentOf, p))
  {
    if pids != [] {
      ChildrenOfNoDuplicates(pids[1..], parentOf, p);
      assert pids[0] !in pids[1..];
    }
  }

  /** Among pids listed once, the children of `p`, reversed, are listed once. */
  lemma ReversedChildrenNoDuplicates(t: Table, p: int)
    requires NoDuplicates(t.pids)
    ensures NoDuplicates(Reverse(Children(t, p)))
  {
    ChildrenOfNoDuplicates(t.pids, t.parentOf, p);
  }

  /** "Below" is transitive. */
  lemma {:induction false} BelowBelow(t: Table, q: int, a: int, p: int)
    requires Acyclic(t) && Below(t, q, a) && Below(t, a, p)
    ensures Below(t, q, p)
    decreases Height(t, q)
  {
    HeightStep(t, q);
    if t.parentOf(q) != a {
      BelowBelow(t, t.parentOf(q), a, p);
    }
  }

  lemma InSubtreeTrans(t: Table, q: int, a: int, p: int)
    requires Acyclic(t) && InSubtree(t, q, a) && InSubtree(t, a, p)
    ensures InSubtree(t, q, p)
  {
    if q != a && a != p {
      BelowBelow(t, q, a, p);
    }
  }

  /** A process is not in the subtree of one of its children. */
  lemma NotInChildSubtree(t: Table, p: int, c: int)
    requires Acyclic(t) && c in t.pids && t.parentOf(c) == p
    ensures !InSubtree(t, p, c)
  {
    assert Below(t, c, p);
    if p == c {
      BelowHeight(t, p, p);
    } else if Below(t, p, c) {
      BelowBelow(t, p, c, p);
      BelowHeight(t, p, p);
    }
  }

  /** The subtrees of two different children of one process are disjoint. */
  lemma {:induction false} SiblingSubtreesDisjoint(t: Table, q: int, c1: int, c2: int)
    requires Acyclic(t) && c1 in t.pids && c2 in t.pids && t.parentOf(c1) == t.parentOf(c2)
    requires InSubtree(t, q, c1) && InSubtree(t, q, c2)
    ensures c1 == c2
    decreases Height(t, q)
  {
    var p := t.parentOf(c1);
    if q == c1 {
      if q != c2 {
        assert Below(t, c1, c2);
        assert Below(t, c2, p);
        if p == c2 {
          BelowHeight(t, c2, c2);
        } else {
          assert Below(t, p, c2);
          BelowBelow(t, p, c2, p);
          BelowHeight(t, p, p);
        }
      }
    } else if q == c2 {
      assert Below(t, c2, c1);
      assert Below(t, c1, p);
      if p == c1 {
        BelowHeight(t, c1, c1);
      } else {
        assert Below(t, p, c1);
        BelowBelow(t, p, c1, p);
        BelowHeight(t, p, p);
      }
    } else {
      HeightStep(t, q);
      SiblingSubtreesDisjoint(t, t.parentOf(q), c1, c2);
    }
  }
}

=== FILE: record.dfy ===
/** The process information file: the text `process_save` writes and the way
    `process_find` and `process_housekeep` read it back — `fgets` into a
    256-byte buffer, the `pid: ` and `cmd: ` line prefixes, `strtol` for the
    pid and `strdup` plus `strtok` for the command line. */
module Record {
  import opened CLib

  /** `MAX_PROCESS_INFO_LINE`: the size of the `fgets` buffer. */
  const MAX_LINE: nat := 256

  /** A value that can live in a C string. */
  predicate IsCString(s: seq<char>) { NUL !in s }

  /** What a reader extracts from an information file: the pid of the last
      `pid: ` line (0 when there is none) and, for the last `cmd: ` line, the
      bytes of its `strdup` copy after `strtok` has cut it. */
  datatype Info = Info(pid: int, cmd: Option<seq<char>>)

  /** The text of the `cmd:` line: a space before every argument. */
  function CmdArgs(argv: seq<seq<char>>): (r: seq<char>)
    ensures argv != [] ==> r == [' '] + JoinSpaces(argv)
  {
    if argv == [] then [] else [' '] + argv[0] + CmdArgs(argv[1..])
  }

  /** The lines `process_save` writes for a process, in order. */
  function RecordLines(pid: int, sid: seq<char>, ppid: int, argv: seq<seq<char>>): seq<seq<char>>
  {
    [PidText(pid), SidText(sid), PpidText(ppid), CmdText(argv)]
  }

  /** The file `process_save` writes for a process. */
  function RecordText(pid: int, sid: seq<char>, ppid: int, argv: seq<seq<char>>): seq<char>
  {
    Concat(RecordLines(pid, sid, ppid, argv))
  }

  /** How many bytes one `fgets (tmp, MAX_LINE, info)` call takes from the rest
      `s` of the file, having stored `i` so far: it stops after a newline, at
      the end of the file, or when `MAX_LINE - 1` bytes are stored. */
  function LineEnd(s: seq<char>, i: nat): (n: nat)
    requires i <= |s| && i < MAX_LINE
    ensures i <= n <= |s| && n < MAX_LINE
    ensures forall k :: i <= k < n - 1 ==> s[k] != '\n'
    ensures n == |s| || n == MAX_LINE - 1 || (n > i && s[n - 1] == '\n')
    decreases |s| - i
  {
    if i == |s| || i == MAX_LINE - 1 then i
    else if s[i] == '\n' then i + 1
    else LineEnd(s, i + 1)
  }

  /** The successive `fgets` results for a file. */
  function Chunks(s: seq<char>): (cs: seq<seq<char>>)
    ensures Concat(cs) == s
    ensures forall k :: 0 <= k < |cs| ==> 1 <= |cs[k]| < MAX_LINE
    decreases |s|
  {
    if s == [] then []
    else
      var n := LineEnd(s, 0);
      assert n >= 1;
      [s[..n]] + Chunks(s[n..])
  }

  /** A line that fits the buffer comes back from `fgets` whole. */
  lemma {:induction false} LineEndOfLine(line: seq<char>, rest: seq<char>, i: nat)
    requires 1 <= |line| < MAX_LINE && line[|line| - 1] == '\n'
    requires forall k :: 0 <= k < |line| - 1 ==> line[k] != '\n'
    requires i < |line|
    ensures LineEnd(line + rest, i) == |line|
    decreases |line| - i
  {
    var s := line + rest;
    if s[i] != '\n' {
      LineEndOfLine(line, rest, i + 1);
    }
  }

  lemma ChunksOfLine(line: seq<char>, rest: seq<char>)
    requires 1 <= |line| < MAX_LINE && line[|line| - 1] == '\n'
    requires forall k :: 0 <= k < |line| - 1 ==> line[k] != '\n'
    ensures Chunks(line + rest) == [line] + Chunks(rest)
  {
    LineEndOfLine(line, rest, 0);
    var s := line + rest;
    assert s[..|line|] == line && s[|line|..] == rest;
  }

  /** `strncmp (tmp, p, 5) == 0` for a five-character prefix without NUL. */
  predicate HasPrefix(chunk: seq<char>, p: seq<char>)
  {
    |p| <= |CStr(chunk)| && CStr(chunk)[..|p|] == p
  }

  predicate IsDelim(c: char) { c == '\r' || c == '\n' }

  /** Index of the first non-delimiter in `s` at or after `i`, or `|s|`. */
  function SkipDelims(s: seq<char>, i: nat): (k: nat)
    requires i <= |s|
    ensures i <= k <= |s|
    ensures forall j :: i <= j < k ==> IsDelim(s[j])
    ensures k < |s| ==> !IsDelim(s[k])
    decreases |s| - i
  {
    if i < |s| && IsDelim(s[i]) then SkipDelims(s, i + 1) else i
  }

  /** Index of the first delimiter in `s` at or after `i`, or `|s|`. */
  function FindDelim(s: seq<char>, i: nat): (k: nat)
    requires i <= |s|
    ensures i <= k <= |s|
    ensures forall j :: i <= j < k ==> !IsDelim(s[j])
    ensures k < |s| ==> IsDelim(s[k])
    decreases |s| - i
  {
    if i < |s| && !IsDelim(s[i]) then FindDelim(s, i + 1) else i
  }

  /** The buffer after `strtok (buf, "\r\n")`: leading delimiters are skipped;
      if a token follows, the first delimiter after it becomes NUL; a string of
      delimiters only is left alone. */
  function Strtok(buf: seq<char>): (r: seq<char>)
    ensures |r| == |buf|
    ensures forall j :: 0 <= j < |buf| && j != |CStr(buf)| ==> (r[j] == buf[j] || (IsDelim(buf[j]) && r[j] == NUL))
  {
    var t := CStr(buf);
    var k := SkipDelims(t, 0);
    if k == |t| then buf
    else
      var e := FindDelim(t, k);
      if e < |t| then buf[e := NUL] else buf
  }

  /** `strtok` turns a newline-terminated command line into the command line
      followed by two NULs. */
  lemma StrtokLine(j: seq<char>)
    requires j != [] && IsCString(j) && '\r' !in j && '\n' !in j
    ensures Strtok(j + "\n" + [NUL]) == j + [NUL, NUL]
  {
    var buf := j + "\n" + [NUL];
    assert buf[..|j| + 1] == j + "\n";
    CStrNoNul(j + "\n");
    assert CStr(buf) == j + "\n" by {
      CStrPrefix(j + "\n", [NUL]);
    }
    var t := CStr(buf);
    assert !IsDelim(t[0]);
    assert SkipDelims(t, 0) == 0;
    FindDelimAt(t, |j|);
    assert buf[|j| := NUL] == j + [NUL, NUL];
  }

  lemma FindDelimAt(t: seq<char>, e: nat)
    requires e < |t| && IsDelim(t[e])
    requires forall i :: 0 <= i < e ==> !IsDelim(t[i])
    ensures FindDelim(t, 0) == e
  {
  }

  lemma {:induction false} CStrPrefix(s: seq<char>, tail: seq<char>)
    requires NUL !in s && tail != [] && tail[0] == NUL
    ensures CStr(s + tail) == s
  {
    if s != [] {
      assert (s + tail)[1..] == s[1..] + tail;
      CStrPrefix(s[1..], tail);
    }
  }

  /** What one `fgets` result does to the reader's state. */
  function ReadChunk(acc: Info, chunk: seq<char>): Info
  {
    if HasPrefix(chunk, "pid: ") then acc.(pid := ToInt32(Strtol(CStr(chunk)[5..])))
    else if HasPrefix(chunk, "cmd: ") then acc.(cmd := Some(Strtok(CStr(chunk)[5..] + [NUL])))
    else acc
  }

  function ReadChunks(acc: Info, cs: seq<seq<char>>): Info
    decreases |cs|
  {
    if cs == [] then acc else ReadChunks(ReadChunk(acc, cs[0]), cs[1..])
  }

  /** The information an information file yields to a reader. The pid is the
      one the last `pid: ` line gives and the command line is the one the last
      `cmd: ` line gives: a later line overrides an earlier one. */
  function ParseRecord(content: seq<char>): (info: Info)
  {
    ReadChunks(Info(0, None), Chunks(content))
  }

  lemma PidLine(acc: Info, pid: int)
    requires -TWO31 <= pid < TWO31
    ensures ReadChunk(acc, "pid: " + Dec(ToUInt32(pid)) + "\n") == acc.(pid := pid)
  {
    var u := ToUInt32(pid);
    var d := Dec(u);
    var line := "pid: " + d + "\n";
    DigitsNoNul(d);
    CStrNoNul(line);
    assert line[..5] == "pid: ";
    assert line[5..] == d + "\n";
    StrtolDec(u, "\n");
    ToInt32ToUInt32(pid);
  }

  lemma DigitsNoNul(d: seq<char>)
    requires AllDigits(d)
    ensures NUL !in d && '\n' !in d && '\r' !in d
  {
  }

  lemma OtherLine(acc: Info, head: seq<char>, body: seq<char>)
    requires |head| == 5 && head != "pid: " && head != "cmd: " && NUL !in head
    ensures ReadChunk(acc, head + body) == acc
  {
    var c := CStr(head + body);
    if |c| >= 5 {
      assert (head + body)[..5] == head;
    }
  }

  lemma CmdLine(acc: Info, j: seq<char>)
    requires j != [] && IsCString(j) && '\r' !in j && '\n' !in j
    ensures ReadChunk(acc, "cmd: " + j + "\n") == acc.(cmd := Some(j + [NUL, NUL]))
  {
    var line := "cmd: " + j + "\n";
    CStrNoNul(line);
    assert line[..5] == "cmd: " && line[5..] == j + "\n";
    assert HasPrefix(line, "cmd: ");
    assert !HasPrefix(line, "pid: ") by {
      assert line[0] != "pid: "[0];
    }
    StrtokLine(j);
    assert CStr(line)[5..] + [NUL] == j + "\n" + [NUL];
  }

  /** A line without a newline inside it, ending with one, that fits `fgets`'s buffer. */
  predicate FitsLine(line: seq<char>)
  {
    1 <= |line| < MAX_LINE && line[|line| - 1] == '\n'
    && forall k :: 0 <= k < |line| - 1 ==> line[k] != '\n'
  }

  lemma DecLine(prefix: seq<char>, n: nat)
    requires n < TWO32 && |prefix| <= 6 && '\n' !in prefix
    ensures FitsLine(prefix + Dec(n) + "\n")
  {
    DecLen(n);
    var d := Dec(n);
    assert forall i :: 0 <= i < |d| ==> IsDigit(d[i]);
  }

  /** The conditions under which a saved file reads back exactly: the pid fits
      a `pid_t`, the identifier and the command line are single lines that fit
      `fgets`'s buffer, and the command line is not empty. */
  predicate RoundTrips(pid: int, sid: seq<char>, argv: seq<seq<char>>)
  {
    -TWO31 <= pid < TWO31
    && IsCString(sid) && '\n' !in sid && |sid| <= MAX_LINE - 7
    && NoneContains(argv, NUL) && NoneContains(argv, '\n') && NoneContains(argv, '\r')
    && argv != [] && JoinSpaces(argv) != [] && |JoinSpaces(argv)| <= MAX_LINE - 7
  }

  function PidText(pid: int): seq<char> { "pid: " + Dec(ToUInt32(pid)) + "\n" }
  function SidText(sid: seq<char>): seq<char> { "sid: " + sid + "\n" }
  function PpidText(ppid: int): seq<char> { "ppid: " + Dec(ToUInt32(ppid)) + "\n" }
  function CmdText(argv: seq<seq<char>>): seq<char> { "cmd:" + CmdArgs(argv) + "\n" }

  /** `fgets` returns a file made of lines that fit its buffer line by line. */
  lemma {:induction false} ChunksOfLines(lines: seq<seq<char>>)
    requires forall k :: 0 <= k < |lines| ==> FitsLine(lines[k])
    ensures Chunks(Concat(lines)) == lines
  {
    if lines != [] {
      ChunksOfLines(lines[1..]);
      ChunksOfLine(lines[0], Concat(lines[1..]));
    }
  }

  lemma FitsPidText(pid: int)
    ensures FitsLine(PidText(pid))
  {
    DecLine("pid: ", ToUInt32(pid));
  }

  lemma FitsPpidText(ppid: int)
    ensures FitsLine(PpidText(ppid))
  {
    DecLine("ppid: ", ToUInt32(ppid));
  }

  lemma FitsSidText(sid: seq<char>)
    requires '\n' !in sid && |sid| <= MAX_LINE - 7
    ensures FitsLine(SidText(sid))
  {
  }

  lemma FitsCmdText(argv: seq<seq<char>>)
    requires argv != [] && NoneContains(argv, '\n') && |JoinSpaces(argv)| <= MAX_LINE - 7
    ensures CmdText(argv) == "cmd: " + JoinSpaces(argv) + "\n"
    ensures FitsLine(CmdText(argv))
  {
    JoinSpacesAvoids(argv, '\n');
  }

  /** `fgets` returns the four lines of a saved file one by one. */
  lemma RecordChunks(pid: int, sid: seq<char>, ppid: int, argv: seq<seq<char>>)
    requires RoundTrips(pid, sid, argv)
    ensures Chunks(RecordText(pid, sid, ppid, argv)) == RecordLines(pid, sid, ppid, argv)
  {
    var lines := RecordLines(pid, sid, ppid, argv);
    FitsPidText(pid);
    FitsSidText(sid);
    FitsPpidText(ppid);
    FitsCmdText(argv);
    ChunksOfLines(lines);
  }

  lemma ReadFour(acc: Info, cs: seq<seq<char>>)
    requires |cs| == 4
    ensures ReadChunks(acc, cs) == ReadChunk(ReadChunk(ReadChunk(ReadChunk(acc, cs[0]), cs[1]), cs[2]), cs[3])
  {
    var a1 := ReadChunk(acc, cs[0]);
    var a2 := ReadChunk(a1, cs[1]);
    var a3 := ReadChunk(a2, cs[2]);
    assert ReadChunks(acc, cs) == ReadChunks(a1, cs[1..]);
    assert ReadChunks(a1, cs[1..]) == ReadChunks(a2, cs[2..]);
    assert ReadChunks(a2, cs[2..]) == ReadChunks(a3, cs[3..]);
    assert ReadChunks(a3, cs[3..]) == ReadChunks(ReadChunk(a3, cs[3]), []);
  }

  /** Reading back what `process_save` wrote yields the saved pid and the
      space-joined command line, cut by `strtok` into the command line and two NULs. */
  lemma ParseRecordText(pid: int, sid: seq<char>, ppid: int, argv: seq<seq<char>>)
    requires RoundTrips(pid, sid, argv)
    ensures ParseRecord(RecordText(pid, sid, ppid, argv)) == Info(pid, Some(JoinSpaces(argv) + [NUL, NUL]))
  {
    var j := JoinSpaces(argv);
    var lines := RecordLines(pid, sid, ppid, argv);
    var a0 := Info(0, None);
    var a1 := Info(pid, None);
    RecordChunks(pid, sid, ppid, argv);
    ReadFour(a0, lines);
    PidLine(a0, pid);
    assert ReadChunk(a0, lines[0]) == a1;
    SidLine(a1, sid);
    assert ReadChunk(a1, lines[1]) == a1;
    PpidLine(a1, ppid);
    assert ReadChunk(a1, lines[2]) == a1;
    CmdLineOf(a1, argv);
    assert ReadChunk(a1, lines[3]) == Info(pid, Some(j + [NUL, NUL]));
  }

  lemma CmdLineOf(acc: Info, argv: seq<seq<char>>)
    requires argv != [] && JoinSpaces(argv) != []
    requires NoneContains(argv, NUL) && NoneContains(argv, '\n') && NoneContains(argv, '\r')
    ensures ReadChunk(acc, CmdText(argv)) == acc.(cmd := Some(JoinSpaces(argv) + [NUL, NUL]))
  {
    JoinSpacesAvoids(argv, NUL);
    JoinSpacesAvoids(argv, '\n');
    JoinSpacesAvoids(argv, '\r');
    assert CmdText(argv) == "cmd: " + JoinSpaces(argv) + "\n";
    CmdLine(acc, JoinSpaces(argv));
  }

  lemma SidLine(acc: Info, sid: seq<char>)
    ensures ReadChunk(acc, SidText(sid)) == acc
  {
    assert SidText(sid) == "sid: " + (sid + "\n");
    OtherLine(acc, "sid: ", sid + "\n");
  }

  lemma PpidLine(acc: Info, ppid: int)
    ensures ReadChunk(acc, PpidText(ppid)) == acc
  {
    assert PpidText(ppid) == "ppid:" + (" " + Dec(ToUInt32(ppid)) + "\n");
    OtherLine(acc, "ppid:", " " + Dec(ToUInt32(ppid)) + "\n");
  }
}

=== FILE: store.dfy ===
/** The data directory: one sub-directory per scope (`GLOBAL` or a parent
    pid) holding one information file per process identifier, and the three
    operations on it — `process_find`, `process_save` and
    `process_housekeep`. The directory is a snapshot value; the processes of
    the machine are a `Host.System` snapshot. */
module Store {
  import opened CLib
  import opened Naming
  import opened Record
  import opened ProcVerify
  import opened Host

  /** An entry of a scope directory. `Unopenable` is a file that cannot be
      opened (for reading or for writing); `SubDir` is a directory. */
  datatype Node = File(content: seq<char>) | Unopenable | SubDir

  /** An entry of the data directory: a directory of records, or something
      that is not a directory at all. */
  datatype TopEntry = Scope(entries: map<seq<char>, Node>) | NotADir

  type DataDir = map<seq<char>, TopEntry>

  /** The data directory, `None` when it does not exist. The maps hold the
      real entries of each directory; `.` and `..` are not entries. */
  type DataStore = Option<DataDir>

  /** What `process_find` reports for one information file: the pid it names,
      checked against `/proc` when the file holds a command line. */
  function FindInRecord(content: seq<char>, sys: System): (pid: int)
    ensures pid != 0 ==> pid == ParseRecord(content).pid
    ensures ParseRecord(content).cmd.None? ==> pid == ParseRecord(content).pid
  {
    var info := ParseRecord(content);
    match info.cmd
    case None => info.pid
    case Some(cmd) => if VerifyPid(cmd, sys.cmdline(ToUInt32(info.pid))) then info.pid else 0
  }

  /** The entry a record for `id` in the given scope lives at, if any. A
      file name that is empty, `.` or `..` names a directory, never an entry. */
  function Lookup(store: DataStore, global: bool, ppid: int, id: seq<char>): Option<Node>
    requires AllAscii(id)
  {
    var scope := ScopeName(global, ppid);
    var name := Escape(id);
    if !DotName(name) && store.Some? && scope in store.value && store.value[scope].Scope? && name in store.value[scope].entries
    then Some(store.value[scope].entries[name])
    else None
  }

  /** `process_find` on POSIX: the pid of the controlled process, 0 when there
      is no usable record. A directory in place of the file opens but yields
      no line, so it is reported as 0 too; so is a file name that names a
      directory (an identifier ``, `.` or `..`). */
  function Find(store: DataStore, sys: System, global: bool, ppid: int, id: seq<char>): (pid: int)
    requires AllAscii(id)
    ensures DotName(id) ==> pid == 0
    ensures pid != 0 ==> exists c :: Lookup(store, global, ppid, id) == Some(File(c)) && pid == FindInRecord(c, sys)
  {
    EscapeDotName(id);
    match Lookup(store, global, ppid, id)
    case Some(File(c)) => FindInRecord(c, sys)
    case _ => 0
  }

  /** `process_save`: the scope directory is created as needed and the record
      written over any file of the same name. Opening fails with `ENOTDIR`
      when the scope name is taken by a non-directory, with `EISDIR` when the
      file name is taken by a directory, or names one (the identifiers ``,
      `.` and `..`), and with `EACCES` when the file cannot be opened; then
      no record is written. */
  function Save(store: DataStore, global: bool, ppid: int, id: seq<char>, pid: int, argv: seq<seq<char>>): (res: (int, DataStore))
    requires AllAscii(id)
    ensures res.1.Some?
    ensures res.0 == 0 <==> Lookup(res.1, global, ppid, id) == Some(File(RecordText(pid, id, ppid, argv)))
    ensures DotName(id) ==> res.0 == (if store.Some? && ScopeName(global, ppid) in store.value && store.value[ScopeName(global, ppid)].NotADir? then ENOTDIR else EISDIR)
  {
    EscapeDotName(id);
    var d := if store.Some? then store.value else map[];
    var scope := ScopeName(global, ppid);
    var name := Escape(id);
    if scope in d && d[scope].NotADir? then (ENOTDIR, Some(d))
    else
      var entries := if scope in d then d[scope].entries else map[];
      if DotName(name) || (name in entries && entries[name].SubDir?) then (EISDIR, Some(d[scope := Scope(entries)]))
      else if name in entries && entries[name].Unopenable? then (EACCES, Some(d[scope := Scope(entries)]))
      else (0, Some(d[scope := Scope(entries[name := File(RecordText(pid, id, ppid, argv))])]))
  }

  /** A record saved for a process is found again while the process runs
      with the saved arguments, directly or as a script behind an interpreter. */
  lemma SaveThenFind(store: DataStore, sys: System, global: bool, ppid: int, id: seq<char>, pid: int, argv: seq<seq<char>>, interpreter: Option<seq<char>>)
    requires AllAscii(id) && RoundTrips(pid, id, argv) && pid != 0
    requires Save(store, global, ppid, id, pid, argv).0 == 0
    requires interpreter.Some? ==> NUL !in interpreter.value
    requires sys.cmdline(ToUInt32(pid))
             == Some(ProcCmdline(if interpreter.Some? then [interpreter.value] + argv else argv))
    ensures Find(Save(store, global, ppid, id, pid, argv).1, sys, global, ppid, id) == pid
  {
    ParseRecordText(pid, id, ppid, argv);
    if interpreter.Some? {
      SavedCommandVerifies(argv, interpreter.value);
    } else {
      SavedCommandVerifies(argv, []);
    }
  }

  /** Saving touches one record: every other record is found as before. */
  lemma SaveKeepsOthers(store: DataStore, sys: System, global: bool, ppid: int, id: seq<char>, pid: int, argv: seq<seq<char>>,
                        global': bool, ppid': int, id': seq<char>)
    requires AllAscii(id) && AllAscii(id')
    requires ScopeName(global, ppid) != ScopeName(global', ppid') || id != id'
    ensures Find(Save(store, global, ppid, id, pid, argv).1, sys, global', ppid', id') == Find(store, sys, global', ppid', id')
  {
    SaveLookupOthers(store, global, ppid, id, pid, argv, global', ppid', id');
  }

  lemma SaveLookupOthers(store: DataStore, global: bool, ppid: int, id: seq<char>, pid: int, argv: seq<seq<char>>,
                         global': bool, ppid': int, id': seq<char>)
    requires AllAscii(id) && AllAscii(id')
    requires ScopeName(global, ppid) != ScopeName(global', ppid') || id != id'
    ensures Lookup(Save(store, global, ppid, id, pid, argv).1, global', ppid', id') == Lookup(store, global', ppid', id')
  {
    if ScopeName(global, ppid) != ScopeName(global', ppid') {
      SaveOtherScope(store, global, ppid, id, pid, argv, ScopeName(global', ppid'));
    } else {
      if Escape(id) == Escape(id') {
        EscapeInjective(id, id');
      }
      SaveSameScope(store, global, ppid, id, pid, argv, Escape(id'));
    }
  }

  lemma SaveOtherScope(store: DataStore, global: bool, ppid: int, id: seq<char>, pid: int, argv: seq<seq<char>>, scope': seq<char>)
    requires AllAscii(id) && ScopeName(global, ppid) != scope'
    ensures var after := Save(store, global, ppid, id, pid, argv).1.value;
      (scope' in after <==> store.Some? && scope' in store.value)
      && (scope' in after ==> after[scope'] == store.value[scope'])
  {
  }

  lemma SaveSameScope(store: DataStore, global: bool, ppid: int, id: seq<char>, pid: int, argv: seq<seq<char>>, name': seq<char>)
    requires AllAscii(id) && Escape(id) != name'
    ensures var scope := ScopeName(global, ppid);
      var after := Save(store, global, ppid, id, pid, argv).1.value;
      store.Some? && scope in store.value && store.value[scope].Scope? ==>
        scope in after && after[scope].Scope?
        && (name' in after[scope].entries <==> name' in store.value[scope].entries)
        && (name' in after[scope].entries ==> after[scope].entries[name'] == store.value[scope].entries[name'])
  {
  }

  // ---------------------------------------------------------------------------
  // Housekeeping

  /** A data-directory entry housekeeping does not look at. */
  predicate Hidden(name: seq<char>) { name != [] && name[0] == '.' }

  /** A scope named after a parent pid (its name starts with a digit) whose
      parent `_is_running` reports gone. The pid is `strtol` of the name, cast
      to `pid_t`. */
  predicate DeadParent(sys: System, name: seq<char>)
  {
    name != [] && IsDigit(name[0]) && !Running(sys, ToInt32(Strtol(name)))
  }

  /** Whether housekeeping keeps an information file: it must name a pid other
      than 0, hold a command line, and `verify_pid` must accept the pair. */
  predicate KeepRecord(content: seq<char>, sys: System)
  {
    var info := ParseRecord(content);
    info.cmd.Some? && info.pid != 0 && VerifyPid(info.cmd.value, sys.cmdline(ToUInt32(info.pid)))
  }

  /** Whether an entry of a live scope survives. A file that cannot be opened
      is left alone. A directory opens, yields no line and fails to `unlink`,
      so it stays. */
  predicate KeepNode(n: Node, sys: System)
  {
    match n
    case File(c) => KeepRecord(c, sys)
    case Unopenable => true
    case SubDir => true
  }

  /** The entries of a scope directory after housekeeping. In a dead parent's
      scope every entry is unlinked, which removes all but directories. */
  function CleanScope(sys: System, name: seq<char>, entries: map<seq<char>, Node>): (kept: map<seq<char>, Node>)
    ensures kept.Keys <= entries.Keys
    ensures forall k :: k in kept ==> kept[k] == entries[k]
    ensures DeadParent(sys, name) ==> forall k :: k in entries ==> (k in kept <==> entries[k].SubDir?)
    ensures !DeadParent(sys, name) ==> forall k :: k in entries ==> (k in kept <==> KeepNode(entries[k], sys))
  {
    if DeadParent(sys, name) then map k | k in entries && entries[k].SubDir? :: entries[k]
    else map k | k in entries && KeepNode(entries[k], sys) :: entries[k]
  }

  /** A scope directory is removed once it has no entries left: `rmdir` is
      attempted when no file is counted as kept, and succeeds only on an empty
      directory. */
  predicate RemovedTop(sys: System, name: seq<char>, e: TopEntry)
  {
    !Hidden(name) && e.Scope? && CleanScope(sys, name, e.entries) == map[]
  }

  function CleanTop(sys: System, name: seq<char>, e: TopEntry): TopEntry
  {
    if Hidden(name) then e
    else match e
      case NotADir => NotADir
      case Scope(es) => Scope(CleanScope(sys, name, es))
  }

  /** `process_housekeep` on POSIX: `ENOENT` when the data directory cannot be
      opened, otherwise 0 with every record that no longer matches a running
      process deleted and every emptied scope directory removed. */
  function Housekeep(store: DataStore, sys: System): (res: (int, DataStore))
    ensures store.None? <==> res.0 == ENOENT
    ensures store.None? ==> res.1 == store
    ensures store.Some? ==> res.0 == 0 && res.1.Some? && res.1.value.Keys <= store.value.Keys
    ensures store.Some? ==> forall k | k in store.value ::
      (Hidden(k) || store.value[k].NotADir? ==> k in res.1.value && res.1.value[k] == store.value[k])
      && (!Hidden(k) && store.value[k].Scope? ==>
            (k in res.1.value <==> CleanScope(sys, k, store.value[k].entries) != map[])
            && (k in res.1.value ==> res.1.value[k] == Scope(CleanScope(sys, k, store.value[k].entries))))
  {
    match store
    case None => (ENOENT, None)
    case Some(d) =>
      (0, Some(map k | k in d && !RemovedTop(sys, k, d[k]) :: CleanTop(sys, k, d[k])))
  }

  /** Housekeeping keeps a record exactly when `process_find` would report it
      and it holds a command line. A record without a command line is deleted
      although `process_find` would report its pid unchecked. */
  lemma KeepRecordIsFound(content: seq<char>, sys: System)
    ensures KeepRecord(content, sys) <==> FindInRecord(content, sys) != 0 && ParseRecord(content).cmd.Some?
  {
  }

  /** After housekeeping, a record in a scope whose parent runs (or a global
      one) is found exactly as before if it holds a command line, and not at
      all otherwise; in a dead parent's scope nothing is found. */
  lemma HousekeepThenFind(store: DataStore, sys: System, global: bool, ppid: int, id: seq<char>)
    requires AllAscii(id)
    ensures var after := Housekeep(store, sys).1;
      var scope := ScopeName(global, ppid);
      Find(after, sys, global, ppid, id)
        == if DeadParent(sys, scope) then 0
           else match Lookup(store, global, ppid, id)
             case Some(File(c)) => if ParseRecord(c).cmd.Some? then Find(store, sys, global, ppid, id) else 0
             case _ => 0
  {
    var scope := ScopeName(global, ppid);
    var name := Escape(id);
    EscapeIsPlainName(id);
    if store.Some? && scope in store.value && store.value[scope].Scope? {
      var d := store.value;
      assert !Hidden(scope);
      var kept := CleanScope(sys, scope, d[scope].entries);
      var after := Housekeep(store, sys).1.value;
      if !RemovedTop(sys, scope, d[scope]) {
        assert scope in after && after[scope] == Scope(kept);
      } else {
        assert scope !in after;
        if name in d[scope].entries && !DeadParent(sys, scope) {
          assert !KeepNode(d[scope].entries[name], sys);
        }
      }
    } else if store.Some? {
      var after := Housekeep(store, sys).1.value;
      assert scope in after ==> after[scope] == store.value[scope];
    }
  }

  /** Housekeeping twice is housekeeping once: whatever survives a pass
      survives the next. */
  lemma HousekeepIdempotent(store: DataStore, sys: System)
    ensures Housekeep(Housekeep(store, sys).1, sys).1 == Housekeep(store, sys).1
  {
    if store.Some? {
      var d := store.value;
      var d1 := Housekeep(store, sys).1.value;
      var d2 := Housekeep(Some(d1), sys).1.value;
      forall k | k in d1
        ensures !RemovedTop(sys, k, d1[k]) && CleanTop(sys, k, d1[k]) == d1[k]
      {
        CleanTopStable(sys, k, d[k]);
      }
      assert d2 == d1;
    }
  }

  /** A surviving data-directory entry is a fixed point of the cleaning. */
  lemma CleanTopStable(sys: System, name: seq<char>, e: TopEntry)
    requires !RemovedTop(sys, name, e)
    ensures !RemovedTop(sys, name, CleanTop(sys, name, e))
    ensures CleanTop(sys, name, CleanTop(sys, name, e)) == CleanTop(sys, name, e)
  {
    if !Hidden(name) && e.Scope? {
      var kept := CleanScope(sys, name, e.entries);
      CleanScopeStable(sys, name, e.entries);
    }
  }

  lemma CleanScopeStable(sys: System, name: seq<char>, entries: map<seq<char>, Node>)
    ensures CleanScope(sys, name, CleanScope(sys, name, entries)) == CleanScope(sys, name, entries)
  {
    var kept := CleanScope(sys, name, entries);
    var again := CleanScope(sys, name, kept);
    assert again.Keys == kept.Keys;
  }
}

=== FILE: verify.dfy ===
/** `verify_pid`: the check that a pid still belongs to the process that was
    started, by comparing the stored command line with `/proc/<pid>/cmdline`.
    Two cursors walk the stored text: `noScript` from the first argument of
    the process, `script` from its second (a script run by an interpreter
    shows the interpreter as its first argument). A space in the stored text
    matches the NUL that ends each argument in `/proc`. */
module ProcVerify {
  import opened CLib

  /** `/proc/<pid>/cmdline` of a process with arguments `xs`: each argument
      followed by a NUL. */
  function ProcCmdline(xs: seq<seq<char>>): (s: seq<char>)
    ensures xs != [] ==> s != [] && s[|s| - 1] == NUL
  {
    if xs == [] then [] else xs[0] + [NUL] + ProcCmdline(xs[1..])
  }

  /** Whether a live cursor at `p` accepts the character `c`. A cursor past the
      end of the buffer accepts nothing (in C it would read past the copy). */
  predicate Matches(b: seq<char>, p: nat, c: char)
  {
    p < |b| && (b[p] == c || (b[p] == ' ' && c == NUL))
  }

  function Step(b: seq<char>, cur: Option<nat>, c: char): Option<nat>
  {
    match cur
    case None => None
    case Some(p) => if Matches(b, p, c) then Some(p + 1) else None
  }

  /** One cursor run over a stream on its own. */
  function Run(b: seq<char>, cur: Option<nat>, s: seq<char>): Option<nat>
    decreases |s|
  {
    if s == [] then cur else Run(b, Step(b, cur, s[0]), s[1..])
  }

  /** The cursors as the C loop leaves them. */
  datatype Cursors = Cursors(script: Option<nat>, noScript: Option<nat>)

  /** The `do ... while (1)` loop of `verify_pid` over the rest `s` of the
      stream, `argc` NULs having been read. The script cursor moves only once
      a NUL has been read; the loop breaks as soon as both cursors are dead. */
  function ScanLoop(b: seq<char>, script: Option<nat>, noScript: Option<nat>, argc: nat, s: seq<char>): Cursors
    decreases |s|
  {
    if s == [] then Cursors(script, noScript)
    else
      var c := s[0];
      var script' := if argc > 0 then Step(b, script, c) else script;
      if script.Some? && script'.None? && noScript.None? then Cursors(None, None)
      else
        var noScript' := Step(b, noScript, c);
        if noScript.Some? && noScript'.None? && script'.None? then Cursors(None, None)
        else ScanLoop(b, script', noScript', if c == NUL then argc + 1 else argc, s[1..])
  }

  /** A cursor that has stopped on the terminating NUL. */
  predicate AtEnd(b: seq<char>, cur: Option<nat>)
  {
    cur.Some? && cur.value < |b| && b[cur.value] == NUL
  }

  /** `verify_pid (command_line, pid)` on POSIX, given the stored command-line
      buffer and the contents of `/proc/<pid>/cmdline` (`None` when it cannot
      be opened). */
  function VerifyPid(cmd: seq<char>, procCmdline: Option<seq<char>>): (ok: bool)
    ensures procCmdline.None? ==> !ok
  {
    match procCmdline
    case None => false
    case Some(s) =>
      var r := ScanLoop(cmd, Some(0), Some(0), 0, s);
      AtEnd(cmd, r.script) || AtEnd(cmd, r.noScript)
  }

  /** The stream after its first NUL: what the script cursor sees. */
  function AfterFirstNul(s: seq<char>): seq<char>
    decreases |s|
  {
    if s == [] then [] else if s[0] == NUL then s[1..] else AfterFirstNul(s[1..])
  }

  lemma {:induction false} RunDead(b: seq<char>, s: seq<char>)
    ensures Run(b, None, s) == None
    decreases |s|
  {
    if s != [] {
      RunDead(b, s[1..]);
    }
  }

  /** The loop with its `break`s computes the same verdict as the two cursors
      run independently, the script cursor from the first NUL on. */
  lemma {:induction false} ScanLoopIsTwoRuns(b: seq<char>, script: Option<nat>, noScript: Option<nat>, argc: nat, s: seq<char>)
    ensures ScanLoop(b, script, noScript, argc, s)
         == Cursors(Run(b, script, if argc > 0 then s else AfterFirstNul(s)), Run(b, noScript, s))
    decreases |s|
  {
    if s != [] {
      var c := s[0];
      var script' := if argc > 0 then Step(b, script, c) else script;
      var noScript' := Step(b, noScript, c);
      var argc' := if c == NUL then argc + 1 else argc;
      RunDead(b, s[1..]);
      if argc == 0 {
        RunDead(b, AfterFirstNul(s[1..]));
      }
      if script.Some? && script'.None? && noScript.None? {
      } else if noScript.Some? && noScript'.None? && script'.None? {
        if argc == 0 && c != NUL {
          assert script' == script;
        }
      } else {
        ScanLoopIsTwoRuns(b, script', noScript', argc', s[1..]);
      }
    }
  }

  /** A cursor run succeeds exactly when every character of the stream matches
      the buffer at the cursor's successive positions. */
  predicate MatchesFrom(b: seq<char>, p: nat, s: seq<char>)
  {
    forall i :: 0 <= i < |s| ==> Matches(b, p + i, s[i])
  }

  lemma {:induction false} RunLive(b: seq<char>, p: nat, s: seq<char>)
    ensures Run(b, Some(p), s) == if MatchesFrom(b, p, s) then Some(p + |s|) else None
    decreases |s|
  {
    if s != [] {
      if Matches(b, p, s[0]) {
        RunLive(b, p + 1, s[1..]);
        if MatchesFrom(b, p + 1, s[1..]) {
          forall i | 0 <= i < |s|
            ensures Matches(b, p + i, s[i])
          {
            if i > 0 {
              assert s[i] == s[1..][i - 1];
            }
          }
        } else {
          var i :| 0 <= i < |s[1..]| && !Matches(b, p + 1 + i, s[1..][i]);
          assert !Matches(b, p + (i + 1), s[i + 1]);
        }
      } else {
        RunDead(b, s[1..]);
        assert !Matches(b, p + 0, s[0]);
      }
    }
  }

  /** The stream with each NUL shown as a space: the stored form of a command line. */
  function Spaced(s: seq<char>): (r: seq<char>)
    ensures |r| == |s|
    ensures forall i :: 0 <= i < |s| ==> r[i] == (if s[i] == NUL then ' ' else s[i])
  {
    if s == [] then [] else [if s[0] == NUL then ' ' else s[0]] + Spaced(s[1..])
  }

  /** A stored text without NULs is matched from its start by a stream no
      longer than it exactly when it begins with the stream's spaced form. */
  lemma MatchesStored(stored: seq<char>, s: seq<char>)
    requires NUL !in stored
    requires |s| <= |stored|
    ensures MatchesFrom(stored + [NUL, NUL], 0, s) <==> Spaced(s) == stored[..|s|]
  {
    var b := stored + [NUL, NUL];
    if MatchesFrom(b, 0, s) {
      forall i | 0 <= i < |s|
        ensures Spaced(s)[i] == stored[i]
      {
        assert Matches(b, 0 + i, s[i]);
        assert b[i] == stored[i];
      }
    }
    if Spaced(s) == stored[..|s|] {
      forall i | 0 <= i < |s|
        ensures Matches(b, 0 + i, s[i])
      {
        assert Spaced(s)[i] == stored[i];
      }
    }
  }

  lemma SpacedAppend(x: seq<char>, y: seq<char>)
    ensures Spaced(x + y) == Spaced(x) + Spaced(y)
  {
  }

  lemma {:induction false} SpacedProcCmdline(xs: seq<seq<char>>)
    requires xs != [] && NoneContains(xs, NUL)
    ensures Spaced(ProcCmdline(xs)) == JoinSpaces(xs) + " "
  {
    var x := xs[0];
    var rest := ProcCmdline(xs[1..]);
    assert NUL !in x;
    assert ProcCmdline(xs) == (x + [NUL]) + rest;
    SpacedAppend(x + [NUL], rest);
    SpacedArgument(x);
    if |xs| == 1 {
      assert rest == [] && Spaced(rest) == [];
      assert JoinSpaces(xs) == x;
      assert (x + " ") + [] == x + " ";
    } else {
      var jt := JoinSpaces(xs[1..]);
      assert NoneContains(xs[1..], NUL);
      SpacedProcCmdline(xs[1..]);
      assert JoinSpaces(xs) == x + " " + jt;
      assert (x + " ") + (jt + " ") == x + " " + jt + " ";
    }
  }

  /** One argument of the stream and its NUL, as the stored text sees them. */
  lemma SpacedArgument(x: seq<char>)
    requires NUL !in x
    ensures Spaced(x + [NUL]) == x + " "
  {
    SpacedAppend(x, [NUL]);
    SpacedNoNul(x);
    assert Spaced([NUL]) == " ";
  }

  lemma SpacedNoNul(x: seq<char>)
    requires NUL !in x
    ensures Spaced(x) == x
  {
  }

  /** The stored command lines one cursor run accepts for a process with
      arguments `xs`: the space-joined arguments, with or without one trailing
      space, or the empty text when there are no arguments. */
  predicate Accepts(stored: seq<char>, xs: seq<seq<char>>)
  {
    if xs == [] then stored == []
    else stored == JoinSpaces(xs) || stored == JoinSpaces(xs) + " "
  }

  lemma SpacedPrefix(s: seq<char>, n: nat)
    requires n <= |s|
    ensures Spaced(s[..n]) == Spaced(s)[..n]
  {
  }

  /** The stream of a process with arguments, as a stored command line sees it. */
  lemma StreamShape(xs: seq<seq<char>>)
    requires xs != [] && NoneContains(xs, NUL)
    ensures Spaced(ProcCmdline(xs)) == JoinSpaces(xs) + " "
    ensures |ProcCmdline(xs)| == |JoinSpaces(xs)| + 1
  {
    SpacedProcCmdline(xs);
    JoinSpacesLenStream(xs);
  }

  /** A cursor run that ends on the terminator saw the arguments joined by
      spaces, with or without one trailing space. */
  lemma CursorAcceptsOnly(stored: seq<char>, xs: seq<seq<char>>)
    requires NUL !in stored && NoneContains(xs, NUL) && xs != []
    requires AtEnd(stored + [NUL, NUL], Run(stored + [NUL, NUL], Some(0), ProcCmdline(xs)))
    ensures stored == JoinSpaces(xs) || stored == JoinSpaces(xs) + " "
  {
    var b := stored + [NUL, NUL];
    var s := ProcCmdline(xs);
    var j := JoinSpaces(xs);
    RunLive(b, 0, s);
    StreamShape(xs);
    assert MatchesFrom(b, 0, s);
    assert |s| < |b| && b[|s|] == NUL;
    if |s| == |stored| {
      MatchesStored(stored, s);
    } else {
      var n := |stored|;
      assert MatchesFrom(b, 0, s[..n]) by {
        forall i | 0 <= i < n
          ensures Matches(b, 0 + i, s[..n][i])
        {
          assert Matches(b, 0 + i, s[i]);
        }
      }
      MatchesStored(stored, s[..n]);
      SpacedPrefix(s, n);
      assert (j + " ")[..n] == j;
    }
  }

  lemma CursorAcceptsTrailing(xs: seq<seq<char>>)
    requires NoneContains(xs, NUL) && xs != []
    ensures NUL !in JoinSpaces(xs) + " "
    ensures MatchesFrom(JoinSpaces(xs) + " " + [NUL, NUL], 0, ProcCmdline(xs))
  {
    JoinSpacesAvoids(xs, NUL);
    StreamShape(xs);
    MatchesStored(JoinSpaces(xs) + " ", ProcCmdline(xs));
  }

  lemma CursorAcceptsJoined(xs: seq<seq<char>>)
    requires NoneContains(xs, NUL) && xs != []
    ensures MatchesFrom(JoinSpaces(xs) + [NUL, NUL], 0, ProcCmdline(xs))
  {
    var j := JoinSpaces(xs);
    var b := j + [NUL, NUL];
    var s := ProcCmdline(xs);
    var n := |j|;
    JoinSpacesAvoids(xs, NUL);
    StreamShape(xs);
    assert |s| == n + 1 && s[n] == NUL && b[n] == NUL;
    var pre := s[..n];
    assert Spaced(pre) == j by {
      SpacedPrefix(s, n);
      assert (j + " ")[..n] == j;
    }
    MatchesStored(j, pre);
    forall i | 0 <= i < |s|
      ensures Matches(b, 0 + i, s[i])
    {
      if i < n {
        assert pre[i] == s[i];
      }
    }
  }

  /** The arguments joined by spaces, with or without one trailing space, are
      accepted by a cursor run. */
  lemma CursorAcceptsIf(stored: seq<char>, xs: seq<seq<char>>)
    requires NoneContains(xs, NUL) && xs != []
    requires stored == JoinSpaces(xs) || stored == JoinSpaces(xs) + " "
    ensures AtEnd(stored + [NUL, NUL], Run(stored + [NUL, NUL], Some(0), ProcCmdline(xs)))
  {
    var b := stored + [NUL, NUL];
    var s := ProcCmdline(xs);
    RunLive(b, 0, s);
    StreamShape(xs);
    if stored == JoinSpaces(xs) {
      CursorAcceptsJoined(xs);
    } else {
      CursorAcceptsTrailing(xs);
    }
    assert b[|s|] == NUL;
  }

  /** The verdict of a single cursor run started at the beginning of the
      stored buffer `stored` + NUL + NUL. */
  lemma CursorAccepts(stored: seq<char>, xs: seq<seq<char>>)
    requires NUL !in stored && NoneContains(xs, NUL)
    ensures AtEnd(stored + [NUL, NUL], Run(stored + [NUL, NUL], Some(0), ProcCmdline(xs))) <==> Accepts(stored, xs)
  {
    var b := stored + [NUL, NUL];
    if xs == [] {
      if stored != [] {
        assert b[0] == stored[0];
      }
    } else {
      if AtEnd(b, Run(b, Some(0), ProcCmdline(xs))) {
        CursorAcceptsOnly(stored, xs);
      }
      if Accepts(stored, xs) {
        CursorAcceptsIf(stored, xs);
      }
    }
  }

  lemma {:induction false} JoinSpacesLenStream(xs: seq<seq<char>>)
    requires xs != []
    ensures |ProcCmdline(xs)| == |JoinSpaces(xs)| + 1
  {
    if |xs| > 1 {
      JoinSpacesLenStream(xs[1..]);
    }
  }

  lemma AfterFirstNulProcCmdline(xs: seq<seq<char>>)
    requires xs != [] && NUL !in xs[0]
    ensures AfterFirstNul(ProcCmdline(xs)) == ProcCmdline(xs[1..])
  {
    AfterFirstNulSkip(xs[0], ProcCmdline(xs[1..]));
  }

  lemma {:induction false} AfterFirstNulSkip(x: seq<char>, rest: seq<char>)
    requires NUL !in x
    ensures AfterFirstNul(x + [NUL] + rest) == rest
  {
    if x != [] {
      assert (x + [NUL] + rest)[1..] == x[1..] + [NUL] + rest;
      AfterFirstNulSkip(x[1..], rest);
    }
  }

  /** `verify_pid` accepts a stored command line for a process with arguments
      `xs` exactly when it is the process's own command line, or the command
      line of a script the process (an interpreter) runs. */
  lemma VerifyPidAccepts(stored: seq<char>, xs: seq<seq<char>>)
    requires NUL !in stored && NoneContains(xs, NUL)
    ensures VerifyPid(stored + [NUL, NUL], Some(ProcCmdline(xs)))
        <==> Accepts(stored, xs) || Accepts(stored, if xs == [] then [] else xs[1..])
  {
    var b := stored + [NUL, NUL];
    var s := ProcCmdline(xs);
    ScanLoopIsTwoRuns(b, Some(0), Some(0), 0, s);
    CursorAccepts(stored, xs);
    if xs == [] {
      assert AfterFirstNul(s) == [];
    } else {
      AfterFirstNulProcCmdline(xs);
      CursorAccepts(stored, xs[1..]);
    }
  }

  /** The saved command line of a process started as `argv` verifies against
      that process, and against an interpreter running it as a script. */
  lemma SavedCommandVerifies(argv: seq<seq<char>>, interpreter: seq<char>)
    requires argv != [] && NoneContains(argv, NUL) && NUL !in interpreter
    ensures VerifyPid(JoinSpaces(argv) + [NUL, NUL], Some(ProcCmdline(argv)))
    ensures VerifyPid(JoinSpaces(argv) + [NUL, NUL], Some(ProcCmdline([interpreter] + argv)))
  {
    JoinSpacesAvoids(argv, NUL);
    VerifyPidAccepts(JoinSpaces(argv), argv);
    var ys := [interpreter] + argv;
    assert ys[1..] == argv;
    assert NoneContains(ys, NUL);
    VerifyPidAccepts(JoinSpaces(argv), ys);
  }
}

=== FILE: watchdog.dfy ===
/** The watchdog: which of a list of watched processes has ended. One scan
    (`_watchdog0_v`) reports the first process that is no longer running;
    `watchdog` repeats the scan once a second until one is found. */
module Watchdog {
  import opened CLib
  import opened Host

  /** `_is_running` for each watched pid, on POSIX. */
  function PosixAlive(sys: System, pids: seq<int>): (alive: seq<bool>)
    ensures |alive| == |pids|
    ensures forall j :: 0 <= j < |pids| ==> (alive[j] <==> Running(sys, pids[j]))
  {
    seq(|pids|, j requires 0 <= j < |pids| => Running(sys, pids[j]))
  }

  /** A Windows process handle as `_is_running` receives it. */
  datatype Handle = NullHandle | InvalidHandle | Process(id: int)

  /** `_is_running` on Windows: a null or invalid handle is not running; an
      open one is running while waiting on it with no timeout times out. */
  predicate IsRunningWin(h: Handle, waitTimesOut: int -> bool)
  {
    match h
    case NullHandle => false
    case InvalidHandle => false
    case Process(id) => waitTimesOut(id)
  }

  function WinAlive(handles: seq<Handle>, waitTimesOut: int -> bool): (alive: seq<bool>)
    ensures |alive| == |handles|
    ensures forall j :: 0 <= j < |handles| ==>
      (alive[j] <==> handles[j].Process? && waitTimesOut(handles[j].id))
  {
    seq(|handles|, j requires 0 <= j < |handles| => IsRunningWin(handles[j], waitTimesOut))
  }

  /** `_watchdog0_v`: one scan over the watched processes, in order. */
  method Scan(alive: seq<bool>) returns (i: int)
    ensures -1 <= i < |alive|
    ensures i == -1 <==> forall j :: 0 <= j < |alive| ==> alive[j]
    ensures i >= 0 ==> !alive[i] && forall j :: 0 <= j < i ==> alive[j]
  {
    var k := 0;
    while k < |alive|
      invariant 0 <= k <= |alive|
      invariant forall j :: 0 <= j < k ==> alive[j]
    {
      if !alive[k] {
        return k;
      }
      k := k + 1;
    }
    return -1;
  }

  /** `watchdog`: scan the machine as it is at each second `round` until a
      watched process has ended. The source loops for ever when none ever
      does; here `deadline` is a round by which one has. */
  method Watch(pids: seq<int>, rounds: nat -> System, deadline: nat) returns (round: nat, i: int)
    requires exists j :: 0 <= j < |pids| && !Running(rounds(deadline), pids[j])
    ensures round <= deadline && 0 <= i < |pids|
    ensures !Running(rounds(round), pids[i])
    ensures forall j :: 0 <= j < i ==> Running(rounds(round), pids[j])
    ensures forall r: nat, j :: r < round && 0 <= j < |pids| ==> Running(rounds(r), pids[j])
  {
    round := 0;
    while true
      invariant round <= deadline
      invariant forall r: nat, j :: r < round && 0 <= j < |pids| ==> Running(rounds(r), pids[j])
      decreases deadline - round
    {
      i := Scan(PosixAlive(rounds(round), pids));
      if i >= 0 {
        return;
      }
      round := round + 1;
    }
  }
}
